=== FILE: README.md ===
# A verified model of ledger's commodity prices, posting handlers, handler chain and report items

This project models four pieces of the ledger double-entry accounting tool in
Dafny and proves what each piece promises.

- **Commodity prices and symbols** (`src/commodity.cc`). Covers:
  - the price history of one commodity: `history_t::add_price`, `remove_price` and `find_price`;
  - the per-commodity collection of histories: `varied_history_t::add_price`, `remove_price`, `find_price` and `history`;
  - the symbol scanners: both `parse_symbol` overloads, `symbol_needs_quotes` and `is_reserved_token`;
  - `commodity_t::valid` and the amount ordering `compare_amount_commodities`.
- **The posting-handler pipeline** (`walk.h`). Covers:
  - the base `item_handler` and the stages whose bodies the header shows: ignore, filter, and sort, related and day-of-week buffering;
  - the `flush` overrides of the aggregating stages, and the sort stage an interval stage splices in front of its downstream;
  - the `walk_transactions` and `walk_entries` drivers;
  - the transaction and account side-data records, with their flag bits and `clear_all_xdata`.
- **Chain assembly** (`src/chain.cc`). `chain_post_handlers` turns a report's options into the list of stages an item passes through.
- **Report items** (`repitem.h`). Covers:
  - the `repitem_t` node, its constructor, `set_value` and `set_date`;
  - the scope that exposes one bound node to value expressions, and the reference scope that binds and unbinds it;
  - `repitem_predicate`.

Files:

| file | module | models |
|---|---|---|
| `wrappers.dfy` | `Wrappers` | `Option`, `Result` |
| `amounts.dfy` | `Amounts` | A rational stand-in for `amount_t`, dates, price points |
| `price_history.dfy` | `PriceHistory` | `history_t`: a strictly date-ordered sequence (a `std::map`) |
| `varied_history.dfy` | `VariedHistory` | `varied_history_t`: histories ordered by commodity |
| `symbols.dfy` | `Symbols` | The invalid-character table, `symbol_needs_quotes`, `is_reserved_token`, C strings |
| `symbol_parser.dfy` | `SymbolParser` | Both `parse_symbol` overloads |
| `commodity.dfy` | `Commodities` | `valid` and `compare_amount_commodities` |
| `xdata.dfy` | `Xdata` | Side-data records, flag constants, the two record pools |
| `handlers.dfy` | `Handlers` | The stages, delivery, flush, the walk drivers, the interval splice |
| `handler_laws.dfy` | `HandlerLaws` | What each stage forwards, buffers, flags and emits |
| `chain.dfy` | `Chain` | `chain_post_handlers` and a per-stage description of its result |
| `chain_laws.dfy` | `ChainLaws` | Precedence, exclusivity and adjacency of the chain's stages |
| `repitem.dfy` | `RepItem` | `repitem_t`, `repitem_scope_t`, `repitem_ref_scope_t`, `repitem_predicate` |

Design choices:

- **Maps as sorted sequences.** A `std::map` keyed by date is a sequence in
  strictly ascending date order. This way `lower_bound`, `rbegin` and stepping
  an iterator back read as in the source. The map of histories keyed by
  commodity is likewise a sequence in ascending commodity order, which is the
  order `find_price` visits it in.
- **Handler chains as sequences.** A chain of handlers is a sequence of stages.
  Stage `i` hands its items to stage `i + 1`, and position `|stages|` stands for
  the NULL handler.
- **Unseen bodies as a parameter.** Stage bodies defined outside `walk.h` are a
  `Behaviour` parameter. It sees the stage and the xdata pools, and returns an
  `Effect`: the stage's new state, the pools as the body leaves them (so calc
  can set a transaction's running total and set-account-value an account's
  value), and the items it emits. A `Lawful` behaviour keeps each stage's class.
- **Unseen calls as parameters.** Calls into code that is not part of this
  model are parameters of the operations that make them:
  - the translation `commodity_t::find_price`;
  - `add_value` and `date()`;
  - expression parsing and evaluation.

## Model

| member | source | states |
|---|---|---|
| PriceHistory.Insert | src/commodity.cc:50-57 | Afterwards the date maps to the new price. An earlier entry for that date is overwritten; every other entry is kept. The size is unchanged when the date was a key, and grows by one otherwise. |
| PriceHistory.AddPrice | src/commodity.cc:41-68 | The map is updated as by `Insert`. A non-reflexive add asks for the source to be marked primary. A reflexive add asks the price's commodity to record the inverse price, in the source commodity, on the same date. |
| PriceHistory.LowerBound | src/commodity.cc:161 | `lower_bound`: every entry before the index is dated before the moment, and every entry from it on is not. |
| PriceHistory.RemovePrice | src/commodity.cc:70-78 | Returns true exactly when the date was a key. Afterwards it is not a key, and every other entry is kept. |
| PriceHistory.EraseShrinks | src/commodity.cc:74-77 | Erasing a date shortens the history exactly when the date was a key. |
| PriceHistory.Search | src/commodity.cc:151-189 | The iterator walk yields an entry of the history. A found entry is not after the moment. Nothing is found only when the first entry is already after the moment. |
| PriceHistory.SearchFindsLatest | src/commodity.cc:151-189 | The iterator walk yields an entry of the history that is not older than any entry dated at or before the moment. Without a moment, that is the last entry. |
| PriceHistory.SearchMissesAll | src/commodity.cc:172-179 | The walk finds nothing only when every entry is dated after the moment. |
| PriceHistory.FindPrice | src/commodity.cc:143-219 | An empty history gives none. A result is an entry dated at or before the moment and not before `oldest`, and no such entry is later. None means every entry at or before the moment is older than `oldest`. |
| PriceHistory.FindPriceFiltersLatest | src/commodity.cc:198-211 | `oldest` only filters: the result is the newest entry at or before the moment when that entry is not older than `oldest`, and none otherwise. |
| VariedHistory.Lookup | src/commodity.cc:374-378 | `histories.find`: none exactly when no history is kept for the commodity; otherwise the history stored for it. |
| VariedHistory.Upsert | src/commodity.cc:88-95 | Adding or replacing a commodity's history keeps the histories sorted and unique. The new history is present, and every other history was there before. |
| VariedHistory.UpsertComms | src/commodity.cc:88-95 | After the upsert, histories are kept for the old commodities plus the new one. |
| VariedHistory.UpsertLookup | src/commodity.cc:88-97 | After the upsert, the commodity maps to the new history. |
| VariedHistory.UpsertKeepsOthers | src/commodity.cc:88-97 | After the upsert, every other commodity maps to what it mapped to before. |
| VariedHistory.HistoryOf | src/commodity.cc:355-379 | Without a commodity: none when more than one history is kept, and the only history when there is one. The source dereferences `begin()` of an empty map, so this case requires a non-empty map. With a commodity: the history stored for it, or none when there is none. |
| VariedHistory.AddPrice | src/commodity.cc:80-98 | Adds the price to the history kept for its own commodity, creating an empty one first if needed. Afterwards that history holds the new point plus its old entries for other dates. Every other commodity's history is unchanged. The request handed back is the one that history's own `add_price` makes. |
| VariedHistory.RemovePrice | src/commodity.cc:100-109 | With no history for the commodity: false, and nothing changes. Otherwise: true exactly when that history had the date; the date is removed from it, and all other histories are unchanged. |
| VariedHistory.Candidate | src/commodity.cc:277-321 | What one history offers. A direct candidate is that history's own `find_price` under the current limit. A candidate needing translation is dropped when the translation fails. Otherwise its price is the product and its date the earlier of the two dates. |
| VariedHistory.Search | src/commodity.cc:266-337 | The loop never returns a point older than the current limit. Any point it picks up replaces the best only when strictly newer than the limit. |
| VariedHistory.SearchProvenance | src/commodity.cc:266-337 | A point the loop returns is offered by a history other than the one kept for `source`. |
| VariedHistory.SearchMaximal | src/commodity.cc:266-337 | No direct candidate newer than the limit is passed over: the result is at least as new as that history's latest price at or before the moment. |
| VariedHistory.FindPrice | src/commodity.cc:236-353 | Requires the goal commodity to differ from `source`. The result is strictly newer than `oldest` and is offered by a history of a commodity other than `source`. It is at least as new as every usable direct candidate. |
| VariedHistory.SearchSkipsSource | src/commodity.cc:266-269 | The loop's result depends only on the histories of commodities other than `source`. |
| VariedHistory.FindPriceIgnoresSource | src/commodity.cc:266-269 | Two collections that agree on every commodity other than `source` give the same price. |
| Symbols.NeedsQuotes | src/commodity.cc:422-429 | True exactly when some byte of the symbol is whitespace, a digit, `-` or `.`. |
| Symbols.IsReservedToken | src/commodity.cc:432-453 | True exactly when the C string in the buffer is `and`, `div`, `else`, `false`, `if`, `or`, `not` or `true`. |
| Symbols.CStr | src/commodity.cc:542-547 | The string a `char` buffer holds is its longest NUL-free prefix. |
| Symbols.TableEntries | src/commodity.cc:463-480 | Newline, space, tab, `@` and digits end an unquoted symbol. `"`, backslash, `$` and letters do not. |
| SymbolParser.SkipSpace | src/commodity.cc:486 | `peek_next_nonws` stops at the first byte that is not whitespace, stepping only over whitespace. |
| SymbolParser.Utf8Length | src/commodity.cc:503-515 | A lead byte starts a 2- to 6-byte sequence only when the whole sequence still fits the 255-byte buffer. |
| SymbolParser.ScanUnquoted | src/commodity.cc:494-541 | The unquoted loop only appends to its buffer, never beyond 255 bytes, and never moves backwards. It copies at most as many bytes as it consumes. For every input it stops at a stop position: end of input, a full buffer, a newline, a byte whose table entry is 1, or a byte 254 or 255. |
| SymbolParser.ScanStopsHere | src/commodity.cc:497-526 | At a stop position the loop ends at once, and the buffer is left as it was. |
| SymbolParser.Utf8Step | src/commodity.cc:503-524 | A lead byte whose sequence fits the buffer copies the whole sequence unchanged, or what remains of the input, whatever those bytes are. The scan then goes on after it. |
| SymbolParser.Utf8CopiesNewline | src/commodity.cc:517-524 | The bytes `0xC3` and a newline are copied whole: the newline inside the sequence does not stop the loop. |
| SymbolParser.EscapeStep | src/commodity.cc:528-537 | A backslash copies the byte after it, whatever that byte is, and the scan goes on after both. A backslash at the end of input ends the scan with nothing copied. |
| SymbolParser.EscapedSpaceIsCopied | src/commodity.cc:528-537 | The input `A\ z` scans as the symbol `A z`: an escaped space does not end the symbol. |
| SymbolParser.ScanQuoted | src/commodity.cc:489 | The quoted loop stops on the closing quote only when one is there. |
| SymbolParser.ParseSymbol | src/commodity.cc:456-553 | Fails only when the first non-space byte is a quote, and then with the "lacks closing quote" error. That error also covers a closing quote the copy loop does not reach: one more than 255 bytes away, after a newline, or escaped. The symbol is at most 255 bytes and holds no NUL. An empty symbol puts the stream back where it was. An unquoted symbol is never a reserved word. |
| SymbolParser.ScanPlainRun | src/commodity.cc:494-541 | Plain bytes are copied unchanged up to the first byte whose table entry is 1, end of input, or a full buffer. |
| SymbolParser.ParsePlainSymbol | src/commodity.cc:494-553 | An unquoted symbol of plain bytes that is not reserved reads as exactly those bytes. The stream is left on the stop byte. |
| SymbolParser.ReservedWordIsNoSymbol | src/commodity.cc:544-552 | An unquoted reserved word reads as the empty symbol and leaves the stream where it was. |
| SymbolParser.UnclosedQuoteFails | src/commodity.cc:486-493 | A quoted symbol with no closing quote is the "lacks closing quote" error. |
| SymbolParser.ParseQuotedSymbol | src/commodity.cc:486-491 | A quoted symbol is exactly the text between the quotes, and the closing quote is consumed. |
| SymbolParser.FindQuote | src/commodity.cc:558 | `strchr`: the first `"` at or after a position, or none when there is none. |
| SymbolParser.ParseBareAt | src/commodity.cc:564-571 | The unquoted branch reads the element up to the first blank. It fails with "Failed to parse commodity" exactly when that element is empty. |
| SymbolParser.ParseSymbolAtAsWritten | src/commodity.cc:555-573 | The quoted branch as written: the symbol between the quotes, and the cursor two bytes past the closing quote. |
| SymbolParser.CursorPastTerminator | src/commodity.cc:562 | On the line `"USD"`, the cursor as written ends one byte past the terminating NUL. |
| SymbolParser.ParseSymbolAt | src/commodity.cc:555-573 | Fails on a missing closing quote exactly when no `"` follows the opening one. A quoted symbol is the text between the quotes and holds no `"`. Any symbol read is non-empty, and the cursor stays on the line. |
| SymbolParser.ParseSymbolAtAgrees | src/commodity.cc:555-573 | The corrected parser agrees with the source wherever the source's cursor stays on the line. |
| Commodities.Valid | src/commodity.cc:575-594 | False exactly when: the symbol is empty on a commodity other than the null commodity; the commodity is annotated without a base; or the precision exceeds 16. |
| Commodities.ValidChecksIndependent | src/commodity.cc:575-594 | Each check decides on its own. A valid commodity becomes invalid when its precision exceeds 16, its symbol is emptied (unless it is the null commodity), or it is made annotated without a base. Making it the null commodity, attaching its base or dropping its annotation keeps it valid. |
| Commodities.ParsedSymbolIsNamed | src/commodity.cc:555-594 | A commodity named by a symbol the cursor `parse_symbol` read never fails the empty-symbol check. Its validity rests on the base and the precision alone. |
| Commodities.Less | src/commodity.cc:596-661 | Different base symbols are ordered by base symbol. Within one base, an unannotated commodity sorts before an annotated one. The source's `assert(false)` case, two annotated commodities with empty annotations, is excluded. |
| Commodities.PriceAloneDecides | src/commodity.cc:624-637 | Between annotated commodities of one base that both carry a lot price, the numeric comparison of the prices alone decides. |
| Commodities.MissingKeysFirst | src/commodity.cc:619-655 | A missing price sorts first. With both prices missing, a missing date sorts first. With dates missing too, a missing tag sorts first. |
| Commodities.DateDecides | src/commodity.cc:640-648 | With both lot prices missing and both lot dates present, the earlier date sorts first. |
| Commodities.TagDecides | src/commodity.cc:650-656 | With prices and dates missing on both sides and both tags present, `std::string` order of the tags decides. |
| Commodities.LessIrreflexive | src/commodity.cc:596-661 | No commodity is less than itself. |
| Commodities.LessAsymmetric | src/commodity.cc:596-661 | The ordering is asymmetric. |
| Commodities.LessTransitive | src/commodity.cc:596-661 | The ordering is transitive, so with the two rows above it is a strict order. |
| Commodities.LexLessTotal | src/commodity.cc:605-607 | Two different base symbols are ordered one way or the other, so `compare` decides whenever it is non-zero. |
| Xdata.FlagFamiliesAreDistinctBits | walk.h:77-84 | Each `TRANSACTION_*` and each `ACCOUNT_*` flag is a single bit, and no two flags of a family share a bit. |
| Xdata.XdataOf | walk.h:86-96 | A transaction without side data reads as a fresh record with zero index, flags and date. |
| Xdata.AccountXdataOf | walk.h:530-541 | An account without side data reads as a fresh record with zero counts, virtuals and flags. |
| Xdata.SetFlag | walk.h:211 | Setting a display flag ORs the bit into one record's flags. Nothing else in that record, in any other record, or in the account pool changes. |
| Xdata.ClearAll | walk.h:574-577 | `clear_all_xdata` empties both pools: every transaction and every account reads as fresh afterwards. |
| Handlers.Deliver | walk.h:34-37 | Handing an item to stage `i` keeps every stage's class and the chain runnable, and leaves every stage before `i` unchanged. |
| Handlers.Unseen | walk.h:217-226 | A consume step defined outside the header may update the stage and the xdata pools. Every stage's class is kept, and the stages before it are unchanged. |
| Handlers.FlushOwn | walk.h:265-269 | What each stage emits on flush. Collapse emits nothing with a zero subtotal, subtotal nothing without values, and changed-value nothing without a last transaction. Changed-value forgets its last transaction. A class without a flush of its own emits nothing. |
| Handlers.DeliverAll | walk.h:114-119 | Handing a list of items to stage `i`, one after the other, keeps every stage's class and the chain runnable, and leaves stages before `i` unchanged. |
| Handlers.WalkXacts | walk.h:114-124 | `walk_transactions` keeps every stage's class and the chain runnable. |
| Handlers.FlushChangedValue | walk.h:316-322 | Changed-value's flush always leaves it with no last transaction, and emits nothing when it had none. |
| Handlers.FlushInterval | walk.h:403-407 | The interval stage's flush keeps it an interval stage, and emits nothing when it saw no transaction and holds no values. |
| Handlers.Flush | walk.h:30-33 | A flush of stage `i` keeps every stage's class and the chain runnable, and leaves stages before `i` unchanged. |
| Handlers.WalkEntries | walk.h:126-131 | Walking entries keeps every stage's class and the chain runnable. |
| Handlers.WithInterval | walk.h:378-383 | With a sort order, the interval stage owns a fresh sort stage placed between it and the original downstream. Without one, the downstream follows it directly. A runnable downstream gives a runnable chain. |
| HandlerLaws.IntervalFeedsSort | walk.h:378-383 | With a sort order, everything the interval stage hands on for an item lands, in order, in the buffer of the sort stage it owns. The stages behind that sort stage are untouched. The xdata pools are as the interval's own consume step left them. |
| HandlerLaws.ForwardPassesOn | walk.h:30-37 | The base handler passes each item, and each flush, to its downstream when one is attached. With none attached, both do nothing. |
| HandlerLaws.InheritedConsumePassesOn | walk.h:459-516 | Generate and forecast declare no consume step and inherit the base one: an item given to them is given, unchanged, to the next stage. |
| HandlerLaws.InheritedFlushPassesOn | walk.h:30-33 | Calc, invert, set-account-value, set-commodity-as-payee, generate and budget inherit the base flush: it emits nothing and is the flush of the next stage. |
| HandlerLaws.IgnoreDropsAll | walk.h:142-146 | `ignore_transactions` forwards nothing and changes nothing. |
| HandlerLaws.FilterForwardsMatching | walk.h:209-214 | A filter in front of a formatter forwards exactly the items that satisfy its predicate, in arrival order. The predicate reads the item and its xdata record as the earlier items left it. No other stage changes. |
| HandlerLaws.FilterMarksMatching | walk.h:209-214 | A filter sets `TRANSACTION_MATCHES` on exactly the items it forwards, each judged with the record it meets. Every other flag bit, field and record stays as it was. |
| HandlerLaws.SortBuffers | walk.h:191-193 | `sort_transactions` appends each item to its buffer in arrival order and hands nothing on. |
| HandlerLaws.RelatedBuffers | walk.h:288-291 | `related_transactions` appends each item to its buffer, sets `TRANSACTION_RECEIVED` on exactly those items, and hands nothing on. |
| HandlerLaws.DowBuckets | walk.h:453-456 | `dow_transactions` appends each item to the bucket of its weekday, in arrival order, and hands nothing on. |
| HandlerLaws.SinkCollects | walk.h:34-37 | The formatter at the end of a chain logs the items it receives, in order. |
| HandlerLaws.FlushEmitsOwnGroupFirst | walk.h:403-407 | On flush, a stage in front of a formatter hands on its own pending group first, and only then passes the flush on. |
| HandlerLaws.QuietFlushes | walk.h:358-362 | Collapse with a zero subtotal and subtotal with no values emit nothing when flushed, and leave the xdata pools alone. |
| HandlerLaws.ChangedValueSecondFlushQuiet | walk.h:316-322 | Changed-value clears its last transaction on flush, so a second flush emits no further difference. |
| HandlerLaws.DeliverAllAppend | walk.h:114-119 | Handing over `a + c` is handing over `a` and then `c`. |
| HandlerLaws.WalkEntriesInOrder | walk.h:126-131 | `walk_entries` hands over every posting of every entry exactly once, in entry order and then posting order. |
| HandlerLaws.WalkEntriesToFormatter | walk.h:126-136 | A formatter fed by `walk_entries` logs exactly the postings, in order. |
| Chain.Transfer | src/chain.cc:216-245 | At most one `transfer_details` stage is built, and one is built exactly when any of the seven transfer options is given. |
| Chain.ChainPostHandlers | src/chain.cc:42-50 | Requires the `amount_` option. The chain ends in the base handler, behind at least the running-total stage. |
| Chain.PrependAllReverses | src/chain.cc:46-247 | Prepending one stage after another leaves them in reverse order of construction. |
| Chain.ChainIsReversedConstruction | src/chain.cc:46-247 | The delivery-order chain is the construction order reversed, followed by the base handler. |
| Chain.ChainMember | src/chain.cc:54-245 | A stage is in the chain exactly when it is the base handler or its options call for it. |
| Chain.ChainHoldsExactly | src/chain.cc:54-245 | The chain holds the base handler and exactly the stages the options call for. |
| ChainLaws.CalcAlwaysPresent | src/chain.cc:98 | A running-total stage is in every chain. |
| ChainLaws.ForecastFilterNextToBase | src/chain.cc:56-61 | With `forecast_while_` and not only preliminaries, the forecast filter sits directly in front of the base handler. |
| ChainLaws.PreliminariesSkipFilters | src/chain.cc:54-93 | With only preliminaries, no forecast filter or display filter is built. |
| ChainLaws.PreliminariesSkipTruncation | src/chain.cc:54-93 | With only preliminaries, no truncation or changed-value stage is built. |
| ChainLaws.PreliminariesSkipGrouping | src/chain.cc:108-137 | With only preliminaries, no sort, collapse, equity or subtotal stage is built. |
| ChainLaws.FiltersFollowOptions | src/chain.cc:65-106 | Without the restriction, the display filter, the only filter and the truncation stage are each present exactly when their option is. |
| ChainLaws.ValueStagesFollowOptions | src/chain.cc:84-123 | Without the restriction, the changed-value stage is present exactly with `revalued`, and collapse exactly with `collapse`. |
| ChainLaws.IntervalIffPeriod | src/chain.cc:146-152 | An interval stage is present exactly when `period_` is given. |
| ChainLaws.DateSortBeforeInterval | src/chain.cc:146-152 | With `period_`, a sort by date sits directly in front of the interval stage. |
| ChainLaws.ExclusiveGroupings | src/chain.cc:133-142 | Equity excludes subtotal, and subtotal is present exactly when asked for without equity or the restriction. Day-of-week excludes by-payee, and is present exactly when asked for. |
| ChainLaws.SortXactsReplacesSortPosts | src/chain.cc:111-116 | `sort_xacts` replaces sorting by the sort option, and its stage is present exactly when both sort options are given without the restriction. |
| ChainLaws.BudgetOverForecast | src/chain.cc:183-214 | The budget stage is present exactly when budgeting. The forecast stage is present exactly with `forecast_while_` and no budget. |
| ChainLaws.LimitBeforeGenerator | src/chain.cc:183-214 | With `limit_`, a limit filter sits directly in front of whichever generator was built. |
| ChainLaws.TransferLast | src/chain.cc:216-245 | The transfer stage, if any, is constructed last, and no stage before it is a transfer stage. |
| ChainLaws.AtMostOneTransfer | src/chain.cc:216-245 | No two positions of the chain hold a transfer stage. |
| ChainLaws.TransferFirst | src/chain.cc:216-245 | A built transfer stage is the first stage of the chain. |
| ChainLaws.TransferByPriority | src/chain.cc:216-245 | The transfer stage follows the priority set_account_ > set_payee_ > comm_as_payee > code_as_payee > payee_as_account > comm_as_account > code_as_account, and is the first stage. |
| RepItem.KindOf | repitem.h:23-31 | The kind tag selects exactly one member of the payload union. |
| RepItem.NewNode | repitem.h:49-53 | A fresh node has no parent or siblings and empty contents and children lists. It is not temporary, has no flags and nothing elided, and has no reported account. |
| RepItem.SetValueAccumulates | repitem.h:61-63 | Setting the value twice adds it twice: it accumulates rather than assigns. |
| RepItem.SetDateOverwrites | repitem.h:69-71 | The slot's old contents do not matter, and setting the date twice is setting it once. |
| RepItem.NewRepitemScope | repitem.h:106-112 | A new item scope has nothing bound and defines `value-0` and `date-0` as callbacks to `set_value` and `set_date`. |
| RepItem.Invoke | repitem.h:177-180 | A callback fails exactly when no node is bound. Otherwise it applies its member to the bound node. |
| RepItem.OpenRef | repitem.h:189-195 | Opening a reference scope fails exactly when the base is already bound. Otherwise it binds the base to the node. |
| RepItem.CloseRef | repitem.h:196-199 | Closing fails exactly when the base is unbound. Otherwise it unbinds it. |
| RepItem.OpenCloseRestores | repitem.h:189-199 | Opening and then closing a reference scope leaves the base scope as it was. |
| RepItem.RunSucceedsIffAlternating | repitem.h:189-199 | A sequence of opens and closes runs without a failed assertion exactly when it alternates, so bindings cannot nest. Afterwards a node is bound exactly when the parity says so, and the definitions are unchanged. |
| RepItem.DefineAlwaysRejected | repitem.h:201-203 | A reference scope rejects every definition, whatever the name and definition. |
| RepItem.RefLookup | repitem.h:204-206 | A reference scope's lookup is answered by the base scope: by its own definition when it has one, otherwise by its parent, and none without a parent. |
| RepItem.RefLookupIgnoresOwn | repitem.h:204-206 | The reference scope's own definitions and parent, and the node bound to the base, never change what a lookup finds. |
| RepItem.RefLookupFindsCallbacks | repitem.h:204-206 | While bound, a reference scope finds the base scope's two callbacks, whatever its own parent. |
| RepItem.MakePredicate | repitem.h:216-219 | Empty text gives a predicate with no expression. Other text is parsed. |
| RepItem.Accepts | repitem.h:221-224 | Without an expression the predicate accepts. Otherwise the verdict is the expression's value, computed without the item. |
| RepItem.EmptyPredicateAcceptsAll | repitem.h:216-224 | A predicate built from empty text accepts every item. |
| RepItem.VerdictIgnoresItem | repitem.h:221-224 | The verdict never depends on the item. |

## Left out

- `commodity_t::check_for_updated_price`: downloads quotes over the network and reads the clock.
- `DEBUG` and `DEBUG_INDENT` blocks in `src/commodity.cc`: logging only.
- The Python binding files and `src/error.h`: binding glue and error-message plumbing with no logic of their own.
- Amount arithmetic (`Amounts`): a rational stand-in, not `amount_t`. Commodity conversion, precision and rounding are not modelled. `Invert` of a zero quantity returns zero; the source leaves it undefined.
- `peek_next_nonws`, `READ_INTO`, `next_element` and `skip_ws` are defined in `utils.h`, which is not part of this model. They are modelled as ledger defines them:
  - skip `isspace` bytes;
  - copy up to a stop byte, taking a byte after a backslash literally;
  - cut an element at the first space or tab, then skip the blanks after it.
  - `next_element` also writes a NUL into the caller's line at that blank, and when "Failed to parse commodity" is thrown the caller's cursor has already moved past the element. The model is pure: the line is never written, and a failure returns no cursor.
- `IsSpace` is the "C" locale's `isspace`: bytes 0x80 and above are never whitespace.
- VariedHistory.FindPrice: the translation through `commodity_t::find_price` is a parameter, because it walks the commodity pool. Maximality is stated for direct candidates only: a translated candidate's date depends on that parameter.
- VariedHistory.FindPrice: ties between equal dates go to the history visited first. The source's order is pointer order; here it is commodity order.
- Handlers: the bodies `walk.h` declares but does not show are a `Behaviour` parameter. These are:
  - the consume step of calc, invert, collapse, changed-value, subtotal, interval, by-payee, set-account-value, set-commodity-as-payee and budget (generate and forecast inherit `item_handler::operator()`, which is modelled);
  - `report_subtotal` and `output_diff`;
  - the `flush` of sort, related, day-of-week, by-payee and forecast (the other classes of this kind inherit `item_handler::flush`, which is modelled). Each of these five is taken to emit its pending group through the `Behaviour` and then end in `item_handler::flush()`, passing the flush on exactly once and emitting nothing after it.
- Handlers: `add_period_entries`, `add_transaction` and `report_budget_items` of generate, budget and forecast are called from outside the handler protocol, so they are not modelled.
- `dow_transactions`: the weekday comes from `std::localtime`, which depends on the time zone, so it is an input field of each transaction.
- Xdata.SetFlag: `transaction_xdata` (allocation of a record on first use) lives in `walk.cc`, which is not part of this model. The pools are maps keyed by identity.
- Xdata.ClearAll: `clear_transactions_xdata` and `clear_accounts_xdata` are only declared, so clearing is modelled as emptying both pools.
- Memory ownership is not modelled: the `allocated` flag, destructors, `entry_temps`/`xact_temps`, and raw-pointer unions.
- RepItem: the `value_t` fields (`_total`, `_value`, `_sort_value`, `reported_date`) are not represented. The bodies of `add_value` and `date()` are the `valueOf` and `dateOf` parameters.
- RepItem.Lookup: `scope_t::lookup` is not part of this model; it is taken to search the scope and then its parents.
- `add_content`, `add_child`, `wrap_item`, `fake_*`, `populate_*` and `print_tree` are only declared in `repitem.h`, so they are not modelled.
- RepItem.MakePredicate: `repitem_predicate`'s constructor is written as `item_predicate` in the header. The model reads it as the class's constructor. Parsing and evaluation are parameters, and evaluation never sees the item, as written.
- `chain_post_handlers`: the stages' own arguments (expressions, predicates, report references) are not carried. Only the choices that decide which stage is built are: head/tail, revalued-only, only-preliminaries, related-all, and the transfer element and source.

## Findings

| source | as written | input that shows it | evidently intended | confidence | as-written member | corrected member |
|---|---|---|---|---|---|---|
| src/commodity.cc:562 | after a quoted symbol the cursor moves to `q + 2`, two bytes past the closing quote | the line `"USD"`, whose closing quote is its last character: the cursor lands one byte past the NUL terminator | step over the closing quote and the byte after it, but never past the terminator | not executed | SymbolParser.ParseSymbolAtAsWritten, SymbolParser.CursorPastTerminator | SymbolParser.ParseSymbolAt |

=== FILE: amounts.dfy ===
/**
 * A stand-in for ledger's `amount_t`: an exact rational quantity tagged with
 * the commodity it is denominated in. Only the operations the price history
 * and the commodity ordering use are defined.
 */
module Amounts {

  /** Identity of a `commodity_t` in the commodity pool (the source uses its address). */
  type CommodityId = nat

  /** A moment in time (`datetime_t`), as a count of seconds. */
  type Date = int

  type Denominator = d: int | d > 0 witness 1

  /** A rational quantity num/den with a positive denominator. */
  datatype Quantity = Quantity(num: int, den: Denominator)

  /** An amount of some commodity. */
  datatype Amount = Amount(qty: Quantity, comm: CommodityId)

  /** A dated price: `price_point_t`. */
  datatype PricePoint = PricePoint(when: Date, price: Amount)

  /** Numeric strict order of two quantities, i.e. `(a - b).sign() < 0`. */
  predicate QLess(a: Quantity, b: Quantity)
  {
    a.num * b.den < b.num * a.den
  }

  /** `amount_t::inverted()`: 1/q. The source leaves 1/0 undefined; the model keeps 0. */
  function Invert(q: Quantity): (r: Quantity)
    ensures q.num != 0 ==> r.num * q.num == r.den * q.den
  {
    if q.num > 0 then Quantity(q.den, q.num)
    else if q.num < 0 then Quantity(-(q.den as int), -q.num)
    else q
  }

  /** Product of two amounts; the result keeps the commodity of the left operand. */
  function Mul(a: Amount, b: Amount): (r: Amount)
    ensures r.comm == a.comm
  {
    Amount(Quantity(a.qty.num * b.qty.num, a.qty.den * b.qty.den), a.comm)
  }

  lemma QLessIrreflexive(a: Quantity)
    ensures !QLess(a, a)
  {
  }

  lemma QLessAsymmetric(a: Quantity, b: Quantity)
    ensures QLess(a, b) ==> !QLess(b, a)
  {
  }

  /** The numeric order of quantities is transitive (denominators are positive). */
  lemma QLessTransitive(a: Quantity, b: Quantity, c: Quantity)
    requires QLess(a, b) && QLess(b, c)
    ensures QLess(a, c)
  {
    var ad, bd, cd := a.den as int, b.den as int, c.den as int;
    assert a.num * bd * cd < b.num * ad * cd by {
      MulLess(a.num * bd, b.num * ad, cd);
    }
    assert b.num * cd * ad < c.num * bd * ad by {
      MulLess(b.num * cd, c.num * bd, ad);
    }
    assert (a.num * cd) * bd < (c.num * ad) * bd;
    if a.num * cd >= c.num * ad {
      MulLessEq(c.num * ad, a.num * cd, bd);
    }
  }

  lemma MulLess(x: int, y: int, k: int)
    requires x < y && k > 0
    ensures x * k < y * k
  {
  }

  lemma MulLessEq(x: int, y: int, k: int)
    requires x <= y && k > 0
    ensures x * k <= y * k
  {
  }
}

=== FILE: chain.dfy ===
/**
 * `chain_post_handlers`: which posting handlers a report runs, and in which
 * order, as a function of the report's options. Each `handler.reset(new
 * X(handler, ...))` puts the new stage in front of the chain built so far,
 * so the chain in delivery order is the construction order reversed, ending
 * in the base handler the caller passed in.
 */
module Chain {

  /** Which option an item filter (`filter_posts`) was built from. */
  datatype FilterOf = ForecastWhile | Display | Only | Limit

  /** The sort expression of a `sort_posts`: the `--sort` option, or the literal "date". */
  datatype SortBy = SortOption | ByDate

  /** `transfer_details::SET_ACCOUNT` / `SET_PAYEE`. */
  datatype Element = SetAccount | SetPayee

  /** Where the new account or payee text comes from. */
  datatype TransferSource = AccountOption | PayeeOption | CommodityExpr | CodeExpr | PayeeExpr

  datatype StageKind =
    | Base
    | FilterPosts(which: FilterOf)
    | TruncateXacts(head: bool, tail: bool)
    | ChangedValuePosts(revaluedOnly: bool)
    | CalcPosts(onlyPreliminaries: bool)
    | SortXacts
    | SortPosts(key: SortBy)
    | CollapsePosts
    | PostsAsEquity
    | SubtotalPosts
    | DowPosts
    | ByPayeePosts
    | IntervalPosts
    | RelatedPosts(all: bool)
    | AnonymizePosts
    | BudgetPosts
    | ForecastPosts
    | TransferDetails(element: Element, source: TransferSource)

  /**
   * The report options `chain_post_handlers` consults, each true when the
   * option was given (`report.HANDLED(...)`). `budget` stands for
   * `budget_flags != BUDGET_NO_BUDGET`.
   */
  datatype Options = Options(
    amount: bool, forecastWhile: bool, head: bool, tail: bool, display: bool,
    revalued: bool, revaluedOnly: bool, only: bool, sort: bool, sortXacts: bool,
    collapse: bool, equity: bool, subtotal: bool, dow: bool, byPayee: bool,
    period: bool, related: bool, relatedAll: bool, anon: bool, limit: bool,
    budget: bool, setAccount: bool, setPayee: bool, commAsPayee: bool,
    codeAsPayee: bool, payeeAsAccount: bool, commAsAccount: bool, codeAsAccount: bool)

  function When<T>(c: bool, xs: seq<T>): seq<T>
  {
    if c then xs else []
  }

  /** The display-side stages, skipped when only preliminaries are wanted. */
  function Preliminaries(o: Options, only: bool): seq<StageKind>
  {
    if only then []
    else
      When(o.forecastWhile, [FilterPosts(ForecastWhile)])
      + When(o.head || o.tail, [TruncateXacts(o.head, o.tail)])
      + When(o.display, [FilterPosts(Display)])
      + When(o.revalued, [ChangedValuePosts(o.revaluedOnly)])
  }

  /** Sorting, collapsing and subtotalling, also skipped for preliminaries. */
  function Grouping(o: Options, only: bool): seq<StageKind>
  {
    if only then []
    else
      When(o.sort, if o.sortXacts then [SortXacts] else [SortPosts(SortOption)])
      + When(o.collapse, [CollapsePosts])
      + (if o.equity then [PostsAsEquity] else When(o.subtotal, [SubtotalPosts]))
  }

  /** The generator stage (budget before forecast) with its limit filter in front of it. */
  function Generators(o: Options): seq<StageKind>
  {
    if o.budget then [BudgetPosts] + When(o.limit, [FilterPosts(Limit)])
    else if o.forecastWhile then [ForecastPosts] + When(o.limit, [FilterPosts(Limit)])
    else []
  }

  /** The one `transfer_details` stage, chosen by the first option given in priority order. */
  function Transfer(o: Options): (r: seq<StageKind>)
    ensures |r| <= 1 && forall x :: x in r ==> x.TransferDetails?
    ensures |r| == 1 <==> o.setAccount || o.setPayee || o.commAsPayee || o.codeAsPayee
                          || o.payeeAsAccount || o.commAsAccount || o.codeAsAccount
  {
    if o.setAccount then [TransferDetails(SetAccount, AccountOption)]
    else if o.setPayee then [TransferDetails(SetPayee, PayeeOption)]
    else if o.commAsPayee then [TransferDetails(SetPayee, CommodityExpr)]
    else if o.codeAsPayee then [TransferDetails(SetPayee, CodeExpr)]
    else if o.payeeAsAccount then [TransferDetails(SetAccount, PayeeExpr)]
    else if o.commAsAccount then [TransferDetails(SetAccount, CommodityExpr)]
    else if o.codeAsAccount then [TransferDetails(SetAccount, CodeExpr)]
    else []
  }

  /** Day-of-week grouping wins over grouping by payee. */
  function Regrouping(o: Options): seq<StageKind>
  {
    if o.dow then [DowPosts] else When(o.byPayee, [ByPayeePosts])
  }

  /** The stages built up to and including the grouping stages; they depend on `only_preliminaries`. */
  function Upstream(o: Options, only: bool): seq<StageKind>
  {
    Preliminaries(o, only) + [CalcPosts(only)] + When(o.only, [FilterPosts(Only)]) + Grouping(o, only)
  }

  /** The period stages: an interval stage owning a sort by date. */
  function Period(o: Options): seq<StageKind>
  {
    When(o.period, [IntervalPosts, SortPosts(ByDate)])
  }

  /** The stages built after the grouping stages, down to the generators. */
  function Downstream(o: Options): seq<StageKind>
  {
    Regrouping(o) + Period(o) + Reporting(o) + Generators(o)
  }

  /** The related, anonymizing and limit stages. */
  function Reporting(o: Options): seq<StageKind>
  {
    When(o.related, [RelatedPosts(o.relatedAll)]) + When(o.anon, [AnonymizePosts]) + When(o.limit, [FilterPosts(Limit)])
  }

  /** The stages in the order `chain_post_handlers` constructs them. */
  function Constructions(o: Options, only: bool): seq<StageKind>
  {
    Upstream(o, only) + Downstream(o) + Transfer(o)
  }

  /** `handler.reset(new X(handler))` for each constructed stage in turn. */
  function PrependAll(chain: seq<StageKind>, built: seq<StageKind>): seq<StageKind>
    decreases |built|
  {
    if |built| == 0 then chain else PrependAll([built[0]] + chain, built[1..])
  }

  function Reverse<T>(s: seq<T>): (r: seq<T>)
    ensures |r| == |s|
    ensures forall k :: 0 <= k < |s| ==> r[k] == s[|s| - 1 - k]
  {
    if |s| == 0 then [] else Reverse(s[1..]) + [s[0]]
  }

  /**
   * `chain_post_handlers(report, base_handler, only_preliminaries)`: the
   * stages an item passes through, first to last. The source asserts that
   * the `amount_` option is set.
   */
  function ChainPostHandlers(o: Options, only: bool): (r: seq<StageKind>)
    requires o.amount
    ensures |r| >= 2 && r[|r| - 1] == Base
  {
    var r := PrependAll([Base], Constructions(o, only));
    PrependAllReverses([Base], Constructions(o, only));
    r
  }

  /** Prepending one constructed stage after another leaves them in reverse order. */
  lemma {:induction false} PrependAllReverses(chain: seq<StageKind>, built: seq<StageKind>)
    ensures PrependAll(chain, built) == Reverse(built) + chain
    decreases |built|
  {
    if |built| > 0 {
      PrependAllReverses([built[0]] + chain, built[1..]);
      assert Reverse(built) == Reverse(built[1..]) + [built[0]];
    }
  }

  /** The delivery-order chain is the construction order reversed, with the base handler last. */
  lemma {:induction false} ChainIsReversedConstruction(o: Options, only: bool)
    requires o.amount
    ensures ChainPostHandlers(o, only) == Reverse(Constructions(o, only)) + [Base]
  {
    PrependAllReverses([Base], Constructions(o, only));
  }

  lemma ReverseMembers<T>(s: seq<T>)
    ensures forall x :: x in Reverse(s) <==> x in s
  {
    forall x | x in s ensures x in Reverse(s) {
      var k :| 0 <= k < |s| && s[k] == x;
      assert Reverse(s)[|s| - 1 - k] == x;
    }
  }

  /**
   * The stages the options call for, stated per stage rather than in
   * construction order.
   */
  /** The options each item filter is built for. */
  predicate FilterBuilt(o: Options, only: bool, which: FilterOf)
  {
    match which
    case ForecastWhile => !only && o.forecastWhile
    case Display => !only && o.display
    case Only => o.only
    case Limit => o.limit
  }

  predicate Built(o: Options, only: bool, x: StageKind)
  {
    match x
    case Base => false
    case FilterPosts(which) => FilterBuilt(o, only, which)
    case TruncateXacts(h, t) => !only && (o.head || o.tail) && h == o.head && t == o.tail
    case ChangedValuePosts(v) => !only && o.revalued && v == o.revaluedOnly
    case CalcPosts(p) => p == only
    case SortXacts => !only && o.sort && o.sortXacts
    case SortPosts(key) => if key == SortOption then !only && o.sort && !o.sortXacts else o.period
    case CollapsePosts => !only && o.collapse
    case PostsAsEquity => !only && o.equity
    case SubtotalPosts => !only && !o.equity && o.subtotal
    case DowPosts => o.dow
    case ByPayeePosts => !o.dow && o.byPayee
    case IntervalPosts => o.period
    case RelatedPosts(all) => o.related && all == o.relatedAll
    case AnonymizePosts => o.anon
    case BudgetPosts => o.budget
    case ForecastPosts => !o.budget && o.forecastWhile
    case TransferDetails(_, _) => Transfer(o) == [x]
  }

  /** `r` holds the base handler and exactly the stages the options call for. */
  ghost predicate HoldsExactly(r: seq<StageKind>, o: Options, only: bool)
  {
    forall x :: x in r <==> x == Base || Built(o, only, x)
  }

  /** The chain holds the base handler and exactly the stages the options call for. */
  lemma ChainHoldsExactly(o: Options, only: bool)
    requires o.amount
    ensures HoldsExactly(ChainPostHandlers(o, only), o, only)
  {
    forall x ensures x in ChainPostHandlers(o, only) <==> x == Base || Built(o, only, x) {
      ChainMember(o, only, x);
    }
  }

  /** A stage occurs in the chain exactly when the options call for it, or is the base handler. */
  lemma {:induction false} ChainMember(o: Options, only: bool, x: StageKind)
    requires o.amount
    ensures x in ChainPostHandlers(o, only) <==> x == Base || Built(o, only, x)
  {
    ChainIsReversedConstruction(o, only);
    ReverseMembers(Constructions(o, only));
    ConstructionMember(o, only, x);
  }

  /** The construction order holds exactly the stages the options call for. */
  lemma {:induction false} ConstructionMember(o: Options, only: bool, x: StageKind)
    ensures x in Constructions(o, only) <==> Built(o, only, x)
  {
    UpstreamMember(o, only, x);
    DownstreamMember(o, only, x);
    TransferMember(o, only, x);
  }

  /** The kinds of stage built up to the grouping stages. */
  predicate UpstreamKind(x: StageKind)
  {
    x == FilterPosts(ForecastWhile) || x == FilterPosts(Display) || x == FilterPosts(Only)
    || x.TruncateXacts? || x.ChangedValuePosts? || x.CalcPosts?
    || x == SortXacts || x == SortPosts(SortOption) || x == CollapsePosts || x == PostsAsEquity || x == SubtotalPosts
  }

  /** The kinds of stage built after the grouping stages, down to the generators. */
  predicate DownstreamKind(x: StageKind)
  {
    x == DowPosts || x == ByPayeePosts || x == IntervalPosts || x == SortPosts(ByDate) || x.RelatedPosts?
    || x == AnonymizePosts || x == FilterPosts(Limit) || x == BudgetPosts || x == ForecastPosts
  }

  lemma PreliminariesMember(o: Options, only: bool, x: StageKind)
    ensures x in Preliminaries(o, only) <==>
              Built(o, only, x)
              && (x == FilterPosts(ForecastWhile) || x == FilterPosts(Display) || x.TruncateXacts? || x.ChangedValuePosts?)
  {
  }

  lemma GroupingMember(o: Options, only: bool, x: StageKind)
    ensures x in Grouping(o, only) <==>
              Built(o, only, x)
              && (x == SortXacts || x == SortPosts(SortOption) || x == CollapsePosts || x == PostsAsEquity || x == SubtotalPosts)
  {
  }

  lemma UpstreamMember(o: Options, only: bool, x: StageKind)
    ensures x in Upstream(o, only) <==> Built(o, only, x) && UpstreamKind(x)
  {
    PreliminariesMember(o, only, x);
    GroupingMember(o, only, x);
  }

  lemma GeneratorsMember(o: Options, x: StageKind)
    ensures x in Generators(o) <==>
              (x == BudgetPosts && o.budget) || (x == ForecastPosts && !o.budget && o.forecastWhile)
              || (x == FilterPosts(Limit) && o.limit && (o.budget || o.forecastWhile))
  {
  }

  lemma RestMember(o: Options, only: bool, x: StageKind)
    ensures x in Regrouping(o) + Period(o) <==>
              Built(o, only, x) && (x == DowPosts || x == ByPayeePosts || x == IntervalPosts || x == SortPosts(ByDate))
  {
  }

  lemma ReportingMember(o: Options, only: bool, x: StageKind)
    ensures x in Reporting(o) <==>
              Built(o, only, x) && (x.RelatedPosts? || x == AnonymizePosts || x == FilterPosts(Limit))
  {
  }

  lemma DownstreamMember(o: Options, only: bool, x: StageKind)
    ensures x in Downstream(o) <==> Built(o, only, x) && DownstreamKind(x)
  {
    GeneratorsMember(o, x);
    RestMember(o, only, x);
    ReportingMember(o, only, x);
  }

  lemma TransferMember(o: Options, only: bool, x: StageKind)
    ensures x in Transfer(o) <==> Built(o, only, x) && x.TransferDetails?
  {
  }

  /** Indexing into the middle part of a concatenation. */
  lemma MiddleIndex<T>(a: seq<T>, b: seq<T>, t: seq<T>, i: nat)
    requires i < |b|
    ensures |a| + i < |a + b + t| && (a + b + t)[|a| + i] == b[i]
  {
  }

  /** In a reversed construction list followed by the base handler, neighbours stay neighbours. */
  lemma ReversedAdjacent(c: seq<StageKind>, j: nat)
    requires j + 1 < |c|
    ensures var r := Reverse(c) + [Base];
            |c| - 2 - j >= 0 && r[|c| - 2 - j] == c[j + 1] && r[|c| - 1 - j] == c[j]
  {
  }
}

=== FILE: chain_laws.dfy ===
/**
 * What the order of construction in `chain_post_handlers` implies about the
 * resulting chain: which stages are present for which options, which
 * options exclude each other, and which stages are neighbours. Each law is
 * proved for any sequence holding exactly the stages the options call for
 * (`HoldsExactly`), or for the construction order, and then carried over to
 * `ChainPostHandlers`.
 */
module ChainLaws {
  import opened Chain

  /** The running-total stage is in every chain. */
  lemma CalcAlwaysPresent(o: Options, only: bool)
    requires o.amount
    ensures CalcPosts(only) in ChainPostHandlers(o, only)
  {
    ChainMember(o, only, CalcPosts(only));
  }

  /** The forecast filter is constructed first, so it sits directly in front of the base handler. */
  lemma ForecastFilterNextToBase(o: Options, only: bool)
    requires o.amount && o.forecastWhile && !only
    ensures var r := ChainPostHandlers(o, only); r[|r| - 2] == FilterPosts(ForecastWhile)
  {
    ChainIsReversedConstruction(o, only);
    var c := Constructions(o, only);
    assert c[0] == Preliminaries(o, only)[0] == FilterPosts(ForecastWhile);
  }

  lemma SkipFiltersIn(r: seq<StageKind>, o: Options)
    requires HoldsExactly(r, o, true)
    ensures FilterPosts(ForecastWhile) !in r && FilterPosts(Display) !in r
  {
  }

  lemma SkipTruncationIn(r: seq<StageKind>, o: Options)
    requires HoldsExactly(r, o, true)
    ensures forall h, t :: TruncateXacts(h, t) !in r
    ensures forall v :: ChangedValuePosts(v) !in r
  {
  }

  /** With only preliminaries, no forecast filter or display filter is built. */
  lemma PreliminariesSkipFilters(o: Options)
    requires o.amount
    ensures var r := ChainPostHandlers(o, true);
            FilterPosts(ForecastWhile) !in r && FilterPosts(Display) !in r
  {
    ChainHoldsExactly(o, true);
    SkipFiltersIn(ChainPostHandlers(o, true), o);
  }

  /** With only preliminaries, no truncation or changed-value stage is built. */
  lemma PreliminariesSkipTruncation(o: Options)
    requires o.amount
    ensures var r := ChainPostHandlers(o, true);
            (forall h, t :: TruncateXacts(h, t) !in r) && (forall v :: ChangedValuePosts(v) !in r)
  {
    ChainHoldsExactly(o, true);
    SkipTruncationIn(ChainPostHandlers(o, true), o);
  }

  lemma SkipGroupingIn(r: seq<StageKind>, o: Options)
    requires HoldsExactly(r, o, true)
    ensures SortPosts(SortOption) !in r && SortXacts !in r
    ensures CollapsePosts !in r && PostsAsEquity !in r && SubtotalPosts !in r
  {
  }

  /** With only preliminaries, no sort, collapse, equity or subtotal stage is built. */
  lemma PreliminariesSkipGrouping(o: Options)
    requires o.amount
    ensures var r := ChainPostHandlers(o, true);
            SortPosts(SortOption) !in r && SortXacts !in r
            && CollapsePosts !in r && PostsAsEquity !in r && SubtotalPosts !in r
  {
    ChainHoldsExactly(o, true);
    SkipGroupingIn(ChainPostHandlers(o, true), o);
  }

  lemma FiltersIn(r: seq<StageKind>, o: Options)
    requires HoldsExactly(r, o, false)
    ensures FilterPosts(Display) in r <==> o.display
    ensures FilterPosts(Only) in r <==> o.only
    ensures TruncateXacts(o.head, o.tail) in r <==> o.head || o.tail
  {
  }

  /** Without the restriction, each filter and the truncation stage is there exactly when its option is. */
  lemma FiltersFollowOptions(o: Options)
    requires o.amount
    ensures var r := ChainPostHandlers(o, false);
            (FilterPosts(Display) in r <==> o.display)
            && (FilterPosts(Only) in r <==> o.only)
            && (TruncateXacts(o.head, o.tail) in r <==> o.head || o.tail)
  {
    ChainHoldsExactly(o, false);
    FiltersIn(ChainPostHandlers(o, false), o);
  }

  lemma ValueStagesIn(r: seq<StageKind>, o: Options)
    requires HoldsExactly(r, o, false)
    ensures ChangedValuePosts(o.revaluedOnly) in r <==> o.revalued
    ensures CollapsePosts in r <==> o.collapse
  {
  }

  /** Without the restriction, the changed-value and collapse stages are there exactly when asked for. */
  lemma ValueStagesFollowOptions(o: Options)
    requires o.amount
    ensures var r := ChainPostHandlers(o, false);
            (ChangedValuePosts(o.revaluedOnly) in r <==> o.revalued)
            && (CollapsePosts in r <==> o.collapse)
  {
    ChainHoldsExactly(o, false);
    ValueStagesIn(ChainPostHandlers(o, false), o);
  }

  /** An interval stage exists exactly for `--period`. */
  lemma IntervalIffPeriod(o: Options, only: bool)
    requires o.amount
    ensures IntervalPosts in ChainPostHandlers(o, only) <==> o.period
  {
    ChainMember(o, only, IntervalPosts);
  }

  /** The interval stage is constructed immediately before the sort by date it owns. */
  lemma IntervalThenDateSort(o: Options, only: bool)
    requires o.period
    ensures var c := Constructions(o, only);
            exists j :: 0 <= j < |c| - 1 && c[j] == IntervalPosts && c[j + 1] == SortPosts(ByDate)
  {
    var c, d, p := Constructions(o, only), Downstream(o), Period(o);
    var u, g := |Upstream(o, only)|, |Regrouping(o)|;
    assert p == [IntervalPosts, SortPosts(ByDate)];
    MiddleIndex(Regrouping(o), p, Reporting(o), 0);
    MiddleIndex(Regrouping(o), p, Reporting(o), 1);
    assert d[g] == IntervalPosts && d[g + 1] == SortPosts(ByDate);
    MiddleIndex(Upstream(o, only), d, Transfer(o), g);
    MiddleIndex(Upstream(o, only), d, Transfer(o), g + 1);
    assert c[u + g] == IntervalPosts && c[u + g + 1] == SortPosts(ByDate);
  }

  /** The interval stage owns a sort by date, which sits directly in front of it. */
  lemma DateSortBeforeInterval(o: Options, only: bool)
    requires o.amount && o.period
    ensures var r := ChainPostHandlers(o, only);
            exists k :: 0 <= k < |r| - 1 && r[k] == SortPosts(ByDate) && r[k + 1] == IntervalPosts
  {
    ChainIsReversedConstruction(o, only);
    IntervalThenDateSort(o, only);
    var c := Constructions(o, only);
    var j :| 0 <= j < |c| - 1 && c[j] == IntervalPosts && c[j + 1] == SortPosts(ByDate);
    ReversedAdjacent(c, j);
  }

  lemma GroupingsIn(r: seq<StageKind>, o: Options, only: bool)
    requires HoldsExactly(r, o, only)
    ensures o.equity ==> SubtotalPosts !in r
    ensures SubtotalPosts in r <==> !only && !o.equity && o.subtotal
    ensures o.dow ==> ByPayeePosts !in r
    ensures DowPosts in r <==> o.dow
  {
  }

  /** Equity wins over subtotal, and day-of-week over by-payee. */
  lemma ExclusiveGroupings(o: Options, only: bool)
    requires o.amount
    ensures var r := ChainPostHandlers(o, only);
            (o.equity ==> SubtotalPosts !in r)
            && (SubtotalPosts in r <==> !only && !o.equity && o.subtotal)
            && (o.dow ==> ByPayeePosts !in r)
            && (DowPosts in r <==> o.dow)
  {
    ChainHoldsExactly(o, only);
    GroupingsIn(ChainPostHandlers(o, only), o, only);
  }

  lemma SortsIn(r: seq<StageKind>, o: Options, only: bool)
    requires HoldsExactly(r, o, only)
    ensures o.sortXacts ==> SortPosts(SortOption) !in r
    ensures SortXacts in r <==> !only && o.sort && o.sortXacts
  {
  }

  /** Sorting whole transactions replaces sorting postings. */
  lemma SortXactsReplacesSortPosts(o: Options, only: bool)
    requires o.amount
    ensures var r := ChainPostHandlers(o, only);
            (o.sortXacts ==> SortPosts(SortOption) !in r)
            && (SortXacts in r <==> !only && o.sort && o.sortXacts)
  {
    ChainHoldsExactly(o, only);
    SortsIn(ChainPostHandlers(o, only), o, only);
  }

  lemma GeneratorsIn(r: seq<StageKind>, o: Options, only: bool)
    requires HoldsExactly(r, o, only)
    ensures BudgetPosts in r <==> o.budget
    ensures ForecastPosts in r <==> !o.budget && o.forecastWhile
  {
  }

  /** Budgeting wins over forecasting. */
  lemma BudgetOverForecast(o: Options, only: bool)
    requires o.amount
    ensures var r := ChainPostHandlers(o, only);
            (BudgetPosts in r <==> o.budget)
            && (ForecastPosts in r <==> !o.budget && o.forecastWhile)
  {
    ChainHoldsExactly(o, only);
    GeneratorsIn(ChainPostHandlers(o, only), o, only);
  }

  /** The generator is constructed immediately before its limit filter. */
  lemma GeneratorThenLimit(o: Options, only: bool)
    requires o.limit && (o.budget || o.forecastWhile)
    ensures var c := Constructions(o, only);
            exists j :: 0 <= j < |c| - 1 && c[j + 1] == FilterPosts(Limit)
                        && c[j] == (if o.budget then BudgetPosts else ForecastPosts)
  {
    var c, d, g := Constructions(o, only), Downstream(o), Generators(o);
    var u := |Upstream(o, only)|;
    assert |g| == 2 && d[|d| - 2] == g[0] && d[|d| - 1] == g[1];
    MiddleIndex(Upstream(o, only), d, Transfer(o), |d| - 2);
    MiddleIndex(Upstream(o, only), d, Transfer(o), |d| - 1);
  }

  /** With `--limit`, a second limit filter sits directly in front of whichever generator was built. */
  lemma LimitBeforeGenerator(o: Options, only: bool)
    requires o.amount && o.limit && (o.budget || o.forecastWhile)
    ensures var r := ChainPostHandlers(o, only);
            exists k :: 0 <= k < |r| - 1 && r[k] == FilterPosts(Limit)
                        && r[k + 1] == (if o.budget then BudgetPosts else ForecastPosts)
  {
    ChainIsReversedConstruction(o, only);
    GeneratorThenLimit(o, only);
    var c := Constructions(o, only);
    var j :| 0 <= j < |c| - 1 && c[j + 1] == FilterPosts(Limit)
             && c[j] == (if o.budget then BudgetPosts else ForecastPosts);
    ReversedAdjacent(c, j);
  }

  /** The transfer stage, if any, is constructed last, and nothing before it is one. */
  lemma TransferLast(o: Options, only: bool)
    ensures var c, t := Constructions(o, only), Transfer(o);
            |t| <= |c| && c[|c| - |t|..] == t
            && forall x :: x in c[..|c| - |t|] ==> !x.TransferDetails?
  {
    var c := Constructions(o, only);
    var t := Transfer(o);
    var front := Upstream(o, only) + Downstream(o);
    assert c == front + t;
    assert c[..|c| - |t|] == front;
    forall x | x in front ensures !x.TransferDetails? {
      UpstreamMember(o, only, x);
      DownstreamMember(o, only, x);
    }
  }

  /** At most one `transfer_details` stage is built. */
  lemma AtMostOneTransfer(o: Options, only: bool)
    requires o.amount
    ensures var r := ChainPostHandlers(o, only);
            forall i, j :: 0 <= i < |r| && 0 <= j < |r| && r[i].TransferDetails? && r[j].TransferDetails? ==> i == j
  {
    ChainIsReversedConstruction(o, only);
    TransferLast(o, only);
    var c, t, r := Constructions(o, only), Transfer(o), ChainPostHandlers(o, only);
    forall i, j | 0 <= i < |r| && 0 <= j < |r| && r[i].TransferDetails? && r[j].TransferDetails?
      ensures i == j
    {
      TransferOnlyFirst(c, t, r, i);
      TransferOnlyFirst(c, t, r, j);
    }
  }

  /** The transfer stage, when built, is the first stage of the chain. */
  lemma TransferFirst(o: Options, only: bool)
    requires o.amount && |Transfer(o)| == 1
    ensures ChainPostHandlers(o, only)[0] == Transfer(o)[0]
  {
    ChainIsReversedConstruction(o, only);
    TransferLast(o, only);
    var c := Constructions(o, only);
    assert c[|c| - 1] == Transfer(o)[0];
  }

  /**
   * The transfer stage is chosen by the first option given among
   * --set-account, --set-payee, --comm-as-payee, --code-as-payee,
   * --payee-as-account, --comm-as-account and --code-as-account, and it is
   * the first stage of the chain.
   */
  lemma TransferByPriority(o: Options, only: bool)
    requires o.amount
    ensures var r := ChainPostHandlers(o, only);
            (o.setAccount ==> r[0] == TransferDetails(SetAccount, AccountOption))
            && (!o.setAccount && o.setPayee ==> r[0] == TransferDetails(SetPayee, PayeeOption))
            && (!o.setAccount && !o.setPayee && o.commAsPayee ==> r[0] == TransferDetails(SetPayee, CommodityExpr))
            && ((!o.setAccount && !o.setPayee && !o.commAsPayee && o.codeAsPayee)
                  ==> r[0] == TransferDetails(SetPayee, CodeExpr))
            && ((!o.setAccount && !o.setPayee && !o.commAsPayee && !o.codeAsPayee && o.payeeAsAccount)
                  ==> r[0] == TransferDetails(SetAccount, PayeeExpr))
            && ((!o.setAccount && !o.setPayee && !o.commAsPayee && !o.codeAsPayee && !o.payeeAsAccount
                 && o.commAsAccount) ==> r[0] == TransferDetails(SetAccount, CommodityExpr))
            && ((!o.setAccount && !o.setPayee && !o.commAsPayee && !o.codeAsPayee && !o.payeeAsAccount
                 && !o.commAsAccount && o.codeAsAccount) ==> r[0] == TransferDetails(SetAccount, CodeExpr))
  {
    if |Transfer(o)| == 1 {
      TransferFirst(o, only);
    }
  }

  /** In the reversed chain, a transfer stage can only be the first stage. */
  lemma TransferOnlyFirst(c: seq<StageKind>, t: seq<StageKind>, r: seq<StageKind>, i: nat)
    requires |t| <= 1 && |t| <= |c| && c[|c| - |t|..] == t
    requires forall x :: x in c[..|c| - |t|] ==> !x.TransferDetails?
    requires r == Reverse(c) + [Base]
    requires i < |r| && r[i].TransferDetails?
    ensures i == 0
  {
    if i < |c| {
      var k := |c| - 1 - i;
      assert r[i] == c[k];
    }
  }
}

=== FILE: commodity.dfy ===
/**
 * The commodity record as far as `commodity_t::valid` and the amount
 * ordering `compare_amount_commodities` read it.
 */
module Commodities {
  import opened Wrappers
  import opened Amounts
  import opened Symbols
  import SymbolParser

  /** `annotation_t`: the optional lot price, lot date and note of an annotated commodity. */
  datatype Annotation = Annotation(price: Option<Amount>, date: Option<Date>, tag: Option<Bytes>)

  /**
   * A `commodity_t`. `isNull` says whether this is the pool's null commodity,
   * `hasBase` whether the shared base record is attached; `details` is read
   * only when `annotated` is set (it is the `annotated_commodity_t` part).
   */
  datatype Commodity = Commodity(
    symbol: Bytes,
    baseSymbol: Bytes,
    isNull: bool,
    annotated: bool,
    hasBase: bool,
    precision: nat,
    details: Annotation)

  /** The greatest display precision a valid commodity may carry. */
  const MAX_PRECISION: nat := 16

  /**
   * `commodity_t::valid`: false exactly when the symbol is empty on a
   * commodity other than the null commodity, when an annotated commodity has
   * no base, or when the precision exceeds 16.
   */
  function Valid(c: Commodity): (r: bool)
    ensures !r <==> (|c.symbol| == 0 && !c.isNull) || (c.annotated && !c.hasBase) || c.precision > MAX_PRECISION
  {
    if |c.symbol| == 0 && !c.isNull then false
    else if c.annotated && !c.hasBase then false
    else if c.precision > MAX_PRECISION then false
    else true
  }

  /**
   * Each check decides on its own: breaking any one makes a valid commodity
   * invalid, and relaxing the fields they test keeps it valid.
   */
  lemma ValidChecksIndependent(c: Commodity)
    ensures Valid(c) ==> !Valid(c.(precision := MAX_PRECISION + 1))
    ensures Valid(c) && !c.isNull ==> !Valid(c.(symbol := []))
    ensures Valid(c) ==> !Valid(c.(annotated := true, hasBase := false))
    ensures Valid(c) ==> Valid(c.(isNull := true)) && Valid(c.(hasBase := true)) && Valid(c.(annotated := false))
  {
  }

  /**
   * A commodity named by a symbol `parse_symbol(char *&, string&)` read never
   * fails the empty-symbol check: its validity rests on the base and the
   * precision alone.
   */
  lemma ParsedSymbolIsNamed(line: Bytes, p: nat, c: Commodity)
    requires '\0' !in line && p <= |line|
    requires SymbolParser.ParseSymbolAt(line, p).Success?
    requires c.symbol == SymbolParser.ParseSymbolAt(line, p).value.symbol
    ensures Valid(c) <==> (!c.annotated || c.hasBase) && c.precision <= MAX_PRECISION
  {
  }

  /** `std::string` ordering: bytewise, a proper prefix first. */
  predicate LexLess(a: Bytes, b: Bytes)
  {
    if |a| == 0 then |b| > 0
    else if |b| == 0 then false
    else if a[0] != b[0] then a[0] < b[0]
    else LexLess(a[1..], b[1..])
  }

  lemma {:induction false} LexLessIrreflexive(a: Bytes)
    ensures !LexLess(a, a)
  {
    if |a| > 0 {
      LexLessIrreflexive(a[1..]);
    }
  }

  lemma {:induction false} LexLessAsymmetric(a: Bytes, b: Bytes)
    requires LexLess(a, b)
    ensures !LexLess(b, a)
  {
    if |a| > 0 && |b| > 0 && a[0] == b[0] {
      LexLessAsymmetric(a[1..], b[1..]);
    }
  }

  lemma {:induction false} LexLessTransitive(a: Bytes, b: Bytes, c: Bytes)
    requires LexLess(a, b) && LexLess(b, c)
    ensures LexLess(a, c)
  {
    if |a| > 0 && |b| > 0 && |c| > 0 && a[0] == b[0] && b[0] == c[0] {
      LexLessTransitive(a[1..], b[1..], c[1..]);
    }
  }

  /** Two different strings are ordered one way or the other: `compare` is then non-zero. */
  lemma {:induction false} LexLessTotal(a: Bytes, b: Bytes)
    requires a != b
    ensures LexLess(a, b) || LexLess(b, a)
  {
    if |a| > 0 && |b| > 0 && a[0] == b[0] {
      assert a == [a[0]] + a[1..] && b == [b[0]] + b[1..];
      LexLessTotal(a[1..], b[1..]);
    }
  }

  /** An annotation with no price, no date and no tag. */
  predicate Bare(a: Annotation)
  {
    a.price.None? && a.date.None? && a.tag.None?
  }

  /**
   * The pairs `compare_amount_commodities` can compare: it reaches its
   * `assert(false)` for two annotated commodities of the same base that both
   * have a bare annotation.
   */
  predicate Comparable(l: Commodity, r: Commodity)
  {
    !(l.baseSymbol == r.baseSymbol && l.annotated && r.annotated && Bare(l.details) && Bare(r.details))
  }

  /**
   * `compare_amount_commodities`: base symbol first; then a plain commodity
   * before an annotated one; then the lot price (absent first, otherwise
   * numerically, whatever the price commodities); then the lot date (absent
   * first); then the tag (absent first).
   */
  function Less(l: Commodity, r: Commodity): (res: bool)
    requires Comparable(l, r)
    ensures l.baseSymbol != r.baseSymbol ==> (res <==> LexLess(l.baseSymbol, r.baseSymbol))
    ensures l.baseSymbol == r.baseSymbol && l.annotated != r.annotated ==> (res <==> r.annotated)
  {
    if l.baseSymbol != r.baseSymbol then LexLess(l.baseSymbol, r.baseSymbol)
    else if !l.annotated then r.annotated
    else if !r.annotated then !l.annotated
    else
      var a, b := l.details, r.details;
      if a.price.None? && b.price.Some? then true
      else if a.price.Some? && b.price.None? then false
      else if a.price.Some? && b.price.Some? then
        // Same commodity or not, the quantities are compared numerically.
        if a.price.value.comm == b.price.value.comm then QLess(a.price.value.qty, b.price.value.qty)
        else QLess(a.price.value.qty, b.price.value.qty)
      else if a.date.None? && b.date.Some? then true
      else if a.date.Some? && b.date.None? then false
      else if a.date.Some? && b.date.Some? then a.date.value < b.date.value
      else if a.tag.None? && b.tag.Some? then true
      else if a.tag.Some? && b.tag.None? then false
      else LexLess(a.tag.value, b.tag.value)
  }

  /** Two annotated commodities of one base that both carry a price: the prices alone decide. */
  lemma PriceAloneDecides(l: Commodity, r: Commodity)
    requires l.baseSymbol == r.baseSymbol && l.annotated && r.annotated
    requires l.details.price.Some? && r.details.price.Some?
    ensures Comparable(l, r)
    ensures Less(l, r) <==> QLess(l.details.price.value.qty, r.details.price.value.qty)
  {
  }

  /** With both prices missing and both dates present, the earlier date sorts first. */
  lemma DateDecides(l: Commodity, r: Commodity)
    requires l.baseSymbol == r.baseSymbol && l.annotated && r.annotated
    requires l.details.price.None? && r.details.price.None?
    requires l.details.date.Some? && r.details.date.Some?
    ensures Comparable(l, r)
    ensures Less(l, r) <==> l.details.date.value < r.details.date.value
  {
  }

  /** With prices and dates missing on both sides and both tags present, string order decides. */
  lemma TagDecides(l: Commodity, r: Commodity)
    requires l.baseSymbol == r.baseSymbol && l.annotated && r.annotated
    requires l.details.price.None? && r.details.price.None?
    requires l.details.date.None? && r.details.date.None?
    requires l.details.tag.Some? && r.details.tag.Some?
    ensures Comparable(l, r)
    ensures Less(l, r) <==> LexLess(l.details.tag.value, r.details.tag.value)
  {
  }

  /**
   * Within one base and among annotated commodities, a missing key sorts
   * first, and a later key is looked at only when the earlier ones are
   * missing on both sides.
   */
  lemma MissingKeysFirst(l: Commodity, r: Commodity)
    requires l.baseSymbol == r.baseSymbol && l.annotated && r.annotated && Comparable(l, r)
    ensures l.details.price.None? && r.details.price.Some? ==> Less(l, r) && !Less(r, l)
    ensures (l.details.price.None? && r.details.price.None? && l.details.date.None? && r.details.date.Some?)
            ==> Less(l, r) && !Less(r, l)
    ensures (l.details.price.None? && r.details.price.None? && l.details.date.None? && r.details.date.None?
             && l.details.tag.None? && r.details.tag.Some?)
            ==> Less(l, r) && !Less(r, l)
  {
  }

  /** The ordering is irreflexive wherever it is defined. */
  lemma LessIrreflexive(c: Commodity)
    requires Comparable(c, c)
    ensures !Less(c, c)
  {
    LexLessIrreflexive(c.baseSymbol);
    if c.annotated && c.details.tag.Some? {
      LexLessIrreflexive(c.details.tag.value);
    }
  }

  /** The ordering is asymmetric. */
  lemma LessAsymmetric(l: Commodity, r: Commodity)
    requires Comparable(l, r) && Comparable(r, l)
    requires Less(l, r)
    ensures !Less(r, l)
  {
    if l.baseSymbol != r.baseSymbol {
      LexLessAsymmetric(l.baseSymbol, r.baseSymbol);
    } else if l.annotated && r.annotated {
      var a, b := l.details, r.details;
      if a.price.Some? && b.price.Some? {
        QLessAsymmetric(a.price.value.qty, b.price.value.qty);
      } else if a.price.None? && b.price.None? && a.date.None? && b.date.None? && a.tag.Some? && b.tag.Some? {
        LexLessAsymmetric(a.tag.value, b.tag.value);
      }
    }
  }

  /** Ordering within one base and among annotated commodities is transitive. */
  lemma AnnotatedLessTransitive(a: Commodity, b: Commodity, c: Commodity)
    requires a.baseSymbol == b.baseSymbol == c.baseSymbol
    requires a.annotated && b.annotated && c.annotated
    requires Comparable(a, b) && Comparable(b, c) && Comparable(a, c)
    requires Less(a, b) && Less(b, c)
    ensures Less(a, c)
  {
    var x, y, z := a.details, b.details, c.details;
    if x.price.Some? && y.price.Some? && z.price.Some? {
      QLessTransitive(x.price.value.qty, y.price.value.qty, z.price.value.qty);
    } else if x.price.None? && y.price.None? && z.price.None? {
      if x.date.None? && y.date.None? && z.date.None? && x.tag.Some? && y.tag.Some? && z.tag.Some? {
        LexLessTransitive(x.tag.value, y.tag.value, z.tag.value);
      }
    }
  }

  /** The ordering is transitive: together with the two lemmas above, a strict order. */
  lemma LessTransitive(a: Commodity, b: Commodity, c: Commodity)
    requires Comparable(a, b) && Comparable(b, c) && Comparable(a, c)
    requires Less(a, b) && Less(b, c)
    ensures Less(a, c)
  {
    if a.baseSymbol != b.baseSymbol || b.baseSymbol != c.baseSymbol {
      if a.baseSymbol != b.baseSymbol && b.baseSymbol != c.baseSymbol {
        LexLessTransitive(a.baseSymbol, b.baseSymbol, c.baseSymbol);
        LexLessIrreflexive(a.baseSymbol);
      } else if a.baseSymbol == b.baseSymbol {
        LexLessIrreflexive(a.baseSymbol);
      } else {
        LexLessIrreflexive(a.baseSymbol);
      }
    } else if a.annotated && b.annotated && c.annotated {
      AnnotatedLessTransitive(a, b, c);
    }
  }
}

=== FILE: handler_laws.dfy ===
/**
 * What the stages of `walk.h` promise about the items they receive: which
 * they forward, drop or buffer, which flags they set, what a flush emits,
 * and the order in which `walk_entries` feeds a chain.
 */
module HandlerLaws {
  import opened Wrappers
  import opened Xdata
  import opened Handlers

  /** The events a formatter logs when it receives `xs`. */
  function Gots(xs: seq<Xact>): (r: seq<Event>)
    ensures |r| == |xs|
  {
    if |xs| == 0 then [] else [Got(xs[0])] + Gots(xs[1..])
  }

  lemma {:induction false} GotsAppend(a: seq<Xact>, b: seq<Xact>)
    ensures Gots(a + b) == Gots(a) + Gots(b)
  {
    if |a| == 0 {
      assert a + b == b;
    } else {
      assert (a + b)[1..] == a[1..] + b;
      GotsAppend(a[1..], b);
    }
  }

  /** Whether `x` satisfies `pred`, judged with the xdata record it meets in `st`. */
  function Passes(x: Xact, pred: (Xact, XactXdata) -> bool, st: Store): bool
  {
    pred(x, XdataOf(st, x.id))
  }

  /** The pools after a filter has judged `x`: `TRANSACTION_MATCHES` is set on it when it passes. */
  function Judged(x: Xact, pred: (Xact, XactXdata) -> bool, st: Store): (r: Store)
    ensures Passes(x, pred, st) ==> r == SetFlag(st, x.id, TRANSACTION_MATCHES)
    ensures !Passes(x, pred, st) ==> r == st
  {
    if Passes(x, pred, st) then SetFlag(st, x.id, TRANSACTION_MATCHES) else st
  }

  /**
   * The items a filter on its own lets through, in arrival order: each is
   * judged with its record as the earlier items left it.
   */
  function Matching(xs: seq<Xact>, pred: (Xact, XactXdata) -> bool, st: Store): (r: seq<Xact>)
    ensures |r| <= |xs|
  {
    if |xs| == 0 then []
    else (if Passes(xs[0], pred, st) then [xs[0]] else []) + Matching(xs[1..], pred, Judged(xs[0], pred, st))
  }

  /** The items that fall on weekday `d`, in arrival order. */
  function OnDay(xs: seq<Xact>, d: nat): (r: seq<Xact>)
    ensures forall x :: x in r <==> x in xs && x.weekday == d
  {
    if |xs| == 0 then []
    else (if xs[0].weekday == d then [xs[0]] else []) + OnDay(xs[1..], d)
  }

  /** The identities of the items a filter lets through. */
  ghost function MatchedIds(xs: seq<Xact>, pred: (Xact, XactXdata) -> bool, st: Store): set<nat>
  {
    set x | x in Matching(xs, pred, st) :: x.id
  }

  /** The identities of the items. */
  ghost function Ids(xs: seq<Xact>): set<nat>
  {
    set x | x in xs :: x.id
  }

  /** The record of `id` in `st'` is the one in `st`, with `flag` set when `on` holds. */
  predicate FlaggedAt(st: Store, st': Store, id: nat, on: bool, flag: Flags)
  {
    var x, y := XdataOf(st, id), XdataOf(st', id);
    y == x.(dflags := if on then x.dflags | flag else x.dflags)
  }

  /**
   * `st'` is `st` with `flag` set on exactly the records of `ids`: every
   * other flag bit and every other field is as before.
   */
  ghost predicate FlaggedExactly(st: Store, st': Store, ids: set<nat>, flag: Flags)
  {
    st'.accounts == st.accounts && forall id :: FlaggedAt(st, st', id, id in ids, flag)
  }

  lemma FlaggedNothing(st: Store, flag: Flags)
    ensures FlaggedExactly(st, st, {}, flag)
  {
  }

  /** One record: flagging it and then flagging it again as part of a set is flagging it once. */
  lemma FlaggedStepAt(st: Store, id: nat, st': Store, on: bool, k: nat, flag: Flags)
    requires FlaggedAt(SetFlag(st, id, flag), st', k, on, flag)
    ensures FlaggedAt(st, st', k, k == id || on, flag)
  {
    if k == id {
      FlaggedAgain(st, id, st', on, flag);
    } else {
      FlaggedOther(st, id, st', on, k, flag);
    }
  }

  lemma FlaggedAgain(st: Store, id: nat, st': Store, on: bool, flag: Flags)
    requires FlaggedAt(SetFlag(st, id, flag), st', id, on, flag)
    ensures FlaggedAt(st, st', id, true, flag)
  {
    var x := XdataOf(st, id);
    assert XdataOf(SetFlag(st, id, flag), id) == x.(dflags := x.dflags | flag);
  }

  lemma FlaggedOther(st: Store, id: nat, st': Store, on: bool, k: nat, flag: Flags)
    requires k != id
    requires FlaggedAt(SetFlag(st, id, flag), st', k, on, flag)
    ensures FlaggedAt(st, st', k, on, flag)
  {
  }

  /** Setting a flag on one record, then on a set of records, flags their union. */
  lemma FlaggedStep(st: Store, id: nat, st': Store, ids: set<nat>, flag: Flags)
    requires FlaggedExactly(SetFlag(st, id, flag), st', ids, flag)
    ensures FlaggedExactly(st, st', {id} + ids, flag)
  {
    forall k
      ensures FlaggedAt(st, st', k, k in {id} + ids, flag)
    {
      FlaggedStepAt(st, id, st', k in ids, k, flag);
    }
  }

  // -------------------------------------------------------------------
  // item_handler: forwarding

  /**
   * The base handler passes each item and each flush on to its downstream
   * when one is attached, and does nothing otherwise.
   */
  lemma ForwardPassesOn(p: Pipe, i: nat, x: Xact, b: Behaviour)
    requires i < |p.stages| && ChainOk(p.stages) && Lawful(b) && p.stages[i].Forward?
    ensures i + 1 < |p.stages| ==> Deliver(p, i, x, b) == Deliver(p, i + 1, x, b)
    ensures i + 1 < |p.stages| ==> Flush(p, i, b) == Flush(p, i + 1, b)
    ensures i + 1 == |p.stages| ==> Deliver(p, i, x, b) == p && Flush(p, i, b) == p
  {
    assert SetStage(p, i, p.stages[i]) == p by {
      assert p.stages[i := p.stages[i]] == p.stages;
    }
  }

  /**
   * Calc, invert, set-account-value, set-commodity-as-payee, generate and
   * budget declare no `flush`: theirs is `item_handler::flush`, which emits
   * nothing and only passes the flush on.
   */
  lemma InheritedFlushPassesOn(p: Pipe, i: nat, b: Behaviour)
    requires i < |p.stages| && ChainOk(p.stages) && Lawful(b)
    requires p.stages[i].Declared? && !OwnFlush(p.stages[i].cls)
    ensures i + 1 < |p.stages| ==> Flush(p, i, b) == Flush(p, i + 1, b)
    ensures i + 1 == |p.stages| ==> Flush(p, i, b) == p
  {
    assert SetStage(p, i, p.stages[i]) == p by {
      assert p.stages[i := p.stages[i]] == p.stages;
    }
  }

  /**
   * Generate and forecast declare no consume step: theirs is
   * `item_handler::operator()`, which passes the item on untouched.
   */
  lemma InheritedConsumePassesOn(p: Pipe, i: nat, x: Xact, b: Behaviour)
    requires i < |p.stages| && ChainOk(p.stages) && Lawful(b)
    requires p.stages[i].Declared? && !OwnConsume(p.stages[i].cls)
    ensures i + 1 < |p.stages| ==> Deliver(p, i, x, b) == Deliver(p, i + 1, x, b)
    ensures i + 1 == |p.stages| ==> Deliver(p, i, x, b) == p
  {
  }

  /**
   * With a sort order, whatever the interval stage hands on for an item lands,
   * in order, in the buffer of the sort stage it owns; the stages behind that
   * sort stage are untouched, and the xdata pools are as the interval's own
   * consume step left them.
   */
  lemma IntervalFeedsSort(down: seq<Stage>, k: SortKey, store: Store, x: Xact, b: Behaviour)
    requires ChainOk(down) && Lawful(b)
    ensures var p := Pipe(WithInterval(down, Some(k)), store);
            var e := b(p.stages[0], store, Receive(x));
            var r := Deliver(p, 0, x, b);
            r.stages[1] == Sort(e.out, k) && r.stages[2..] == down && r.store == e.store
  {
    var p := Pipe(WithInterval(down, Some(k)), store);
    var e := b(p.stages[0], store, Receive(x));
    var p1 := SetStage(p.(store := e.store), 0, e.stage);
    assert Kind(e.stage) == Kind(p.stages[0]);
    assert ChainOk(p1.stages);
    SortBuffers(p1, 1, e.out, b);
    assert [] + e.out == e.out;
    var r := Deliver(p, 0, x, b);
    assert r == Unseen(p, 0, x, b);
    assert r == DeliverAll(p1, 1, e.out, b);
    assert r.stages[2..] == p1.stages[2..];
  }

  // -------------------------------------------------------------------
  // ignore_transactions

  /** `ignore_transactions` forwards nothing and changes nothing. */
  lemma {:induction false} IgnoreDropsAll(p: Pipe, i: nat, xs: seq<Xact>, b: Behaviour)
    requires i < |p.stages| && ChainOk(p.stages) && Lawful(b) && p.stages[i].Ignore?
    ensures DeliverAll(p, i, xs, b) == p
    decreases |xs|
  {
    if |xs| > 0 {
      IgnoreDropsAll(p, i, xs[1..], b);
    }
  }

  // -------------------------------------------------------------------
  // filter_transactions

  /** One item through a filter in front of a formatter. */
  lemma FilterStep(p: Pipe, i: nat, x: Xact, b: Behaviour)
    requires i + 1 < |p.stages| && ChainOk(p.stages) && Lawful(b)
    requires p.stages[i].Filter? && p.stages[i + 1].Sink?
    ensures var q := Deliver(p, i, x, b);
            var pred, log := p.stages[i].pred, p.stages[i + 1].log;
            q.stages == p.stages[i + 1 := Sink(log + Gots(Matching([x], pred, p.store)))]
            && q.store == Judged(x, pred, p.store)
  {
    var pred, log := p.stages[i].pred, p.stages[i + 1].log;
    var q := Deliver(p, i, x, b);
    assert [x][1..] == [];
    assert Matching([x], pred, p.store) == (if Passes(x, pred, p.store) then [x] else []) + [];
    if Passes(x, pred, p.store) {
      assert Gots([x]) == [Got(x)];
      var m := Mark(p, x.id, TRANSACTION_MATCHES);
      assert q == Deliver(m, i + 1, x, b);
      assert q == SetStage(m, i + 1, Sink(log + [Got(x)]));
    } else {
      assert Gots([]) == [];
      assert log + [] == log;
      assert p.stages[i + 1 := Sink(log)] == p.stages;
    }
  }

  /** The first item is matched on its own, then the rest. */
  lemma MatchingCons(xs: seq<Xact>, pred: (Xact, XactXdata) -> bool, st: Store)
    requires |xs| > 0
    ensures Matching(xs, pred, st) == Matching([xs[0]], pred, st) + Matching(xs[1..], pred, Judged(xs[0], pred, st))
  {
    var head := if Passes(xs[0], pred, st) then [xs[0]] else [];
    assert [xs[0]][1..] == [];
    assert Matching([xs[0]], pred, st) == head + Matching([], pred, Judged(xs[0], pred, st));
    assert head + [] == head;
  }

  lemma MatchedIdsCons(xs: seq<Xact>, pred: (Xact, XactXdata) -> bool, st: Store)
    requires |xs| > 0
    ensures MatchedIds(xs, pred, st)
            == (if Passes(xs[0], pred, st) then {xs[0].id} else {}) + MatchedIds(xs[1..], pred, Judged(xs[0], pred, st))
  {
    var head := if Passes(xs[0], pred, st) then [xs[0]] else [];
    var rest := Matching(xs[1..], pred, Judged(xs[0], pred, st));
    assert Matching(xs, pred, st) == head + rest;
    assert forall x :: x in head + rest <==> x in head || x in rest;
  }

  /**
   * A filter in front of a formatter forwards exactly the items that satisfy
   * its predicate, each judged with its xdata record as it arrives, in
   * arrival order; no other stage changes.
   */
  lemma {:induction false} FilterForwardsMatching(p: Pipe, i: nat, xs: seq<Xact>, b: Behaviour)
    requires i + 1 < |p.stages| && ChainOk(p.stages) && Lawful(b)
    requires p.stages[i].Filter? && p.stages[i + 1].Sink?
    ensures var r := DeliverAll(p, i, xs, b);
            r.stages == p.stages[i + 1 := Sink(p.stages[i + 1].log + Gots(Matching(xs, p.stages[i].pred, p.store)))]
    decreases |xs|
  {
    var pred, log := p.stages[i].pred, p.stages[i + 1].log;
    if |xs| == 0 {
      assert log + [] == log;
      assert p.stages[i + 1 := Sink(log)] == p.stages;
    } else {
      var q := Deliver(p, i, xs[0], b);
      FilterStep(p, i, xs[0], b);
      FilterForwardsMatching(q, i, xs[1..], b);
      assert DeliverAll(p, i, xs, b) == DeliverAll(q, i, xs[1..], b);
      FilterGlue(p.stages, q.stages, DeliverAll(q, i, xs[1..], b).stages, i + 1, xs, pred, p.store, log);
    }
  }

  /** The formatter's log after the first item and after the rest adds up to the log after all items. */
  lemma FilterGlue(ps: seq<Stage>, qs: seq<Stage>, rs: seq<Stage>, j: nat, xs: seq<Xact>,
                   pred: (Xact, XactXdata) -> bool, st: Store, log: seq<Event>)
    requires |xs| > 0 && j < |ps|
    requires qs == ps[j := Sink(log + Gots(Matching([xs[0]], pred, st)))]
    requires rs == qs[j := Sink(qs[j].log + Gots(Matching(xs[1..], pred, Judged(xs[0], pred, st))))]
    ensures rs == ps[j := Sink(log + Gots(Matching(xs, pred, st)))]
  {
    var full := log + Gots(Matching(xs, pred, st));
    GlueLog(xs, pred, st, log);
    assert qs[j].log == log + Gots(Matching([xs[0]], pred, st));
    UpdateTwice(ps, j, Sink(log + Gots(Matching([xs[0]], pred, st))), Sink(full));
  }

  lemma GlueLog(xs: seq<Xact>, pred: (Xact, XactXdata) -> bool, st: Store, log: seq<Event>)
    requires |xs| > 0
    ensures log + Gots(Matching([xs[0]], pred, st)) + Gots(Matching(xs[1..], pred, Judged(xs[0], pred, st)))
            == log + Gots(Matching(xs, pred, st))
  {
    var m1, m2 := Matching([xs[0]], pred, st), Matching(xs[1..], pred, Judged(xs[0], pred, st));
    MatchingCons(xs, pred, st);
    GotsAppend(m1, m2);
    ConcatAssoc(log, Gots(m1), Gots(m2));
  }

  lemma ConcatAssoc<T>(a: seq<T>, b: seq<T>, c: seq<T>)
    ensures a + b + c == a + (b + c)
  {
  }

  lemma UpdateTwice<T>(s: seq<T>, i: nat, a: T, c: T)
    requires i < |s|
    ensures s[i := a][i := c] == s[i := c]
  {
  }

  /**
   * A filter sets `TRANSACTION_MATCHES` on exactly the items it forwards,
   * leaving every other flag bit and every other record as it was.
   */
  lemma {:induction false} FilterMarksMatching(p: Pipe, i: nat, xs: seq<Xact>, b: Behaviour)
    requires i + 1 < |p.stages| && ChainOk(p.stages) && Lawful(b)
    requires p.stages[i].Filter? && p.stages[i + 1].Sink?
    ensures FlaggedExactly(p.store, DeliverAll(p, i, xs, b).store, MatchedIds(xs, p.stages[i].pred, p.store), TRANSACTION_MATCHES)
    decreases |xs|
  {
    var pred := p.stages[i].pred;
    if |xs| == 0 {
      FlaggedNothing(p.store, TRANSACTION_MATCHES);
      assert MatchedIds(xs, pred, p.store) == {};
    } else {
      var x := xs[0];
      var q := Deliver(p, i, x, b);
      FilterStep(p, i, x, b);
      FilterMarksMatching(q, i, xs[1..], b);
      var r := DeliverAll(q, i, xs[1..], b);
      MatchedIdsCons(xs, pred, p.store);
      if Passes(x, pred, p.store) {
        FlaggedStep(p.store, x.id, r.store, MatchedIds(xs[1..], pred, q.store), TRANSACTION_MATCHES);
      }
    }
  }

  // -------------------------------------------------------------------
  // Buffering stages

  /** `sort_transactions` appends each item to its buffer and hands nothing on. */
  lemma {:induction false} SortBuffers(p: Pipe, i: nat, xs: seq<Xact>, b: Behaviour)
    requires i < |p.stages| && ChainOk(p.stages) && Lawful(b) && p.stages[i].Sort?
    ensures var r := DeliverAll(p, i, xs, b);
            r.stages == p.stages[i := Sort(p.stages[i].buffer + xs, p.stages[i].order)] && r.store == p.store
    decreases |xs|
  {
    var s := p.stages[i];
    if |xs| == 0 {
      assert s.buffer + xs == s.buffer;
      assert p.stages[i := Sort(s.buffer, s.order)] == p.stages;
    } else {
      var q := Deliver(p, i, xs[0], b);
      assert q.stages == p.stages[i := Sort(s.buffer + [xs[0]], s.order)];
      SortBuffers(q, i, xs[1..], b);
      assert s.buffer + [xs[0]] + xs[1..] == s.buffer + xs;
    }
  }

  /**
   * `related_transactions` appends each item to its buffer, sets
   * `TRANSACTION_RECEIVED` on it, and hands nothing on.
   */
  lemma {:induction false} RelatedBuffers(p: Pipe, i: nat, xs: seq<Xact>, b: Behaviour)
    requires i < |p.stages| && ChainOk(p.stages) && Lawful(b) && p.stages[i].Related?
    ensures var r := DeliverAll(p, i, xs, b);
            r.stages == p.stages[i := Related(p.stages[i].buffer + xs, p.stages[i].alsoMatching)]
            && FlaggedExactly(p.store, r.store, Ids(xs), TRANSACTION_RECEIVED)
    decreases |xs|
  {
    var s := p.stages[i];
    if |xs| == 0 {
      assert s.buffer + xs == s.buffer;
      assert p.stages[i := Related(s.buffer, s.alsoMatching)] == p.stages;
      FlaggedNothing(p.store, TRANSACTION_RECEIVED);
      assert Ids(xs) == {};
    } else {
      var q := Deliver(p, i, xs[0], b);
      assert q.stages == p.stages[i := Related(s.buffer + [xs[0]], s.alsoMatching)];
      assert q.store == SetFlag(p.store, xs[0].id, TRANSACTION_RECEIVED);
      RelatedBuffers(q, i, xs[1..], b);
      assert s.buffer + [xs[0]] + xs[1..] == s.buffer + xs;
      var r := DeliverAll(q, i, xs[1..], b);
      FlaggedStep(p.store, xs[0].id, r.store, Ids(xs[1..]), TRANSACTION_RECEIVED);
      assert xs == [xs[0]] + xs[1..];
      assert Ids(xs) == {xs[0].id} + Ids(xs[1..]);
    }
  }

  /** `dow_transactions` appends each item to the bucket of its weekday and hands nothing on. */
  lemma {:induction false} DowBuckets(p: Pipe, i: nat, xs: seq<Xact>, b: Behaviour)
    requires i < |p.stages| && ChainOk(p.stages) && Lawful(b) && p.stages[i].Dow?
    ensures var r := DeliverAll(p, i, xs, b);
            r.store == p.store && r.stages[i].Dow? && |r.stages[i].days| == 7
            && (forall d :: 0 <= d < 7 ==> r.stages[i].days[d] == p.stages[i].days[d] + OnDay(xs, d))
            && forall k :: 0 <= k < |p.stages| && k != i ==> r.stages[k] == p.stages[k]
    decreases |xs|
  {
    var days := p.stages[i].days;
    if |xs| == 0 {
      forall d | 0 <= d < 7
        ensures days[d] + OnDay(xs, d) == days[d]
      {
      }
    } else {
      var x := xs[0];
      var q := Deliver(p, i, x, b);
      var days' := days[x.weekday := days[x.weekday] + [x]];
      assert q.stages[i] == Dow(days');
      DowBuckets(q, i, xs[1..], b);
      var r := DeliverAll(q, i, xs[1..], b);
      forall d | 0 <= d < 7
        ensures r.stages[i].days[d] == days[d] + OnDay(xs, d)
      {
        assert OnDay(xs, d) == (if x.weekday == d then [x] else []) + OnDay(xs[1..], d);
        if x.weekday == d {
          assert days'[d] + OnDay(xs[1..], d) == days[d] + OnDay(xs, d);
        } else {
          assert days'[d] == days[d];
          assert OnDay(xs, d) == OnDay(xs[1..], d);
        }
      }
    }
  }

  // -------------------------------------------------------------------
  // Flushing

  /** A formatter logs the items it receives, in order, and nothing else changes. */
  lemma {:induction false} SinkCollects(p: Pipe, i: nat, xs: seq<Xact>, b: Behaviour)
    requires i < |p.stages| && ChainOk(p.stages) && Lawful(b) && p.stages[i].Sink?
    ensures var r := DeliverAll(p, i, xs, b);
            r.stages == p.stages[i := Sink(p.stages[i].log + Gots(xs))] && r.store == p.store
    decreases |xs|
  {
    var log := p.stages[i].log;
    if |xs| == 0 {
      assert log + [] == log;
      assert p.stages[i := Sink(log)] == p.stages;
    } else {
      var q := Deliver(p, i, xs[0], b);
      SinkCollects(q, i, xs[1..], b);
      GotsAppend([xs[0]], xs[1..]);
      assert [xs[0]] + xs[1..] == xs;
      assert log + [Got(xs[0])] + Gots(xs[1..]) == log + Gots(xs);
    }
  }

  /**
   * On `flush()` a stage in front of a formatter hands on its own pending
   * group first and only then propagates the flush: the formatter sees the
   * group and then the flush.
   */
  lemma FlushEmitsOwnGroupFirst(p: Pipe, i: nat, b: Behaviour)
    requires i + 1 < |p.stages| && ChainOk(p.stages) && Lawful(b) && p.stages[i + 1].Sink?
    ensures var r := Flush(p, i, b);
            var e := FlushOwn(p.stages[i], p.store, b);
            r.stages[i] == e.stage && r.stages[i + 1] == Sink(p.stages[i + 1].log + Gots(e.out) + [Flushed])
  {
    var e := FlushOwn(p.stages[i], p.store, b);
    var out := e.out;
    var p1 := SetStage(p.(store := e.store), i, e.stage);
    SinkCollects(p1, i + 1, out, b);
    var q := DeliverAll(p1, i + 1, out, b);
    assert q.stages[i + 1] == Sink(p.stages[i + 1].log + Gots(out));
    var q2 := SetStage(q, i + 1, Sink(p.stages[i + 1].log + Gots(out) + [Flushed]));
    assert Flush(q, i + 1, b) == Flush(DeliverAll(q2, i + 2, [], b), i + 2, b);
  }

  /**
   * Collapse with a zero subtotal, subtotal with no values, and changed-value
   * with no last transaction hand nothing on when flushed.
   */
  lemma QuietFlushes(s: Stage, st: Store, b: Behaviour)
    requires Lawful(b) && WellSized(s)
    requires (s.Collapse? && s.subtotal == 0) || (s.Subtotal? && |s.values| == 0)
             || (s.ChangedValue? && s.lastXact.None?)
    ensures FlushOwn(s, st, b).out == [] && FlushOwn(s, st, b).store == st
  {
  }

  /** A changed-value stage forgets its last transaction, so a second flush emits no further difference. */
  lemma ChangedValueSecondFlushQuiet(p: Pipe, i: nat, b: Behaviour)
    requires i + 1 < |p.stages| && ChainOk(p.stages) && Lawful(b)
    requires p.stages[i].ChangedValue? && p.stages[i + 1].Sink?
    ensures var q := Flush(p, i, b);
            Flush(q, i, b).stages[i + 1] == Sink(q.stages[i + 1].log + [Flushed])
  {
    var q := Flush(p, i, b);
    FlushEmitsOwnGroupFirst(p, i, b);
    assert q.stages[i].ChangedValue? && q.stages[i].lastXact.None?;
    FlushEmitsOwnGroupFirst(q, i, b);
  }

  // -------------------------------------------------------------------
  // walk_entries

  /** Handing over `a + c` is handing over `a`, then `c`. */
  lemma {:induction false} DeliverAllAppend(p: Pipe, i: nat, a: seq<Xact>, c: seq<Xact>, b: Behaviour)
    requires i <= |p.stages| && ChainOk(p.stages) && Lawful(b)
    ensures DeliverAll(p, i, a + c, b) == DeliverAll(DeliverAll(p, i, a, b), i, c, b)
    decreases |a|
  {
    if |a| > 0 {
      assert (a + c)[0] == a[0] && (a + c)[1..] == a[1..] + c;
      DeliverAllAppend(Deliver(p, i, a[0], b), i, a[1..], c, b);
    } else {
      assert a + c == c;
    }
  }

  /**
   * `walk_entries` hands the chain every posting of every entry exactly once,
   * in entry order and then posting order.
   */
  lemma {:induction false} WalkEntriesInOrder(p: Pipe, i: nat, es: seq<Entry>, b: Behaviour)
    requires i <= |p.stages| && ChainOk(p.stages) && Lawful(b)
    ensures WalkEntries(p, i, es, b) == DeliverAll(p, i, Postings(es), b)
    decreases |es|
  {
    if |es| > 0 {
      var q := WalkXacts(p, i, es[0].xacts, b);
      WalkEntriesInOrder(q, i, es[1..], b);
      DeliverAllAppend(p, i, es[0].xacts, Postings(es[1..]), b);
    }
  }

  /** A formatter fed by `walk_entries` logs exactly the postings, in order. */
  lemma WalkEntriesToFormatter(p: Pipe, i: nat, es: seq<Entry>, b: Behaviour)
    requires i < |p.stages| && ChainOk(p.stages) && Lawful(b) && p.stages[i].Sink?
    ensures WalkEntries(p, i, es, b).stages[i] == Sink(p.stages[i].log + Gots(Postings(es)))
  {
    WalkEntriesInOrder(p, i, es, b);
    SinkCollects(p, i, Postings(es), b);
  }
}

=== FILE: handlers.dfy ===
/**
 * The posting-handler pipeline of `walk.h`: a chain of `item_handler`
 * stages, each holding a pointer to the next. A chain is a sequence of
 * stages; stage `i` hands items to stage `i + 1`, and the last stage has no
 * downstream handler (a NULL `handler`).
 *
 * Stages whose bodies `walk.h` shows are modelled exactly; so are the
 * inherited `item_handler::operator()` and `item_handler::flush` of the
 * classes that declare no consume step or no flush of their own. Bodies
 * defined elsewhere (the consume step of calc, invert, collapse,
 * changed-value, subtotal, interval, by-payee, set-account-value,
 * set-comm-as-payee and budget, `report_subtotal`, `output_diff`, the
 * `flush` of the sort, related, day-of-week, by-payee and forecast stages)
 * are supplied as a `Behaviour`: given the stage and the xdata pools, the
 * new state of the stage, the pools it leaves, and the items it hands
 * downstream.
 */
module Handlers {
  import opened Wrappers
  import opened Xdata

  /** What a report formatter at the end of the chain observes. */
  datatype Event = Got(x: Xact) | Flushed

  /** The classes of `walk.h` whose bodies lie, in whole or in part, outside the header. */
  datatype DeclaredClass =
    | Calc | Invert | SetAccountValue | SetCommAsPayee
    | Generate | Budget | ByPayee | Forecast

  /**
   * The classes that override `flush()`; the others inherit
   * `item_handler::flush`, which only passes the flush on.
   */
  predicate OwnFlush(c: DeclaredClass)
  {
    c == ByPayee || c == Forecast
  }

  /**
   * The classes that override `operator()`; generate and forecast inherit
   * `item_handler::operator()`, which forwards the item.
   */
  predicate OwnConsume(c: DeclaredClass)
  {
    c != Generate && c != Forecast
  }

  /** Identity of a sort expression (`value_expr_t`). */
  type SortKey = nat

  datatype Stage =
    | Forward
      // item_handler<T> itself
    | Ignore
      // ignore_transactions; built without a handler, so nothing follows it in practice
    | Filter(pred: (Xact, XactXdata) -> bool)
      // filter_transactions with its item_predicate, which reads the item and its xdata
    | Sort(buffer: seq<Xact>, order: SortKey)
      // sort_transactions
    | Related(buffer: seq<Xact>, alsoMatching: bool)
      // related_transactions
    | Dow(days: seq<seq<Xact>>)
      // dow_transactions: days_of_the_week[7]
    | Collapse(subtotal: int, count: nat)
      // collapse_transactions
    | ChangedValue(lastXact: Option<Xact>, lastBalance: int)
      // changed_value_transactions
    | Subtotal(values: map<nat, int>)
      // subtotal_transactions: account -> value
    | Interval(lastXact: Option<Xact>, values: map<nat, int>)
      // interval_transactions
    | Declared(cls: DeclaredClass)
      // a stage whose bodies lie, in whole or in part, outside walk.h
    | Sink(log: seq<Event>)
      // the report formatter the chain ends in

  /** The requests a `Behaviour` answers for the bodies walk.h does not show. */
  datatype Signal =
    | Receive(x: Xact)       // operator()(xact)
    | Report                 // report_subtotal() / output_diff()
    | ReportSubtotal         // subtotal_transactions::report_subtotal() on an interval stage
    | FlushBody              // a flush() override defined outside walk.h

  /** What an unseen body leaves: the stage's new state, the xdata pools, and the items it hands downstream, in order. */
  datatype Effect = Effect(stage: Stage, store: Store, out: seq<Xact>)

  /** The unseen bodies, which see the stage and the xdata pools they may update. */
  type Behaviour = (Stage, Store, Signal) -> Effect

  /** The class of a stage: a C++ object never changes its class. */
  function Kind(s: Stage): nat
  {
    match s
    case Forward => 0
    case Ignore => 1
    case Filter(_) => 2
    case Sort(_, _) => 3
    case Related(_, _) => 4
    case Dow(_) => 5
    case Collapse(_, _) => 6
    case ChangedValue(_, _) => 7
    case Subtotal(_) => 8
    case Interval(_, _) => 9
    case Declared(c) => 12 + ClassCode(c)
    case Sink(_) => 11
  }

  function ClassCode(c: DeclaredClass): nat
  {
    match c
    case Calc => 0
    case Invert => 1
    case SetAccountValue => 2
    case SetCommAsPayee => 3
    case Generate => 4
    case Budget => 5
    case ByPayee => 6
    case Forecast => 7
  }

  /** A day-of-week stage has its seven buckets. */
  predicate WellSized(s: Stage)
  {
    s.Dow? ==> |s.days| == 7
  }

  /** Unseen bodies keep a stage of the same class and shape. */
  ghost predicate Lawful(b: Behaviour)
  {
    forall s: Stage, st: Store, sig: Signal ::
      Kind(b(s, st, sig).stage) == Kind(s) && (WellSized(s) ==> WellSized(b(s, st, sig).stage))
  }

  /**
   * A chain the source can run: every filter has a downstream handler (its
   * `operator()` dereferences `handler` unchecked) and every day-of-week stage
   * has seven buckets.
   */
  predicate ChainOk(stages: seq<Stage>)
  {
    forall k :: 0 <= k < |stages| ==> WellSized(stages[k]) && (stages[k].Filter? ==> k + 1 < |stages|)
  }

  /** The chain and the xdata pools it updates. */
  datatype Pipe = Pipe(stages: seq<Stage>, store: Store)

  /** The stages keep their number and classes. */
  ghost predicate SameShape(a: seq<Stage>, b: seq<Stage>)
  {
    |a| == |b| && forall k :: 0 <= k < |a| ==> Kind(a[k]) == Kind(b[k]) && (a[k].Filter? ==> a[k] == b[k])
  }

  /** Replaces the state of stage `i`. */
  function SetStage(p: Pipe, i: nat, s: Stage): (r: Pipe)
    requires i < |p.stages|
    ensures |r.stages| == |p.stages| && r.stages[i] == s && r.store == p.store
    ensures forall k :: 0 <= k < |p.stages| && k != i ==> r.stages[k] == p.stages[k]
  {
    p.(stages := p.stages[i := s])
  }

  /** Sets a display flag on an item's xdata. */
  function Mark(p: Pipe, id: nat, flag: Flags): (r: Pipe)
    ensures r.stages == p.stages
  {
    p.(store := SetFlag(p.store, id, flag))
  }

  /**
   * `(*handler)(xact)` on stage `i`; position `|stages|` is the NULL handler,
   * which ignores the item.
   */
  function Deliver(p: Pipe, i: nat, x: Xact, b: Behaviour): (r: Pipe)
    requires i <= |p.stages| && ChainOk(p.stages) && Lawful(b)
    ensures SameShape(p.stages, r.stages) && ChainOk(r.stages)
    ensures forall k :: 0 <= k < i ==> r.stages[k] == p.stages[k]
    decreases |p.stages| - i, 1
  {
    if i == |p.stages| then p
    else match p.stages[i]
      case Forward => Deliver(p, i + 1, x, b)
      case Ignore => p
      case Filter(pred) =>
        if pred(x, XdataOf(p.store, x.id)) then Deliver(Mark(p, x.id, TRANSACTION_MATCHES), i + 1, x, b) else p
      case Sort(buffer, order) => SetStage(p, i, Sort(buffer + [x], order))
      case Related(buffer, also) =>
        SetStage(Mark(p, x.id, TRANSACTION_RECEIVED), i, Related(buffer + [x], also))
      case Dow(days) => SetStage(p, i, Dow(days[x.weekday := days[x.weekday] + [x]]))
      case Sink(log) => SetStage(p, i, Sink(log + [Got(x)]))
      case Declared(c) => if OwnConsume(c) then Unseen(p, i, x, b) else Deliver(p, i + 1, x, b)
      case _ => Unseen(p, i, x, b)
  }

  /** The stages whose consume step is defined outside walk.h. */
  predicate ConsumeUnseen(s: Stage)
  {
    s.Collapse? || s.ChangedValue? || s.Subtotal? || s.Interval? || (s.Declared? && OwnConsume(s.cls))
  }

  /** A consume step defined outside walk.h: the stage and the pools are updated, then its output goes on. */
  function Unseen(p: Pipe, i: nat, x: Xact, b: Behaviour): (r: Pipe)
    requires i < |p.stages| && ChainOk(p.stages) && Lawful(b) && ConsumeUnseen(p.stages[i])
    ensures SameShape(p.stages, r.stages) && ChainOk(r.stages)
    ensures forall k :: 0 <= k < i ==> r.stages[k] == p.stages[k]
    decreases |p.stages| - i, 0
  {
    var e := b(p.stages[i], p.store, Receive(x));
    assert Kind(e.stage) == Kind(p.stages[i]);
    DeliverAll(SetStage(p.(store := e.store), i, e.stage), i + 1, e.out, b)
  }

  /** Hands the items, one after the other, to stage `i`. */
  function DeliverAll(p: Pipe, i: nat, xs: seq<Xact>, b: Behaviour): (r: Pipe)
    requires i <= |p.stages| && ChainOk(p.stages) && Lawful(b)
    ensures SameShape(p.stages, r.stages) && ChainOk(r.stages)
    ensures forall k :: 0 <= k < i ==> r.stages[k] == p.stages[k]
    decreases |p.stages| - i, |xs| + 1
  {
    if |xs| == 0 then p
    else
      var q := Deliver(p, i, xs[0], b);
      DeliverAll(q, i, xs[1..], b)
  }

  /**
   * What stage `s` emits on `flush()` before it propagates the flush, its
   * state afterwards and the pools it leaves. Collapse emits only with a
   * non-zero subtotal, subtotal only with values, changed-value only with a
   * last transaction (which it then forgets), interval first its own report
   * when it saw a transaction and then the subtotal report when values
   * remain. A class without a flush of its own emits nothing.
   */
  function FlushOwn(s: Stage, st: Store, b: Behaviour): (r: Effect)
    requires Lawful(b) && WellSized(s)
    ensures Kind(r.stage) == Kind(s) && WellSized(r.stage) && (s.Filter? ==> r.stage == s)
    ensures s.Forward? || s.Ignore? || s.Filter? ==> r == Effect(s, st, [])
    ensures s.Sink? ==> r == Effect(Sink(s.log + [Flushed]), st, [])
    ensures s.Collapse? && s.subtotal == 0 ==> r == Effect(s, st, [])
    ensures s.Subtotal? && |s.values| == 0 ==> r == Effect(s, st, [])
    ensures s.ChangedValue? ==> r.stage.lastXact.None?
    ensures s.ChangedValue? && s.lastXact.None? ==> r == Effect(s, st, [])
    ensures s.Declared? && !OwnFlush(s.cls) ==> r == Effect(s, st, [])
  {
    match s
    case Forward => Effect(s, st, [])
    case Ignore => Effect(s, st, [])
    case Filter(_) => Effect(s, st, [])
    case Sink(log) => Effect(Sink(log + [Flushed]), st, [])
    case Collapse(subtotal, _) => if subtotal != 0 then b(s, st, Report) else Effect(s, st, [])
    case Subtotal(values) => if |values| > 0 then b(s, st, Report) else Effect(s, st, [])
    case ChangedValue(_, _) => FlushChangedValue(s, st, b)
    case Interval(_, _) => FlushInterval(s, st, b)
    case Declared(c) => if OwnFlush(c) then b(s, st, FlushBody) else Effect(s, st, [])
    case _ => b(s, st, FlushBody)
  }

  /** `changed_value_transactions::flush`: the last difference, if any, and the last transaction forgotten. */
  function FlushChangedValue(s: Stage, st: Store, b: Behaviour): (r: Effect)
    requires Lawful(b) && s.ChangedValue?
    ensures r.stage.ChangedValue? && r.stage.lastXact.None?
    ensures s.lastXact.None? ==> r == Effect(s, st, [])
  {
    if s.lastXact.Some? then
      var next := b(s, st, Report);
      assert Kind(next.stage) == Kind(s);
      Effect(ChangedValue(None, next.stage.lastBalance), next.store, next.out)
    else Effect(s, st, [])
  }

  /**
   * `interval_transactions::flush`: its own report when it saw a transaction,
   * then the subtotal report when values remain.
   */
  function FlushInterval(s: Stage, st: Store, b: Behaviour): (r: Effect)
    requires Lawful(b) && s.Interval?
    ensures r.stage.Interval?
    ensures s.lastXact.None? && |s.values| == 0 ==> r == Effect(s, st, [])
  {
    if s.lastXact.None? && |s.values| == 0 then Effect(s, st, [])
    else
      var first := if s.lastXact.Some? then b(s, st, Report) else Effect(s, st, []);
      assert Kind(first.stage) == Kind(s);
      var second :=
        if |first.stage.values| > 0 then b(first.stage, first.store, ReportSubtotal)
        else Effect(first.stage, first.store, []);
      Effect(second.stage, second.store, first.out + second.out)
  }

  /** `flush()` on stage `i`: its own group goes downstream first, then the flush follows it. */
  function Flush(p: Pipe, i: nat, b: Behaviour): (r: Pipe)
    requires i <= |p.stages| && ChainOk(p.stages) && Lawful(b)
    ensures SameShape(p.stages, r.stages) && ChainOk(r.stages)
    ensures forall k :: 0 <= k < i ==> r.stages[k] == p.stages[k]
    decreases |p.stages| - i
  {
    if i == |p.stages| then p
    else
      var e := FlushOwn(p.stages[i], p.store, b);
      var q := DeliverAll(SetStage(p.(store := e.store), i, e.stage), i + 1, e.out, b);
      Flush(q, i + 1, b)
  }

  /** `walk_transactions`: every transaction of the list, in order. */
  function WalkXacts(p: Pipe, i: nat, xs: seq<Xact>, b: Behaviour): (r: Pipe)
    requires i <= |p.stages| && ChainOk(p.stages) && Lawful(b)
    ensures SameShape(p.stages, r.stages) && ChainOk(r.stages)
  {
    DeliverAll(p, i, xs, b)
  }

  /** `walk_entries`: the transactions of every entry, entry after entry. */
  function WalkEntries(p: Pipe, i: nat, es: seq<Entry>, b: Behaviour): (r: Pipe)
    requires i <= |p.stages| && ChainOk(p.stages) && Lawful(b)
    ensures SameShape(p.stages, r.stages) && ChainOk(r.stages)
    decreases |es|
  {
    if |es| == 0 then p
    else WalkEntries(WalkXacts(p, i, es[0].xacts, b), i, es[1..], b)
  }

  /** The postings of the entries in entry order, then posting order. */
  function Postings(es: seq<Entry>): seq<Xact>
  {
    if |es| == 0 then [] else es[0].xacts + Postings(es[1..])
  }

  /**
   * The stages `interval_transactions` puts in front of `downstream`: given a
   * sort order it owns a sort stage and makes that its handler.
   */
  function WithInterval(downstream: seq<Stage>, sortOrder: Option<SortKey>): (r: seq<Stage>)
    ensures |r| == |downstream| + (if sortOrder.Some? then 2 else 1)
    ensures r[0] == Interval(None, map[])
    ensures sortOrder.None? ==> r[1..] == downstream
    ensures sortOrder.Some? ==> r[1] == Sort([], sortOrder.value) && r[2..] == downstream
    ensures ChainOk(downstream) ==> ChainOk(r)
  {
    var own := [Interval(None, map[])];
    if sortOrder.Some? then own + [Sort([], sortOrder.value)] + downstream else own + downstream
  }
}

=== FILE: price_history.dfy ===
/**
 * `commodity_t::base_t::history_t`: the prices of one commodity expressed in
 * one other commodity, keyed by date. The source keeps them in a `std::map`;
 * here they are a sequence in strictly ascending date order, so that
 * `lower_bound`, `rbegin` and stepping an iterator back read exactly as in the
 * source.
 */
module PriceHistory {
  import opened Wrappers
  import opened Amounts

  datatype History = History(prices: seq<PricePoint>)

  /** Strictly ascending dates: the ordering (and key uniqueness) of a `std::map`. */
  predicate Ordered(ps: seq<PricePoint>)
  {
    forall i, j :: 0 <= i < j < |ps| ==> ps[i].when < ps[j].when
  }

  predicate Valid(h: History)
  {
    Ordered(h.prices)
  }

  /** The history that holds no price at all. */
  function Empty(): (h: History)
    ensures Valid(h) && |h.prices| == 0
  {
    History([])
  }

  /** `d` is a key of the history. */
  predicate HasDate(h: History, d: Date)
  {
    exists pt :: pt in h.prices && pt.when == d
  }

  /** Two entries of an ordered history with the same date are the same entry. */
  lemma DatesAreKeys(ps: seq<PricePoint>, a: PricePoint, b: PricePoint)
    requires Ordered(ps)
    requires a in ps && b in ps && a.when == b.when
    ensures a == b
  {
    var i :| 0 <= i < |ps| && ps[i] == a;
    var j :| 0 <= j < |ps| && ps[j] == b;
    if i < j {
      assert ps[i].when < ps[j].when;
    } else if j < i {
      assert ps[j].when < ps[i].when;
    }
  }

  /** `std::map::lower_bound`: the index of the first entry not dated before `moment`. */
  function LowerBound(ps: seq<PricePoint>, moment: Date): (i: nat)
    requires Ordered(ps)
    ensures i <= |ps|
    ensures forall k :: 0 <= k < i ==> ps[k].when < moment
    ensures forall k :: i <= k < |ps| ==> ps[k].when >= moment
  {
    if |ps| == 0 || ps[0].when >= moment then 0
    else 1 + LowerBound(ps[1..], moment)
  }

  /** Overwrites the entry at index `i`, which carries the same date as `pt`. */
  function ReplaceAt(ps: seq<PricePoint>, i: nat, pt: PricePoint): (r: seq<PricePoint>)
    requires Ordered(ps) && i < |ps| && ps[i].when == pt.when
    ensures Ordered(r) && |r| == |ps|
    ensures forall q :: q in r <==> q == pt || (q in ps && q.when != pt.when)
  {
    var r := ps[..i] + [pt] + ps[i + 1..];
    assert forall k :: 0 <= k < |r| ==> r[k] == (if k == i then pt else ps[k]);
    assert forall q :: q in ps && q.when == pt.when ==> q == ps[i] by {
      forall q | q in ps && q.when == pt.when
        ensures q == ps[i]
      {
        DatesAreKeys(ps, q, ps[i]);
      }
    }
    assert forall q :: q in ps ==> q == ps[i] || q in r by {
      forall q | q in ps
        ensures q == ps[i] || q in r
      {
        var k :| 0 <= k < |ps| && ps[k] == q;
        if k != i { assert r[k] == q; }
      }
    }
    r
  }

  /** Inserts `pt` at index `i`, between the entries dated before it and those dated after it. */
  function InsertAt(ps: seq<PricePoint>, i: nat, pt: PricePoint): (r: seq<PricePoint>)
    requires Ordered(ps) && i <= |ps|
    requires forall k :: 0 <= k < i ==> ps[k].when < pt.when
    requires forall k :: i <= k < |ps| ==> ps[k].when > pt.when
    ensures Ordered(r) && |r| == |ps| + 1
    ensures forall q :: q in r <==> q == pt || q in ps
    ensures forall q :: q in ps ==> q.when != pt.when
  {
    var r := ps[..i] + [pt] + ps[i..];
    assert forall k :: 0 <= k < |r| ==> r[k] == (if k < i then ps[k] else if k == i then pt else ps[k - 1]);
    assert ps == ps[..i] + ps[i..];
    assert forall q :: q in ps ==> q.when != pt.when by {
      forall q | q in ps
        ensures q.when != pt.when
      {
        var k :| 0 <= k < |ps| && ps[k] == q;
      }
    }
    r
  }

  /**
   * The map update at the heart of `history_t::add_price`: afterwards `date`
   * maps to `price`, an earlier entry for that date is overwritten, and every
   * other entry is kept.
   */
  function Insert(h: History, date: Date, price: Amount): (r: History)
    requires Valid(h)
    ensures Valid(r)
    ensures PricePoint(date, price) in r.prices
    ensures forall pt :: pt in r.prices <==> pt == PricePoint(date, price) || (pt in h.prices && pt.when != date)
    ensures HasDate(h, date) ==> |r.prices| == |h.prices|
    ensures !HasDate(h, date) ==> |r.prices| == |h.prices| + 1
  {
    var ps := h.prices;
    var i := LowerBound(ps, date);
    if i < |ps| && ps[i].when == date then
      History(ReplaceAt(ps, i, PricePoint(date, price)))
    else
      History(InsertAt(ps, i, PricePoint(date, price)))
  }

  /**
   * What `history_t::add_price` asks of the rest of the pool once the map is
   * updated. The commodity-level `add_price` it calls is not part of this
   * model, so the request is returned instead of performed.
   */
  datatype AddEffect =
    | MarkPrimary(source: CommodityId)
      // source.add_flags(COMMODITY_PRIMARY)
    | AddInverse(target: CommodityId, date: Date, inverse: Amount)
      // price.commodity().add_price(date, inverse, false)

  /** `history_t::add_price(source, date, price, reflexive)`. */
  function AddPrice(h: History, source: CommodityId, date: Date, price: Amount, reflexive: bool): (r: (History, AddEffect))
    requires Valid(h)
    ensures Valid(r.0)
    ensures forall pt :: pt in r.0.prices <==> pt == PricePoint(date, price) || (pt in h.prices && pt.when != date)
    ensures !reflexive <==> r.1 == MarkPrimary(source)
    ensures reflexive ==> r.1.AddInverse? && r.1.target == price.comm && r.1.date == date
                          && r.1.inverse.comm == source
                          && (price.qty.num != 0 ==> r.1.inverse.qty.num * price.qty.num == r.1.inverse.qty.den * price.qty.den)
  {
    var h' := Insert(h, date, price);
    if reflexive then (h', AddInverse(price.comm, date, Amount(Invert(price.qty), source)))
    else (h', MarkPrimary(source))
  }

  /** Removal of a key from an ordered sequence. */
  function Erase(ps: seq<PricePoint>, date: Date): (r: seq<PricePoint>)
    requires Ordered(ps)
    ensures Ordered(r)
    ensures forall pt :: pt in r <==> pt in ps && pt.when != date
    ensures |r| <= |ps|
  {
    if |ps| == 0 then []
    else
      var rest := Erase(ps[1..], date);
      if ps[0].when == date then rest
      else
        assert forall pt :: pt in rest ==> pt in ps[1..];
        [ps[0]] + rest
  }

  /** Erasing shortens the sequence exactly when the date was a key. */
  lemma {:induction false} EraseShrinks(ps: seq<PricePoint>, date: Date)
    requires Ordered(ps)
    ensures |Erase(ps, date)| < |ps| <==> exists pt :: pt in ps && pt.when == date
  {
    if |ps| > 0 {
      EraseShrinks(ps[1..], date);
      if ps[0].when != date {
        assert (exists pt :: pt in ps && pt.when == date) <==> (exists pt :: pt in ps[1..] && pt.when == date) by {
          forall pt | pt in ps && pt.when == date ensures pt in ps[1..] {
            var k :| 0 <= k < |ps| && ps[k] == pt;
            assert k != 0;
            assert ps[1..][k - 1] == pt;
          }
        }
      } else {
        assert ps[0] in ps;
      }
    }
  }

  /**
   * `history_t::remove_price(date)`: true exactly when `date` was a key;
   * afterwards it is not, and every other entry is kept.
   */
  function RemovePrice(h: History, date: Date): (r: (History, bool))
    requires Valid(h)
    ensures Valid(r.0)
    ensures r.1 <==> HasDate(h, date)
    ensures !HasDate(r.0, date)
    ensures forall pt :: pt in r.0.prices <==> pt in h.prices && pt.when != date
  {
    var ps := Erase(h.prices, date);
    EraseShrinks(h.prices, date);
    (History(ps), |ps| < |h.prices|)
  }

  /** `pt` is not dated after `moment` (every entry qualifies when there is no moment). */
  predicate NotAfter(pt: PricePoint, moment: Option<Date>)
  {
    moment.None? || pt.when <= moment.value
  }

  /** `pt` is not dated before `oldest`. */
  predicate NotBefore(pt: PricePoint, oldest: Option<Date>)
  {
    oldest.None? || pt.when >= oldest.value
  }

  /**
   * The iterator walk of `history_t::find_price`: without a moment the last
   * entry; otherwise the entry at `lower_bound(moment)` when it is dated at
   * the moment, the one before it when it is dated after, the last entry when
   * there is none, and nothing found when the first entry is already later.
   */
  function Search(ps: seq<PricePoint>, moment: Option<Date>): (r: (bool, PricePoint))
    requires Ordered(ps) && |ps| > 0
    ensures r.1 in ps
    ensures r.0 ==> NotAfter(r.1, moment)
    ensures !r.0 ==> moment.Some? && moment.value < ps[0].when
  {
    var last := ps[|ps| - 1];
    if moment.None? then (true, last)
    else
      var i := LowerBound(ps, moment.value);
      if i == |ps| then (true, last)
      else if moment.value < ps[i].when then
        if i != 0 then (true, ps[i - 1]) else (false, ps[i])
      else (true, ps[i])
  }

  /** The last entry of an ordered sequence is its latest. */
  lemma LastIsLatest(ps: seq<PricePoint>)
    requires Ordered(ps) && |ps| > 0
    ensures forall pt :: pt in ps ==> pt.when <= ps[|ps| - 1].when
  {
    forall pt | pt in ps
      ensures pt.when <= ps[|ps| - 1].when
    {
      var k :| 0 <= k < |ps| && ps[k] == pt;
    }
  }

  /** A found entry is an entry, and no entry not after the moment is later. */
  lemma SearchFindsLatest(ps: seq<PricePoint>, moment: Option<Date>)
    requires Ordered(ps) && |ps| > 0 && Search(ps, moment).0
    ensures Search(ps, moment).1 in ps
    ensures forall pt :: pt in ps && NotAfter(pt, moment) ==> pt.when <= Search(ps, moment).1.when
  {
    var found := Search(ps, moment).1;
    if moment.None? {
      LastIsLatest(ps);
    } else {
      var i := LowerBound(ps, moment.value);
      if i == |ps| {
        LastIsLatest(ps);
      } else {
        forall pt | pt in ps && NotAfter(pt, moment)
          ensures pt.when <= found.when
        {
          var k :| 0 <= k < |ps| && ps[k] == pt;
          if moment.value < ps[i].when {
            assert k < i;
            if k < i - 1 {
              assert ps[k].when < ps[i - 1].when;
            }
          }
        }
      }
    }
  }

  /** Nothing is found only when every entry is after the moment. */
  lemma SearchMissesAll(ps: seq<PricePoint>, moment: Option<Date>)
    requires Ordered(ps) && |ps| > 0 && !Search(ps, moment).0
    ensures forall pt :: pt in ps ==> !NotAfter(pt, moment)
  {
    forall pt | pt in ps
      ensures !NotAfter(pt, moment)
    {
      var k :| 0 <= k < |ps| && ps[k] == pt;
    }
  }

  /**
   * `history_t::find_price(moment, oldest)`: the entry with the greatest date
   * not after `moment` (the latest entry when there is no moment), provided it
   * is not older than `oldest`.
   */
  function FindPrice(h: History, moment: Option<Date>, oldest: Option<Date>): (r: Option<PricePoint>)
    requires Valid(h)
    ensures |h.prices| == 0 ==> r.None?
    ensures r.Some? ==> r.value in h.prices && NotAfter(r.value, moment) && NotBefore(r.value, oldest)
    ensures r.Some? ==> forall pt :: pt in h.prices && NotAfter(pt, moment) ==> pt.when <= r.value.when
    ensures r.None? ==> forall pt :: pt in h.prices && NotAfter(pt, moment) ==> !NotBefore(pt, oldest)
  {
    var ps := h.prices;
    if |ps| == 0 then None
    else
      var (found, point) := Search(ps, moment);
      if !found then
        SearchMissesAll(ps, moment);
        None
      else
        SearchFindsLatest(ps, moment);
        if moment.Some? && point.when > moment.value then None
        else if oldest.Some? && point.when < oldest.value then None
        else Some(point)
  }

  /** The newest entry not after `moment`, with no lower bound. */
  function Latest(h: History, moment: Option<Date>): Option<PricePoint>
    requires Valid(h)
  {
    FindPrice(h, moment, None)
  }

  /**
   * The `oldest` bound only filters: `find_price(moment, oldest)` is the
   * newest entry not after `moment` when that entry is not older than
   * `oldest`, and none otherwise.
   */
  lemma FindPriceFiltersLatest(h: History, moment: Option<Date>, oldest: Option<Date>)
    requires Valid(h)
    ensures FindPrice(h, moment, oldest) ==
            (var l := Latest(h, moment); if l.Some? && NotBefore(l.value, oldest) then l else None)
  {
    var r := FindPrice(h, moment, oldest);
    var l := Latest(h, moment);
    if r.Some? {
      assert l.Some?;
      assert r.value.when <= l.value.when && l.value.when <= r.value.when;
      DatesAreKeys(h.prices, r.value, l.value);
    } else if l.Some? {
      assert !NotBefore(l.value, oldest);
    }
  }
}

=== FILE: repitem.dfy ===
/**
 * `repitem.h`: the report-item tree node, the scope that exposes one bound
 * node to value expressions, the reference scope that binds and unbinds it,
 * and the item predicate. Pointers are node or object identities.
 */
module RepItem {
  import opened Wrappers

  type NodeId = nat

  /** `repitem_t::kind_t`. */
  datatype Kind = XactKind | EntryKind | AccountKind | ReportKind

  /** The anonymous union, tagged: exactly one of the four pointers is meaningful. */
  datatype Payload = XactItem(xact: nat) | EntryItem(entry: nat) | AccountItem(account: nat) | ReportItem(report: nat)

  /** The kind that selects a payload's member of the union. */
  function KindOf(p: Payload): (k: Kind)
    ensures k == XactKind <==> p.XactItem?
    ensures k == EntryKind <==> p.EntryItem?
    ensures k == AccountKind <==> p.AccountItem?
    ensures k == ReportKind <==> p.ReportItem?
  {
    match p
    case XactItem(_) => XactKind
    case EntryItem(_) => EntryKind
    case AccountItem(_) => AccountKind
    case ReportItem(_) => ReportKind
  }

  /**
   * A `repitem_t`: its links to parent and siblings, the heads and tails of
   * its contents and children lists, and the reporting fields.
   */
  datatype Node = Node(
    parent: Option<NodeId>, next: Option<NodeId>, prev: Option<NodeId>,
    kind: Kind, payload: Payload,
    isTemp: bool,
    contents: Option<NodeId>, lastContent: Option<NodeId>,
    children: Option<NodeId>, lastChild: Option<NodeId>,
    flags: bv16, parentsElided: nat, reportedAccount: Option<nat>)

  /** The kind tag agrees with the payload. */
  predicate WellTagged(n: Node)
  {
    n.kind == KindOf(n.payload)
  }

  /**
   * `repitem_t()` followed by the caller's choice of payload (the constructor
   * itself leaves the union and the kind unset): no links, empty contents and
   * children, not temporary, no flags, nothing elided, no reported account.
   */
  function NewNode(payload: Payload): (n: Node)
    ensures WellTagged(n) && n.payload == payload
    ensures n.parent.None? && n.next.None? && n.prev.None?
    ensures n.contents.None? && n.lastContent.None? && n.children.None? && n.lastChild.None?
    ensures !n.isTemp && n.flags == 0 && n.parentsElided == 0 && n.reportedAccount.None?
  {
    Node(None, None, None, KindOf(payload), payload, false, None, None, None, None, 0, 0, None)
  }

  /** A `value_t` result slot; an integer stands in for the value. */
  type Value = int

  /**
   * `set_value(result)`: calls `add_value(result)`, which adds the node's
   * own value (computed outside this header, here `valueOf`) to the result.
   */
  function SetValue(n: Node, result: Value, valueOf: Node -> Value): (r: Value)
    ensures r - result == valueOf(n)
  {
    result + valueOf(n)
  }

  /** `set_date(result)`: overwrites the result with the node's date (`dateOf`). */
  function SetDate(n: Node, result: Value, dateOf: Node -> Value): (r: Value)
    ensures r == dateOf(n)
  {
    dateOf(n)
  }

  /** Setting the value twice adds the node's value twice: it accumulates. */
  lemma SetValueAccumulates(n: Node, result: Value, valueOf: Node -> Value)
    ensures SetValue(n, SetValue(n, result, valueOf), valueOf) == result + 2 * valueOf(n)
    ensures valueOf(n) != 0 ==> SetValue(n, SetValue(n, result, valueOf), valueOf) != SetValue(n, result, valueOf)
  {
  }

  /** Setting the date ignores what the slot held, so doing it twice changes nothing. */
  lemma SetDateOverwrites(n: Node, a: Value, b: Value, dateOf: Node -> Value)
    ensures SetDate(n, a, dateOf) == SetDate(n, b, dateOf)
    ensures SetDate(n, SetDate(n, a, dateOf), dateOf) == SetDate(n, a, dateOf)
  {
  }

  /** The members a reference callback can invoke on the bound node. */
  datatype Member = SetValueMember | SetDateMember

  /** A definition in a scope: a callback into the bound node, or another functor. */
  datatype Def = Callback(member: Member) | Other(id: nat)

  /**
   * A `scope_t`: its own definitions and its parent. `scope_t::lookup` is not
   * part of this model; it is taken to search the scope and then its parents.
   */
  datatype Scope = Scope(symbols: map<string, Def>, parent: Option<Scope>)

  function Lookup(s: Scope, name: string): (r: Option<Def>)
    ensures name in s.symbols ==> r == Some(s.symbols[name])
    ensures name !in s.symbols && s.parent.None? ==> r.None?
    decreases s
  {
    if name in s.symbols then Some(s.symbols[name])
    else if s.parent.Some? then Lookup(s.parent.value, name)
    else None
  }

  /** A `repitem_scope_t`: a scope plus the node currently bound to it, if any. */
  datatype RepitemScope = RepitemScope(scope: Scope, bound: Option<Node>)

  const VALUE_NAME: string := "value-0"
  const DATE_NAME: string := "date-0"

  /** `repitem_scope_t(parent)`: nothing bound, and the two callbacks defined. */
  function NewRepitemScope(parent: Option<Scope>): (r: RepitemScope)
    ensures r.bound.None?
    ensures Lookup(r.scope, VALUE_NAME) == Some(Callback(SetValueMember))
    ensures Lookup(r.scope, DATE_NAME) == Some(Callback(SetDateMember))
  {
    RepitemScope(Scope(map[VALUE_NAME := Callback(SetValueMember), DATE_NAME := Callback(SetDateMember)], parent), None)
  }

  /** The assertions of the reference scope and the callback, as errors. */
  datatype ScopeError = AlreadyBound | NotBound | DefineRejected

  /**
   * `repitem_ref_callback_t::operator()`: invokes the member on the bound node;
   * the source asserts that a node is bound.
   */
  function Invoke(s: RepitemScope, m: Member, result: Value, valueOf: Node -> Value, dateOf: Node -> Value)
    : (r: Result<Value, ScopeError>)
    ensures s.bound.None? <==> r == Failure(NotBound)
    ensures s.bound.Some? && m == SetValueMember ==> r == Success(result + valueOf(s.bound.value))
    ensures s.bound.Some? && m == SetDateMember ==> r == Success(dateOf(s.bound.value))
  {
    if s.bound.None? then Failure(NotBound)
    else if m == SetValueMember then Success(SetValue(s.bound.value, result, valueOf))
    else Success(SetDate(s.bound.value, result, dateOf))
  }

  /** A `repitem_ref_scope_t`: its own (empty) scope over the given parent, and the base scope it binds. */
  datatype RefScope = RefScope(own: Scope, base: RepitemScope)

  /**
   * `repitem_ref_scope_t(repitem, base, parent)`: the base must be unbound,
   * and is bound to the node.
   */
  function OpenRef(n: Node, base: RepitemScope, parent: Option<Scope>): (r: Result<RefScope, ScopeError>)
    ensures base.bound.Some? <==> r.Failure?
    ensures r.Failure? ==> r.error == AlreadyBound
    ensures r.Success? ==> r.value.base == base.(bound := Some(n)) && r.value.own == Scope(map[], parent)
  {
    if base.bound.Some? then Failure(AlreadyBound)
    else Success(RefScope(Scope(map[], parent), base.(bound := Some(n))))
  }

  /** `~repitem_ref_scope_t()`: the base must be bound, and is unbound. */
  function CloseRef(base: RepitemScope): (r: Result<RepitemScope, ScopeError>)
    ensures base.bound.None? <==> r.Failure?
    ensures r.Failure? ==> r.error == NotBound
    ensures r.Success? ==> r.value == base.(bound := None)
  {
    if base.bound.None? then Failure(NotBound) else Success(base.(bound := None))
  }

  /** `repitem_ref_scope_t::define`: always rejected. */
  function RefDefine(rs: RefScope, name: string, d: Def): (r: Result<RefScope, ScopeError>)
    ensures r == Failure(DefineRejected)
  {
    Failure(DefineRejected)
  }

  /** No definition is ever accepted by a reference scope, whatever it is asked to define. */
  lemma DefineAlwaysRejected(rs: RefScope)
    ensures forall name, d :: RefDefine(rs, name, d).Failure? && RefDefine(rs, name, d).error == DefineRejected
  {
  }

  /** `repitem_ref_scope_t::lookup`: the base scope answers. */
  function RefLookup(rs: RefScope, name: string): (r: Option<Def>)
    ensures name in rs.base.scope.symbols ==> r == Some(rs.base.scope.symbols[name])
    ensures name !in rs.base.scope.symbols && rs.base.scope.parent.None? ==> r.None?
    ensures name !in rs.base.scope.symbols && rs.base.scope.parent.Some? ==>
              r == Lookup(rs.base.scope.parent.value, name)
  {
    Lookup(rs.base.scope, name)
  }

  /**
   * A reference scope's own scope, its definitions and its parent alike, never
   * takes part in a lookup, and neither does which node the base has bound.
   */
  lemma RefLookupIgnoresOwn(rs: RefScope, own': Scope, bound': Option<Node>, name: string)
    ensures RefLookup(rs, name) == RefLookup(RefScope(own', rs.base.(bound := bound')), name)
  {
  }

  /** Opening and then closing a reference scope leaves the base scope as it was. */
  lemma OpenCloseRestores(n: Node, base: RepitemScope, parent: Option<Scope>)
    requires base.bound.None?
    ensures OpenRef(n, base, parent).Success?
    ensures CloseRef(OpenRef(n, base, parent).value.base) == Success(base)
  {
  }

  /**
   * The lookup of a reference scope ignores the reference scope's own parent:
   * while bound, it finds the two callbacks of the base scope.
   */
  lemma RefLookupFindsCallbacks(n: Node, parent: Option<Scope>, other: Option<Scope>)
    ensures var base := NewRepitemScope(parent);
            var r := OpenRef(n, base, other);
            r.Success?
            && RefLookup(r.value, VALUE_NAME) == Some(Callback(SetValueMember))
            && RefLookup(r.value, DATE_NAME) == Some(Callback(SetDateMember))
  {
  }

  /** A reference scope's lifetime events on one base scope. */
  datatype Event = Open(n: Node) | Close

  /** Performs the events in order, stopping at the first failed assertion. */
  function Run(base: RepitemScope, events: seq<Event>): (r: Result<RepitemScope, ScopeError>)
    decreases |events|
  {
    if |events| == 0 then Success(base)
    else
      var step := match events[0]
        case Open(n) => (match OpenRef(n, base, None) case Success(rs) => Success(rs.base) case Failure(e) => Failure(e))
        case Close => CloseRef(base);
      if step.Failure? then step else Run(step.value, events[1..])
  }

  /**
   * The events alternate between opening and closing, starting with an open
   * when nothing is bound and with a close otherwise.
   */
  predicate Alternating(events: seq<Event>, bound: bool)
  {
    forall i :: 0 <= i < |events| ==> (events[i].Open? <==> (bound == (i % 2 == 1)))
  }

  /**
   * Bindings cannot nest: a sequence of scope openings and closings runs
   * without a failed assertion exactly when it alternates, and afterwards a
   * node is bound exactly when an odd number of events flipped the state.
   */
  lemma {:induction false} RunSucceedsIffAlternating(base: RepitemScope, events: seq<Event>)
    ensures Run(base, events).Success? <==> Alternating(events, base.bound.Some?)
    ensures Run(base, events).Success? ==>
              (Run(base, events).value.bound.Some? <==> (base.bound.Some? != (|events| % 2 == 1)))
    ensures Run(base, events).Success? ==> Run(base, events).value.scope == base.scope
    decreases |events|
  {
    if |events| > 0 {
      var e := events[0];
      var rest := events[1..];
      var b := base.bound.Some?;
      if e.Open? == !b {
        var next := if e.Open? then base.(bound := Some(e.n)) else base.(bound := None);
        assert Run(base, events) == Run(next, rest);
        RunSucceedsIffAlternating(next, rest);
        assert next.bound.Some? == !b;
        forall i | 0 <= i < |rest| ensures (rest[i].Open? <==> (!b == (i % 2 == 1))) == (events[i + 1].Open? <==> (b == ((i + 1) % 2 == 1))) {
          assert rest[i] == events[i + 1];
        }
      } else {
        assert Run(base, events).Failure?;
        assert !(events[0].Open? <==> (b == (0 % 2 == 1)));
      }
    }
  }

  /** A value-expression stand-in for the predicate text. */
  type Expr = nat

  /** `repitem_predicate`: the parsed expression, absent when the text was empty. */
  datatype RepitemPredicate = RepitemPredicate(expr: Option<Expr>)

  /** Builds the predicate, parsing only non-empty text. */
  function MakePredicate(text: string, parse: string -> Expr): (p: RepitemPredicate)
    ensures p.expr.None? <==> |text| == 0
    ensures |text| > 0 ==> p.expr == Some(parse(text))
  {
    if |text| == 0 then RepitemPredicate(None) else RepitemPredicate(Some(parse(text)))
  }

  /**
   * `operator()(item)`: true without an expression, otherwise the truth of the
   * expression, which is evaluated without the item (`calc(NULL)`).
   */
  function Accepts(p: RepitemPredicate, item: Node, eval: Expr -> bool): (r: bool)
    ensures p.expr.None? ==> r
    ensures p.expr.Some? ==> r == eval(p.expr.value)
  {
    p.expr.None? || eval(p.expr.value)
  }

  /** A predicate built from empty text accepts every item, whatever the evaluator. */
  lemma EmptyPredicateAcceptsAll(parse: string -> Expr, eval: Expr -> bool)
    ensures forall item :: Accepts(MakePredicate("", parse), item, eval)
  {
  }

  /** The verdict never depends on the item: two items are always treated alike. */
  lemma VerdictIgnoresItem(text: string, parse: string -> Expr, eval: Expr -> bool, a: Node, b: Node)
    ensures Accepts(MakePredicate(text, parse), a, eval) == Accepts(MakePredicate(text, parse), b, eval)
  {
  }
}

=== FILE: symbol_parser.dfy ===
/**
 * The two `commodity_t::parse_symbol` overloads: one reads a symbol from an
 * input stream, the other from a `char *` cursor into a NUL-terminated line.
 *
 * The stream is its whole contents plus a read position; reading at the end
 * is end-of-file. `peek_next_nonws` and `READ_INTO`, which the stream parser
 * calls, are defined outside `src/commodity.cc`; they are modelled here as
 * ledger defines them (skip `isspace` bytes; copy bytes up to a stop byte,
 * taking the byte after a backslash literally).
 */
module SymbolParser {
  import opened Wrappers
  import opened Symbols

  /** The exceptions `parse_symbol` throws (`amount_error`). */
  datatype SymbolError =
    | MissingClosingQuote   // "Quoted commodity symbol lacks closing quote"
    | NoSymbol              // "Failed to parse commodity"

  /** The symbol read and the position the input is left at. */
  datatype Parsed = Parsed(symbol: Bytes, pos: nat)

  /** The longest symbol the 256-byte buffer holds. */
  const MAX_SYMBOL: nat := 255

  /** `peek_next_nonws`: the position of the first byte from `pos` on that is not a space. */
  function SkipSpace(data: Bytes, pos: nat): (p: nat)
    requires pos <= |data|
    ensures pos <= p <= |data|
    ensures forall k :: pos <= k < p ==> IsSpace(data[k])
    ensures p < |data| ==> !IsSpace(data[p])
    decreases |data| - pos
  {
    if pos < |data| && IsSpace(data[pos]) then SkipSpace(data, pos + 1) else pos
  }

  /**
   * The byte count of the UTF-8 sequence a byte introduces, when it still
   * fits the buffer after `size` bytes; 0 otherwise (the byte is then
   * treated as a single byte).
   */
  function Utf8Length(d: Byte, size: nat): (n: nat)
    ensures n == 0 || 2 <= n <= 6
    ensures n > 0 ==> size + n <= MAX_SYMBOL && d as int >= 192
  {
    var v := d as int;
    if 192 <= v <= 223 && size < 254 then 2
    else if 224 <= v <= 239 && size < 253 then 3
    else if 240 <= v <= 247 && size < 252 then 4
    else if 248 <= v <= 251 && size < 251 then 5
    else if 252 <= v <= 253 && size < 250 then 6
    else 0
  }

  /**
   * The unquoted loop of the stream `parse_symbol`, from position `i` with
   * `acc` in the buffer: stops at end of input, at a newline, at a full
   * buffer, at a byte 254 or 255, and at a byte whose table entry is 1 —
   * except that a UTF-8 lead byte copies its whole sequence and a backslash
   * copies the byte after it. Returns the buffer and the stop position.
   */
  function ScanUnquoted(data: Bytes, i: nat, acc: Bytes): (r: (Bytes, nat))
    requires i <= |data| && |acc| <= MAX_SYMBOL
    ensures |r.0| <= MAX_SYMBOL && |acc| <= |r.0|
    ensures i <= r.1 <= |data|
    ensures r.0[..|acc|] == acc
    ensures r.1 == i ==> r.0 == acc
    ensures |r.0| - |acc| <= r.1 - i
    ensures StopsAt(data, r.1, |r.0|)
    decreases |data| - i
  {
    if |acc| >= MAX_SYMBOL || i >= |data| || data[i] == '\n' then (acc, i)
    else
      var d := data[i];
      var bytes := Utf8Length(d, |acc|);
      if bytes == 0 && d as int >= 254 then (acc, i)
      else if bytes > 0 then
        var n := if |data| - i < bytes then |data| - i else bytes;
        var r := ScanUnquoted(data, i + n, acc + data[i..i + n]);
        assert (acc + data[i..i + n])[..|acc|] == acc;
        r
      else if Invalid(d) then (acc, i)
      else if d == '\\' then
        if i + 1 == |data| then (acc, i + 1)
        else
          var r := ScanUnquoted(data, i + 2, acc + [data[i + 1]]);
          assert (acc + [data[i + 1]])[..|acc|] == acc;
          r
      else
        var r := ScanUnquoted(data, i + 1, acc + [d]);
        assert (acc + [d])[..|acc|] == acc;
        r
  }

  /**
   * `READ_INTO(in, buf, 255, c, c != '"')`, from position `i` with `acc` in
   * the buffer. Returns the buffer, the stop position, and whether the loop
   * stopped on a `"` (the closing quote).
   */
  function ScanQuoted(data: Bytes, i: nat, acc: Bytes): (r: (Bytes, nat, bool))
    requires i <= |data| && |acc| <= MAX_SYMBOL
    ensures |r.0| <= MAX_SYMBOL
    ensures i <= r.1 <= |data|
    ensures r.2 ==> r.1 < |data| && data[r.1] == '"'
    decreases |data| - i
  {
    if i >= |data| || data[i] == '\n' then (acc, i, false)
    else if data[i] == '"' then (acc, i, true)
    else if |acc| >= MAX_SYMBOL then (acc, i, false)
    else if data[i] == '\\' then
      if i + 1 == |data| then (acc, i + 1, false)
      else ScanQuoted(data, i + 2, acc + [data[i + 1]])
    else ScanQuoted(data, i + 1, acc + [data[i]])
  }

  /** The first non-space byte at or after `pos` opens a quoted symbol. */
  predicate StartsQuoted(data: Bytes, pos: nat)
    requires pos <= |data|
  {
    var p := SkipSpace(data, pos);
    p < |data| && data[p] == '"'
  }

  /**
   * `commodity_t::parse_symbol(std::istream&, string&)` on a stream holding
   * `data` read up to `pos`. A quoted symbol is read up to its closing quote,
   * which must be there; an unquoted one up to the first stop byte, and a
   * reserved word reads as no symbol. When no symbol was read the stream is
   * put back where it was.
   */
  function ParseSymbol(data: Bytes, pos: nat): (r: Result<Parsed, SymbolError>)
    requires pos <= |data|
    ensures r.Failure? ==> StartsQuoted(data, pos) && r.error == MissingClosingQuote
    ensures r.Success? ==> |r.value.symbol| <= MAX_SYMBOL && '\0' !in r.value.symbol
    ensures r.Success? && |r.value.symbol| == 0 ==> r.value.pos == pos
    ensures r.Success? && |r.value.symbol| > 0 ==> pos < r.value.pos <= |data|
    ensures r.Success? && !StartsQuoted(data, pos) ==> r.value.symbol !in RESERVED
  {
    var p := SkipSpace(data, pos);
    if p < |data| && data[p] == '"' then
      var (buf, q, closed) := ScanQuoted(data, p + 1, []);
      if !closed then Failure(MissingClosingQuote)
      else
        var symbol := CStr(buf);
        Success(Parsed(symbol, if |symbol| == 0 then pos else q + 1))
    else
      var (buf, q) := ScanUnquoted(data, p, []);
      var symbol := if IsReservedToken(buf) then [] else CStr(buf);
      Success(Parsed(symbol, if |symbol| == 0 then pos else q))
  }

  /** A byte an unquoted symbol copies one for one: valid, 7-bit, not an escape and not NUL. */
  predicate Plain(b: Byte)
  {
    !Invalid(b) && b as int < 0x80 && b != '\\' && b != '\0'
  }

  /** A run of plain bytes holds no NUL, so it is its own C string. */
  lemma PlainRunIsCStr(data: Bytes, p: nat, q: nat)
    requires p <= q <= |data|
    requires forall k :: p <= k < q ==> Plain(data[k])
    ensures CStr(data[p..q]) == data[p..q]
  {
    var buf := data[p..q];
    assert forall k :: 0 <= k < |buf| ==> buf[k] == data[p + k];
    CStrOfNulFree(buf);
  }

  /** Where an unquoted scan that has `len` bytes in its buffer stops at position `q`. */
  predicate StopsAt(data: Bytes, q: nat, len: nat)
  {
    q >= |data| || len == MAX_SYMBOL || data[q] == '\n'
    || (Invalid(data[q]) && data[q] as int < 0x80) || data[q] as int >= 254
  }

  /**
   * An unquoted scan over plain bytes copies them unchanged and stops at the
   * first byte whose table entry is 1 (or at end of input, or when the buffer
   * is full).
   */
  lemma {:induction false} ScanPlainRun(data: Bytes, i: nat, q: nat, acc: Bytes)
    requires i <= q <= |data| && |acc| + (q - i) <= MAX_SYMBOL
    requires forall k :: i <= k < q ==> Plain(data[k])
    requires StopsAt(data, q, |acc| + (q - i))
    ensures ScanUnquoted(data, i, acc) == (acc + data[i..q], q)
    decreases q - i
  {
    if i == q {
      ScanStopsHere(data, q, acc);
      assert acc + data[i..q] == acc;
    } else {
      ScanPlainStep(data, i, acc);
      ScanPlainRun(data, i + 1, q, acc + [data[i]]);
      AppendSlice(data, i, q, acc);
    }
  }

  /** Moving one byte from the front of a slice to the end of the buffer keeps their concatenation. */
  lemma AppendSlice(data: Bytes, i: nat, q: nat, acc: Bytes)
    requires i < q <= |data|
    ensures acc + [data[i]] + data[i + 1..q] == acc + data[i..q]
  {
    assert data[i..q] == [data[i]] + data[i + 1..q];
  }

  /** A plain byte is copied and the scan moves on by one. */
  lemma ScanPlainStep(data: Bytes, i: nat, acc: Bytes)
    requires i < |data| && |acc| < MAX_SYMBOL && Plain(data[i])
    ensures ScanUnquoted(data, i, acc) == ScanUnquoted(data, i + 1, acc + [data[i]])
  {
    TableEntries();
    assert data[i] != '\n';
    assert Utf8Length(data[i], |acc|) == 0;
  }

  /** The unquoted scan stops wherever `StopsAt` holds, keeping its buffer. */
  lemma ScanStopsHere(data: Bytes, q: nat, acc: Bytes)
    requires q <= |data| && |acc| <= MAX_SYMBOL && StopsAt(data, q, |acc|)
    ensures ScanUnquoted(data, q, acc) == (acc, q)
  {
  }

  /**
   * A UTF-8 lead byte that still fits the buffer copies its whole sequence,
   * or what remains of the input, unchanged, whatever those bytes are: a
   * newline, space or `@` inside the sequence does not stop the scan.
   */
  lemma Utf8Step(data: Bytes, i: nat, acc: Bytes)
    requires i < |data| && |acc| <= MAX_SYMBOL && Utf8Length(data[i], |acc|) > 0
    ensures var n := Utf8Length(data[i], |acc|);
            var m := if |data| - i < n then |data| - i else n;
            ScanUnquoted(data, i, acc) == ScanUnquoted(data, i + m, acc + data[i..i + m])
            && ScanUnquoted(data, i, acc).0[|acc|..|acc| + m] == data[i..i + m]
  {
    var n := Utf8Length(data[i], |acc|);
    var m := if |data| - i < n then |data| - i else n;
    var acc' := acc + data[i..i + m];
    assert |acc| < MAX_SYMBOL && data[i] != '\n';
    assert ScanUnquoted(data, i, acc) == ScanUnquoted(data, i + m, acc');
    assert ScanUnquoted(data, i + m, acc').0[..|acc'|] == acc';
  }

  /**
   * A backslash copies the byte after it, whatever that byte is, and the
   * scan moves on past both; a backslash that ends the input ends the scan.
   */
  lemma EscapeStep(data: Bytes, i: nat, acc: Bytes)
    requires i < |data| && |acc| < MAX_SYMBOL && data[i] == '\\'
    ensures i + 1 == |data| ==> ScanUnquoted(data, i, acc) == (acc, |data|)
    ensures i + 1 < |data| ==>
              ScanUnquoted(data, i, acc) == ScanUnquoted(data, i + 2, acc + [data[i + 1]])
              && ScanUnquoted(data, i, acc).0[|acc|] == data[i + 1]
  {
    TableEntries();
    if i + 1 < |data| {
      var acc' := acc + [data[i + 1]];
      assert ScanUnquoted(data, i + 2, acc').0[..|acc'|] == acc';
    }
  }

  /** A two-byte sequence whose second byte is a newline is copied whole. */
  lemma Utf8CopiesNewline()
    ensures ScanUnquoted(['\U{C3}', '\n'], 0, []) == (['\U{C3}', '\n'], 2)
  {
    var data: Bytes := ['\U{C3}', '\n'];
    assert Utf8Length(data[0], 0) == 2;
    assert data[0..2] == data;
    assert [] + data == data;
  }

  /** An escaped space is part of the symbol: `A\ z` scans as `A z`. */
  lemma EscapedSpaceIsCopied()
    ensures ScanUnquoted(['A', '\\', ' ', 'z'], 0, []) == (['A', ' ', 'z'], 4)
  {
    var data: Bytes := ['A', '\\', ' ', 'z'];
    TableEntries();
    assert Plain(data[0]) && Plain(data[3]);
    ScanPlainStep(data, 0, []);
    assert [] + [data[0]] == ['A'];
    EscapeStep(data, 1, ['A']);
    assert ['A'] + [data[2]] == ['A', ' '];
    ScanPlainStep(data, 3, ['A', ' ']);
    assert ['A', ' '] + [data[3]] == ['A', ' ', 'z'];
    ScanStopsHere(data, 4, ['A', ' ', 'z']);
  }

  /**
   * A symbol of plain bytes, preceded by spaces, that is not a reserved word
   * is read as exactly those bytes, and the stream is left at the stop byte.
   */
  lemma ParsePlainSymbol(data: Bytes, pos: nat, q: nat)
    requires pos <= |data|
    requires SkipSpace(data, pos) < q <= |data| && data[SkipSpace(data, pos)] != '"'
    requires q - SkipSpace(data, pos) <= MAX_SYMBOL
    requires forall k :: SkipSpace(data, pos) <= k < q ==> Plain(data[k])
    requires StopsAt(data, q, q - SkipSpace(data, pos))
    requires data[SkipSpace(data, pos)..q] !in RESERVED
    ensures ParseSymbol(data, pos) == Success(Parsed(data[SkipSpace(data, pos)..q], q))
  {
    var p := SkipSpace(data, pos);
    ScanPlainRun(data, p, q, []);
    var buf := data[p..q];
    assert [] + buf == buf;
    PlainRunIsCStr(data, p, q);
  }

  /** An unquoted reserved word reads as no symbol and leaves the stream where it was. */
  lemma ReservedWordIsNoSymbol(data: Bytes, pos: nat, q: nat)
    requires pos <= |data|
    requires SkipSpace(data, pos) < q <= |data| && data[SkipSpace(data, pos)] != '"'
    requires q - SkipSpace(data, pos) <= MAX_SYMBOL
    requires forall k :: SkipSpace(data, pos) <= k < q ==> Plain(data[k])
    requires StopsAt(data, q, q - SkipSpace(data, pos))
    requires data[SkipSpace(data, pos)..q] in RESERVED
    ensures ParseSymbol(data, pos) == Success(Parsed([], pos))
  {
    var p := SkipSpace(data, pos);
    var buf := data[p..q];
    ScanPlainRun(data, p, q, []);
    assert [] + buf == buf;
    PlainRunIsCStr(data, p, q);
  }

  /** Without any `"` after the opening one, a quoted symbol is an error. */
  lemma {:induction false} UnclosedQuoteFails(data: Bytes, pos: nat)
    requires pos <= |data|
    requires StartsQuoted(data, pos)
    requires forall k :: SkipSpace(data, pos) < k < |data| ==> data[k] != '"'
    ensures ParseSymbol(data, pos) == Failure(MissingClosingQuote)
  {
  }

  /**
   * A quoted run of bytes with no quote, newline, backslash or NUL reads as
   * exactly those bytes, and the closing quote is consumed.
   */
  lemma {:induction false} ScanQuotedRun(data: Bytes, i: nat, q: nat, acc: Bytes)
    requires i <= q < |data| && data[q] == '"'
    requires |acc| + (q - i) <= MAX_SYMBOL
    requires forall k :: i <= k < q ==> data[k] != '"' && data[k] != '\n' && data[k] != '\\'
    ensures ScanQuoted(data, i, acc) == (acc + data[i..q], q, true)
    decreases q - i
  {
    if i == q {
      assert acc + data[i..q] == acc;
    } else {
      ScanQuotedRun(data, i + 1, q, acc + [data[i]]);
      assert acc + [data[i]] + data[i + 1..q] == acc + data[i..q];
    }
  }

  /** A quoted symbol is exactly the text between the quotes. */
  lemma ParseQuotedSymbol(data: Bytes, pos: nat, q: nat)
    requires pos <= |data| && StartsQuoted(data, pos)
    requires SkipSpace(data, pos) + 1 < q < |data| && data[q] == '"'
    requires q - SkipSpace(data, pos) - 1 <= MAX_SYMBOL
    requires forall k :: SkipSpace(data, pos) < k < q ==>
               data[k] != '"' && data[k] != '\n' && data[k] != '\\' && data[k] != '\0'
    ensures ParseSymbol(data, pos) == Success(Parsed(data[SkipSpace(data, pos) + 1..q], q + 1))
  {
    var p := SkipSpace(data, pos);
    ScanQuotedRun(data, p + 1, q, []);
    var buf := data[p + 1..q];
    assert [] + buf == buf;
    assert '\0' !in buf by {
      forall k | 0 <= k < |buf| ensures buf[k] != '\0' {
        assert buf[k] == data[p + 1 + k];
      }
    }
    CStrOfNulFree(buf);
  }

  // ---------------------------------------------------------------------
  // parse_symbol(char *& p, string& symbol)
  //
  // The line is a NUL-free byte sequence `s`; position |s| is its NUL
  // terminator.

  /** `strchr(s + from, '"')`: the first `"` at or after `from`. */
  function FindQuote(s: Bytes, from: nat): (r: Option<nat>)
    requires from <= |s|
    ensures r.Some? ==> from <= r.value < |s| && s[r.value] == '"'
                        && forall k :: from <= k < r.value ==> s[k] != '"'
    ensures r.None? ==> forall k :: from <= k < |s| ==> s[k] != '"'
    decreases |s| - from
  {
    if from == |s| then None
    else if s[from] == '"' then Some(from)
    else FindQuote(s, from + 1)
  }

  /** `skip_ws`: steps over spaces, tabs and newlines. */
  function SkipBlanks(s: Bytes, from: nat): (r: nat)
    requires from <= |s|
    ensures from <= r <= |s|
    ensures forall k :: from <= k < r ==> s[k] == ' ' || s[k] == '\t' || s[k] == '\n'
    decreases |s| - from
  {
    if from < |s| && (s[from] == ' ' || s[from] == '\t' || s[from] == '\n') then SkipBlanks(s, from + 1)
    else from
  }

  /** The first space or tab at or after `from`, where `next_element` ends the element. */
  function FindBlank(s: Bytes, from: nat): (r: Option<nat>)
    requires from <= |s|
    ensures r.Some? ==> from <= r.value < |s| && (s[r.value] == ' ' || s[r.value] == '\t')
                        && forall k :: from <= k < r.value ==> s[k] != ' ' && s[k] != '\t'
    ensures r.None? ==> forall k :: from <= k < |s| ==> s[k] != ' ' && s[k] != '\t'
    decreases |s| - from
  {
    if from == |s| then None
    else if s[from] == ' ' || s[from] == '\t' then Some(from)
    else FindBlank(s, from + 1)
  }

  /**
   * The unquoted branch: `next_element(p)` cuts the element at the first
   * space or tab and yields the position after the blanks that follow it;
   * without a blank the element runs to the end of the line.
   */
  function ParseBareAt(s: Bytes, p: nat): (r: Result<Parsed, SymbolError>)
    requires '\0' !in s && p <= |s|
    ensures r.Failure? <==> p == |s| || s[p] == ' ' || s[p] == '\t'
    ensures r.Failure? ==> r.error == NoSymbol
    ensures r.Success? ==>
              p < r.value.pos <= |s| && p + |r.value.symbol| <= |s| && r.value.symbol == s[p..p + |r.value.symbol|]
    ensures r.Success? ==> ' ' !in r.value.symbol && '\t' !in r.value.symbol
  {
    var symbol := match FindBlank(s, p) case Some(t) => s[p..t] case None => s[p..];
    var next := match FindBlank(s, p) case Some(t) => SkipBlanks(s, t + 1) case None => p + |symbol|;
    if |symbol| == 0 then Failure(NoSymbol) else Success(Parsed(symbol, next))
  }

  /**
   * `commodity_t::parse_symbol(char *& p, string&)` exactly as written: a
   * quoted symbol moves the cursor to two bytes past its closing quote.
   */
  function ParseSymbolAtAsWritten(s: Bytes, p: nat): (r: Result<Parsed, SymbolError>)
    requires '\0' !in s && p <= |s|
    ensures r.Success? ==> |r.value.symbol| > 0
    ensures p < |s| && s[p] == '"' && FindQuote(s, p + 1).None? ==> r == Failure(MissingClosingQuote)
    ensures p < |s| && s[p] == '"' && r.Success? ==>
              var q := FindQuote(s, p + 1).value;
              r.value.symbol == s[p + 1..q] && r.value.pos == q + 2
  {
    if p < |s| && s[p] == '"' then
      match FindQuote(s, p + 1)
      case None => Failure(MissingClosingQuote)
      case Some(q) =>
        var symbol := s[p + 1..q];
        if |symbol| == 0 then Failure(NoSymbol) else Success(Parsed(symbol, q + 2))
    else ParseBareAt(s, p)
  }

  /**
   * When the closing quote is the last byte of the line, the cursor as
   * written lands one byte past the NUL terminator.
   */
  lemma CursorPastTerminator()
    ensures var s: Bytes := "\"USD\"";
            var r := ParseSymbolAtAsWritten(s, 0);
            r.Success? && r.value.symbol == "USD" && r.value.pos == |s| + 1
  {
    var s: Bytes := "\"USD\"";
    assert FindQuote(s, 1) == Some(4);
  }

  /**
   * `commodity_t::parse_symbol(char *& p, string&)` with the cursor kept on
   * the line: past the closing quote and the byte after it, but never past
   * the terminator. A missing closing quote and an empty symbol are errors; a
   * quoted symbol is exactly the text between its quotes.
   */
  function ParseSymbolAt(s: Bytes, p: nat): (r: Result<Parsed, SymbolError>)
    requires '\0' !in s && p <= |s|
    ensures r.Success? ==> |r.value.symbol| > 0 && p < r.value.pos <= |s|
    ensures p < |s| && s[p] == '"' ==>
              (r == Failure(MissingClosingQuote) <==> forall k :: p < k < |s| ==> s[k] != '"')
    ensures p < |s| && s[p] == '"' && r.Success? ==>
              p + 1 + |r.value.symbol| < |s| && s[p + 1 + |r.value.symbol|] == '"'
              && r.value.symbol == s[p + 1..p + 1 + |r.value.symbol|] && '"' !in r.value.symbol
    ensures !(p < |s| && s[p] == '"') ==> r == ParseBareAt(s, p)
  {
    if p < |s| && s[p] == '"' then
      match FindQuote(s, p + 1)
      case None => Failure(MissingClosingQuote)
      case Some(q) =>
        var symbol := s[p + 1..q];
        assert forall k :: 0 <= k < |symbol| ==> symbol[k] == s[p + 1 + k];
        if |symbol| == 0 then Failure(NoSymbol)
        else Success(Parsed(symbol, if q + 2 <= |s| then q + 2 else q + 1))
    else ParseBareAt(s, p)
  }

  /** The corrected cursor agrees with the source's wherever the source stays on the line. */
  lemma ParseSymbolAtAgrees(s: Bytes, p: nat)
    requires '\0' !in s && p <= |s|
    requires ParseSymbolAtAsWritten(s, p).Success? ==> ParseSymbolAtAsWritten(s, p).value.pos <= |s|
    ensures ParseSymbolAt(s, p) == ParseSymbolAtAsWritten(s, p)
  {
  }
}

=== FILE: symbols.dfy ===
/**
 * Byte-level classification of commodity symbols: which bytes end an
 * unquoted symbol, which symbols must be written in quotes, and which words
 * the value-expression language reserves.
 */
module Symbols {

  /** One byte of a `char` string, read as `unsigned char`. */
  type Byte = c: char | c as int < 256

  type Bytes = seq<Byte>

  /**
   * The `invalid_chars` table of `commodity_t::parse_symbol`, as sixteen rows
   * of sixteen: entry `b` is 1 when byte `b` ends an unquoted symbol.
   */
  const INVALID_CHARS: seq<seq<int>> := [
    /* 00 */ [0, 0, 0, 0, 0, 0, 0, 0, 0, 1, 1, 0, 0, 1, 0, 0],
    /* 10 */ [0, 0, 0, 0, 0, 0, 0, 0, 0, 0, 0, 0, 0, 0, 0, 0],
    /* 20 */ [1, 1, 0, 0, 0, 0, 1, 0, 1, 1, 1, 1, 1, 1, 1, 1],
    /* 30 */ [1, 1, 1, 1, 1, 1, 1, 1, 1, 1, 1, 1, 1, 1, 1, 1],
    /* 40 */ [1, 0, 0, 0, 0, 0, 0, 0, 0, 0, 0, 0, 0, 0, 0, 0],
    /* 50 */ [0, 0, 0, 0, 0, 0, 0, 0, 0, 0, 0, 1, 0, 1, 1, 0],
    /* 60 */ [0, 0, 0, 0, 0, 0, 0, 0, 0, 0, 0, 0, 0, 0, 0, 0],
    /* 70 */ [0, 0, 0, 0, 0, 0, 0, 0, 0, 0, 0, 1, 1, 1, 1, 1],
    /* 80 */ [0, 0, 0, 0, 0, 0, 0, 0, 0, 0, 0, 0, 0, 0, 0, 0],
    /* 90 */ [0, 0, 0, 0, 0, 0, 0, 0, 0, 0, 0, 0, 0, 0, 0, 0],
    /* a0 */ [0, 0, 0, 0, 0, 0, 0, 0, 0, 0, 0, 0, 0, 0, 0, 0],
    /* b0 */ [0, 0, 0, 0, 0, 0, 0, 0, 0, 0, 0, 0, 0, 0, 0, 0],
    /* c0 */ [0, 0, 0, 0, 0, 0, 0, 0, 0, 0, 0, 0, 0, 0, 0, 0],
    /* d0 */ [0, 0, 0, 0, 0, 0, 0, 0, 0, 0, 0, 0, 0, 0, 0, 0],
    /* e0 */ [0, 0, 0, 0, 0, 0, 0, 0, 0, 0, 0, 0, 0, 0, 0, 0],
    /* f0 */ [0, 0, 0, 0, 0, 0, 0, 0, 0, 0, 0, 0, 0, 0, 0, 0]
  ]

  /** The table entry of `b` is 1. */
  predicate Invalid(b: Byte)
  {
    INVALID_CHARS[b as int / 16][b as int % 16] == 1
  }

  /** Some entries of the table the parser's behaviour turns on. */
  lemma TableEntries()
    ensures Invalid('\n') && Invalid(' ') && Invalid('\t') && Invalid('@') && Invalid('0')
    ensures !Invalid('"') && !Invalid('\\') && !Invalid('$') && !Invalid('A') && !Invalid('z')
  {
  }

  /** `std::isspace` in the "C" locale; bytes above 0x7f are not spaces there. */
  predicate IsSpace(b: Byte)
  {
    b == ' ' || ('\t' <= b <= '\r')
  }

  predicate IsDigit(b: Byte)
  {
    '0' <= b <= '9'
  }

  /** A byte that forces a symbol to be written in quotes. */
  predicate ForcesQuotes(b: Byte)
  {
    IsSpace(b) || IsDigit(b) || b == '-' || b == '.'
  }

  /**
   * `commodity_t::symbol_needs_quotes`: true exactly when some byte of the
   * symbol is whitespace, a digit, `-` or `.`.
   */
  function NeedsQuotes(symbol: Bytes): (r: bool)
    ensures r <==> exists i :: 0 <= i < |symbol| && ForcesQuotes(symbol[i])
  {
    if |symbol| == 0 then false
    else if ForcesQuotes(symbol[0]) then true
    else
      var r := NeedsQuotes(symbol[1..]);
      assert forall i :: 0 < i < |symbol| ==> symbol[i] == symbol[1..][i - 1];
      r
  }

  /** A symbol made only of letters that need no quoting never needs quotes. */
  lemma {:induction false} NoQuotesForLetters(symbol: Bytes)
    requires forall i :: 0 <= i < |symbol| ==> 'A' <= symbol[i] <= 'Z' || 'a' <= symbol[i] <= 'z'
    ensures !NeedsQuotes(symbol)
  {
  }

  /** The words of the value-expression language that cannot be commodity symbols. */
  const RESERVED: set<Bytes> := {"and", "div", "else", "false", "if", "or", "not", "true"}

  /**
   * The C string a `char` buffer holds: its bytes up to the first NUL. This
   * is what both `strcmp` and `std::string(buf)` see.
   */
  function CStr(buf: Bytes): (r: Bytes)
    ensures |r| <= |buf| && r == buf[..|r|]
    ensures '\0' !in r
    ensures |r| < |buf| ==> buf[|r|] == '\0'
  {
    if |buf| == 0 || buf[0] == '\0' then []
    else [buf[0]] + CStr(buf[1..])
  }

  /** A buffer with no NUL byte is its own C string. */
  lemma {:induction false} CStrOfNulFree(buf: Bytes)
    requires '\0' !in buf
    ensures CStr(buf) == buf
  {
    if |buf| > 0 {
      assert buf[0] in buf;
      assert '\0' !in buf[1..] by {
        forall i | 0 <= i < |buf[1..]| ensures buf[1..][i] != '\0' {
          assert buf[1..][i] == buf[i + 1];
        }
      }
      CStrOfNulFree(buf[1..]);
    }
  }

  /**
   * The anonymous-namespace `is_reserved_token(buf)`: a switch on the first
   * byte followed by one `strcmp`. True for exactly the reserved words.
   */
  function IsReservedToken(buf: Bytes): (r: bool)
    ensures r <==> CStr(buf) in RESERVED
  {
    var s := CStr(buf);
    if |s| == 0 then false
    else match s[0]
      case 'a' => s == "and"
      case 'd' => s == "div"
      case 'e' => s == "else"
      case 'f' => s == "false"
      case 'i' => s == "if"
      case 'o' => s == "or"
      case 'n' => s == "not"
      case 't' => s == "true"
      case _ => false
  }
}

=== FILE: varied_history.dfy ===
/**
 * `commodity_t::base_t::varied_history_t`: one price history per commodity a
 * commodity has been priced in. The source keys a `std::map` by commodity
 * address; here the histories form a sequence in strictly ascending commodity
 * order, which is also the order `find_price` visits them in.
 */
module VariedHistory {
  import opened Wrappers
  import opened Amounts
  import PH = PriceHistory

  datatype Keyed = Keyed(comm: CommodityId, hist: PH.History)

  datatype Varied = Varied(histories: seq<Keyed>)

  predicate Sorted(hs: seq<Keyed>)
  {
    forall i, j :: 0 <= i < j < |hs| ==> hs[i].comm < hs[j].comm
  }

  /** Every price in the history kept for `c` is denominated in `c`. */
  predicate DenominatedIn(h: PH.History, c: CommodityId)
  {
    forall pt :: pt in h.prices ==> pt.price.comm == c
  }

  predicate WellFormed(k: Keyed)
  {
    PH.Valid(k.hist) && DenominatedIn(k.hist, k.comm)
  }

  predicate Valid(v: Varied)
  {
    Sorted(v.histories) && forall i :: 0 <= i < |v.histories| ==> WellFormed(v.histories[i])
  }

  function Comms(hs: seq<Keyed>): set<CommodityId>
  {
    set i | 0 <= i < |hs| :: hs[i].comm
  }

  /** `histories.find(c)`. */
  function Lookup(hs: seq<Keyed>, c: CommodityId): (r: Option<PH.History>)
    ensures r.None? <==> c !in Comms(hs)
    ensures r.Some? ==> exists i :: 0 <= i < |hs| && hs[i] == Keyed(c, r.value)
  {
    if |hs| == 0 then None
    else if hs[0].comm == c then Some(hs[0].hist)
    else
      var r := Lookup(hs[1..], c);
      assert Comms(hs) == {hs[0].comm} + Comms(hs[1..]) by {
        forall x | x in Comms(hs) ensures x in {hs[0].comm} + Comms(hs[1..]) {
          var i :| 0 <= i < |hs| && hs[i].comm == x;
          if i > 0 { assert hs[1..][i - 1].comm == x; }
        }
      }
      if r.Some? then
        var i :| 0 <= i < |hs[1..]| && hs[1..][i] == Keyed(c, r.value);
        assert hs[i + 1] == Keyed(c, r.value);
        r
      else r
  }

  /** In a sorted sequence each commodity has one history. */
  lemma LookupFinds(hs: seq<Keyed>, i: nat)
    requires Sorted(hs) && i < |hs|
    ensures Lookup(hs, hs[i].comm) == Some(hs[i].hist)
  {
    var r := Lookup(hs, hs[i].comm);
    var j :| 0 <= j < |hs| && hs[j] == Keyed(hs[i].comm, r.value);
  }

  lemma CommsCons(k: Keyed, hs: seq<Keyed>)
    ensures Comms([k] + hs) == {k.comm} + Comms(hs)
  {
    var r := [k] + hs;
    forall x | x in Comms(r) ensures x in {k.comm} + Comms(hs) {
      var i :| 0 <= i < |r| && r[i].comm == x;
      if i > 0 { assert hs[i - 1].comm == x; }
    }
    forall x | x in {k.comm} + Comms(hs) ensures x in Comms(r) {
      if x == k.comm { assert r[0].comm == x; }
      else {
        var i :| 0 <= i < |hs| && hs[i].comm == x;
        assert r[i + 1].comm == x;
      }
    }
  }

  lemma CommsSplit(hs: seq<Keyed>)
    requires |hs| > 0
    ensures Comms(hs) == {hs[0].comm} + Comms(hs[1..])
  {
    CommsCons(hs[0], hs[1..]);
    assert [hs[0]] + hs[1..] == hs;
  }

  /** A sorted sequence lists every commodity after its head above the head. */
  lemma SortedTail(hs: seq<Keyed>)
    requires Sorted(hs) && |hs| > 0
    ensures forall x :: x in Comms(hs[1..]) ==> hs[0].comm < x
  {
    forall x | x in Comms(hs[1..]) ensures hs[0].comm < x {
      var i :| 0 <= i < |hs[1..]| && hs[1..][i].comm == x;
      assert hs[i + 1].comm == x;
    }
  }

  /** Every history after the head of a sorted sequence is kept for a greater commodity. */
  lemma HeadBelowTail(hs: seq<Keyed>)
    requires Sorted(hs) && |hs| > 0
    ensures forall k :: k in hs[1..] ==> hs[0].comm < k.comm
  {
    forall k | k in hs[1..] ensures hs[0].comm < k.comm {
      var i :| 0 <= i < |hs[1..]| && hs[1..][i] == k;
      assert hs[i + 1] == k;
    }
  }

  /** Sets the history kept for `c`, adding a slot for `c` if there is none. */
  function Upsert(hs: seq<Keyed>, c: CommodityId, h: PH.History): (r: seq<Keyed>)
    requires Sorted(hs)
    ensures Sorted(r)
    ensures Keyed(c, h) in r
    ensures forall k :: k in r ==> k == Keyed(c, h) || k in hs
    decreases |hs|
  {
    if |hs| == 0 then [Keyed(c, h)]
    else if hs[0].comm == c then
      HeadBelowTail(hs);
      [Keyed(c, h)] + hs[1..]
    else if c < hs[0].comm then
      [Keyed(c, h)] + hs
    else
      var rest := Upsert(hs[1..], c, h);
      HeadBelowTail(hs);
      assert forall k :: k in rest ==> hs[0].comm < k.comm;
      [hs[0]] + rest
  }

  /** Upserting adds `c` to the commodities a history is kept for, and no other. */
  lemma {:induction false} UpsertComms(hs: seq<Keyed>, c: CommodityId, h: PH.History)
    requires Sorted(hs)
    ensures Comms(Upsert(hs, c, h)) == Comms(hs) + {c}
    decreases |hs|
  {
    if |hs| == 0 {
      CommsCons(Keyed(c, h), []);
    } else if hs[0].comm == c {
      CommsCons(Keyed(c, h), hs[1..]);
      CommsSplit(hs);
    } else if c < hs[0].comm {
      CommsCons(Keyed(c, h), hs);
    } else {
      UpsertComms(hs[1..], c, h);
      CommsCons(hs[0], Upsert(hs[1..], c, h));
      CommsSplit(hs);
    }
  }

  /** Upserting a well-formed history keeps every history well-formed. */
  lemma UpsertWellFormed(hs: seq<Keyed>, c: CommodityId, h: PH.History)
    requires Sorted(hs) && WellFormed(Keyed(c, h))
    requires forall i :: 0 <= i < |hs| ==> WellFormed(hs[i])
    ensures var r := Upsert(hs, c, h); forall i :: 0 <= i < |r| ==> WellFormed(r[i])
  {
    var r := Upsert(hs, c, h);
    forall i | 0 <= i < |r| ensures WellFormed(r[i]) {
      assert r[i] in r;
      if r[i] != Keyed(c, h) {
        var j :| 0 <= j < |hs| && hs[j] == r[i];
      }
    }
  }

  /** After `Upsert(hs, c, h)`, `c` maps to `h`. */
  lemma {:induction false} UpsertLookup(hs: seq<Keyed>, c: CommodityId, h: PH.History)
    requires Sorted(hs)
    ensures Lookup(Upsert(hs, c, h), c) == Some(h)
    decreases |hs|
  {
    if |hs| > 0 && hs[0].comm < c {
      UpsertLookup(hs[1..], c, h);
      assert Upsert(hs, c, h)[1..] == Upsert(hs[1..], c, h);
    }
  }

  /** `Upsert(hs, c, h)` leaves every other commodity mapped to what it mapped to before. */
  lemma {:induction false} UpsertKeepsOthers(hs: seq<Keyed>, c: CommodityId, h: PH.History, d: CommodityId)
    requires Sorted(hs)
    requires d != c
    ensures Lookup(Upsert(hs, c, h), d) == Lookup(hs, d)
    decreases |hs|
  {
    var r := Upsert(hs, c, h);
    if |hs| == 0 {
    } else if hs[0].comm == c {
      assert r[1..] == hs[1..];
    } else if c < hs[0].comm {
      assert r[1..] == hs;
    } else {
      UpsertKeepsOthers(hs[1..], c, h, d);
      assert r[1..] == Upsert(hs[1..], c, h);
    }
  }

  /**
   * `varied_history_t::history(commodity)`. Without a commodity the single
   * history is returned, and none when there are several; the source
   * dereferences `histories.begin()` of an empty map in that case, so the
   * model requires a commodity or a non-empty map.
   */
  function HistoryOf(v: Varied, commodity: Option<CommodityId>): (r: Option<PH.History>)
    requires Valid(v)
    requires commodity.Some? || |v.histories| > 0
    ensures commodity.None? && |v.histories| > 1 ==> r.None?
    ensures commodity.None? && |v.histories| == 1 ==> r == Some(v.histories[0].hist)
    ensures commodity.Some? ==> (r.Some? <==> commodity.value in Comms(v.histories))
    ensures commodity.Some? && r.Some? ==> Keyed(commodity.value, r.value) in v.histories
  {
    if commodity.None? then
      if |v.histories| > 1 then None
      else
        LookupFinds(v.histories, 0);
        Lookup(v.histories, v.histories[0].comm)
    else
      Lookup(v.histories, commodity.value)
  }

  /**
   * `varied_history_t::add_price(source, date, price, reflexive)`: the price
   * goes into the history kept for its own commodity, created empty first if
   * there is none; no other history changes.
   */
  function AddPrice(v: Varied, source: CommodityId, date: Date, price: Amount, reflexive: bool): (r: (Varied, PH.AddEffect))
    requires Valid(v)
    ensures Valid(r.0)
    ensures price.comm in Comms(r.0.histories)
    ensures forall d :: d != price.comm ==> Lookup(r.0.histories, d) == Lookup(v.histories, d)
    ensures var old_h := Lookup(v.histories, price.comm);
            var h := Lookup(r.0.histories, price.comm);
            h.Some?
            && (forall pt :: pt in h.value.prices <==>
                  pt == PricePoint(date, price) ||
                  (old_h.Some? && pt in old_h.value.prices && pt.when != date))
    ensures r.1 == PH.AddPrice(if price.comm in Comms(v.histories) then Lookup(v.histories, price.comm).value else PH.Empty(),
                               source, date, price, reflexive).1
  {
    var existing := HistoryOf(v, Some(price.comm));
    var hist := if existing.Some? then existing.value else PH.Empty();
    assert PH.Valid(hist) && DenominatedIn(hist, price.comm) by {
      if existing.Some? {
        var i :| 0 <= i < |v.histories| && v.histories[i] == Keyed(price.comm, existing.value);
        assert WellFormed(v.histories[i]);
      }
    }
    var (hist', effect) := PH.AddPrice(hist, source, date, price, reflexive);
    var hs := Upsert(v.histories, price.comm, hist');
    UpsertLookup(v.histories, price.comm, hist');
    assert forall d :: d != price.comm ==> Lookup(hs, d) == Lookup(v.histories, d) by {
      forall d | d != price.comm {
        UpsertKeepsOthers(v.histories, price.comm, hist', d);
      }
    }
    UpsertWellFormed(v.histories, price.comm, hist');
    (Varied(hs), effect)
  }

  /**
   * `varied_history_t::remove_price(date, comm)`: false when no history is
   * kept for `comm`; otherwise the history's own `remove_price`, with every
   * other history unchanged.
   */
  function RemovePrice(v: Varied, date: Date, comm: CommodityId): (r: (Varied, bool))
    requires Valid(v)
    ensures Valid(r.0)
    ensures comm !in Comms(v.histories) ==> !r.1 && r.0 == v
    ensures forall d :: d != comm ==> Lookup(r.0.histories, d) == Lookup(v.histories, d)
    ensures comm in Comms(v.histories) ==>
              var h := Lookup(v.histories, comm).value;
              var h' := Lookup(r.0.histories, comm);
              h'.Some? && (r.1 <==> PH.HasDate(h, date)) && !PH.HasDate(h'.value, date)
              && (forall pt :: pt in h'.value.prices <==> pt in h.prices && pt.when != date)
  {
    var hist := HistoryOf(v, Some(comm));
    if hist.Some? then
      assert PH.Valid(hist.value) && DenominatedIn(hist.value, comm) by {
        var i :| 0 <= i < |v.histories| && v.histories[i] == Keyed(comm, hist.value);
        assert WellFormed(v.histories[i]);
      }
      var (h', removed) := PH.RemovePrice(hist.value, date);
      var hs := Upsert(v.histories, comm, h');
      UpsertLookup(v.histories, comm, h');
      assert forall d :: d != comm ==> Lookup(hs, d) == Lookup(v.histories, d) by {
        forall d | d != comm {
          UpsertKeepsOthers(v.histories, comm, h', d);
        }
      }
      UpsertWellFormed(v.histories, comm, h');
      (Varied(hs), removed)
    else
      (v, false)
  }

  /**
   * `commodity_t::find_price` for the translation step: given the commodity a
   * candidate is priced in and the current `limit`, a price of that commodity
   * in the goal commodity. It walks the commodity pool, which is not part of
   * this model, so it is a parameter.
   */
  type Translate = (CommodityId, Option<Date>) -> Option<PricePoint>

  /**
   * What the history kept for `k.comm` offers under the current `limit`: its
   * own `find_price`, translated into the goal commodity when it is priced
   * in another one. A candidate whose translation fails is dropped; a
   * translated candidate carries the earlier of the two dates.
   */
  function Candidate(k: Keyed, target: Option<CommodityId>, moment: Option<Date>, limit: Option<Date>,
                     translate: Translate): (r: Option<PricePoint>)
    requires WellFormed(k)
    ensures var p := PH.FindPrice(k.hist, moment, limit);
            p.None? ==> r.None?
    ensures var p := PH.FindPrice(k.hist, moment, limit);
            (target.None? || k.comm == target.value) ==> r == p
    ensures var p := PH.FindPrice(k.hist, moment, limit);
            var x := translate(k.comm, limit);
            p.Some? && target.Some? && k.comm != target.value ==>
              (x.None? ==> r.None?)
              && (x.Some? ==> r.Some? && r.value.price == Mul(x.value.price, p.value.price)
                              && r.value.when <= p.value.when && r.value.when <= x.value.when
                              && (r.value.when == p.value.when || r.value.when == x.value.when))
  {
    var point := PH.FindPrice(k.hist, moment, limit);
    if point.None? then None
    else if target.Some? && k.comm != target.value then
      var xlat := translate(k.comm, limit);
      if xlat.None? then None
      else
        var when := if xlat.value.when < point.value.when then xlat.value.when else point.value.when;
        Some(PricePoint(when, Mul(xlat.value.price, point.value.price)))
    else point
  }

  /** A candidate that needs no translation: any commodity is wanted, or exactly this one. */
  predicate Direct(k: Keyed, target: Option<CommodityId>)
  {
    target.None? || k.comm == target.value
  }

  /** The history for `k.comm` has a price not after `moment` that is strictly newer than `limit`. */
  predicate NewerThan(k: Keyed, moment: Option<Date>, limit: Option<Date>)
    requires WellFormed(k)
  {
    var l := PH.Latest(k.hist, moment);
    l.Some? && (limit.None? || l.value.when > limit.value)
  }

  /** `pt` is what the history of `k` yields under some limit. */
  ghost predicate OfferedBy(pt: PricePoint, k: Keyed, target: Option<CommodityId>, moment: Option<Date>, translate: Translate)
    requires WellFormed(k)
  {
    exists lim :: Candidate(k, target, moment, lim, translate) == Some(pt)
  }

  /**
   * The loop of `varied_history_t::find_price` from a given history on, with
   * the current `limit` and best point so far. A candidate replaces the best
   * point only when it is strictly newer than `limit`, and then becomes the
   * new limit; the history kept for `source` itself is skipped.
   */
  function Search(hs: seq<Keyed>, source: CommodityId, target: Option<CommodityId>, moment: Option<Date>,
                  limit: Option<Date>, best: Option<PricePoint>, translate: Translate): (r: Option<PricePoint>)
    requires forall i :: 0 <= i < |hs| ==> WellFormed(hs[i])
    requires best.Some? ==> limit == Some(best.value.when)
    ensures best.Some? ==> r.Some?
    ensures r.Some? && limit.Some? ==> r.value.when >= limit.value
    ensures r.Some? && r != best ==> limit.None? || r.value.when > limit.value
    decreases |hs|
  {
    if |hs| == 0 then best
    else
      var k := hs[0];
      if k.comm == source then
        Search(hs[1..], source, target, moment, limit, best, translate)
      else
        var c := Candidate(k, target, moment, limit, translate);
        if c.Some? && (limit.None? || c.value.when > limit.value) then
          Search(hs[1..], source, target, moment, Some(c.value.when), c, translate)
        else
          Search(hs[1..], source, target, moment, limit, best, translate)
  }

  /** A point the loop picks up is one some history other than `source`'s offers. */
  lemma {:induction false} SearchProvenance(hs: seq<Keyed>, source: CommodityId, target: Option<CommodityId>,
                                            moment: Option<Date>, limit: Option<Date>, best: Option<PricePoint>,
                                            translate: Translate)
    requires forall i :: 0 <= i < |hs| ==> WellFormed(hs[i])
    requires best.Some? ==> limit == Some(best.value.when)
    ensures var r := Search(hs, source, target, moment, limit, best, translate);
            r.Some? && r != best ==>
              exists i :: 0 <= i < |hs| && hs[i].comm != source && OfferedBy(r.value, hs[i], target, moment, translate)
    decreases |hs|
  {
    var r := Search(hs, source, target, moment, limit, best, translate);
    if |hs| > 0 && r.Some? && r != best {
      var k, tail := hs[0], hs[1..];
      var c := Candidate(k, target, moment, limit, translate);
      var taken := k.comm != source && c.Some? && (limit.None? || c.value.when > limit.value);
      var limit', best' := if taken then Some(c.value.when) else limit, if taken then c else best;
      assert r == Search(tail, source, target, moment, limit', best', translate);
      SearchProvenance(tail, source, target, moment, limit', best', translate);
      if r == best' {
        assert taken;
        assert Candidate(hs[0], target, moment, limit, translate) == Some(r.value);
      } else {
        var i :| 0 <= i < |tail| && tail[i].comm != source && OfferedBy(r.value, tail[i], target, moment, translate);
        assert hs[i + 1] == tail[i];
      }
    }
  }

  /**
   * No candidate that needs no translation and is strictly newer than the
   * current limit is passed over: the loop ends with a point at least as new.
   */
  lemma {:induction false} SearchMaximal(hs: seq<Keyed>, source: CommodityId, target: Option<CommodityId>,
                                         moment: Option<Date>, limit: Option<Date>, best: Option<PricePoint>,
                                         translate: Translate, i: nat)
    requires forall j :: 0 <= j < |hs| ==> WellFormed(hs[j])
    requires best.Some? ==> limit == Some(best.value.when)
    requires i < |hs| && hs[i].comm != source && Direct(hs[i], target) && NewerThan(hs[i], moment, limit)
    ensures var r := Search(hs, source, target, moment, limit, best, translate);
            r.Some? && r.value.when >= PH.Latest(hs[i].hist, moment).value.when
    decreases |hs|
  {
    var k, tail := hs[0], hs[1..];
    if i == 0 {
      SearchTakesHead(hs, source, target, moment, limit, best, translate);
    } else {
      assert hs[i] == tail[i - 1];
      var l := PH.Latest(hs[i].hist, moment).value;
      var c := Candidate(k, target, moment, limit, translate);
      if k.comm != source && c.Some? && (limit.None? || c.value.when > limit.value) {
        if l.when > c.value.when {
          SearchMaximal(tail, source, target, moment, Some(c.value.when), c, translate, i - 1);
        }
      } else {
        SearchMaximal(tail, source, target, moment, limit, best, translate, i - 1);
      }
    }
  }

  /** A direct candidate at the head that is newer than the limit is taken. */
  lemma SearchTakesHead(hs: seq<Keyed>, source: CommodityId, target: Option<CommodityId>,
                        moment: Option<Date>, limit: Option<Date>, best: Option<PricePoint>, translate: Translate)
    requires forall j :: 0 <= j < |hs| ==> WellFormed(hs[j])
    requires best.Some? ==> limit == Some(best.value.when)
    requires 0 < |hs| && hs[0].comm != source && Direct(hs[0], target) && NewerThan(hs[0], moment, limit)
    ensures var r := Search(hs, source, target, moment, limit, best, translate);
            r.Some? && r.value.when >= PH.Latest(hs[0].hist, moment).value.when
  {
    PH.FindPriceFiltersLatest(hs[0].hist, moment, limit);
  }

  /**
   * `varied_history_t::find_price(source, commodity, moment, oldest)`: among
   * the histories kept for commodities other than `source`, the price whose
   * date is the latest and strictly newer than `oldest`. The source asserts
   * that the goal commodity is not `source` itself.
   */
  function FindPrice(v: Varied, source: CommodityId, target: Option<CommodityId>, moment: Option<Date>,
                     oldest: Option<Date>, translate: Translate): (r: Option<PricePoint>)
    requires Valid(v)
    requires target.None? || target.value != source
    ensures r.Some? && oldest.Some? ==> r.value.when > oldest.value
    ensures r.Some? ==> exists i :: 0 <= i < |v.histories| && v.histories[i].comm != source
                          && OfferedBy(r.value, v.histories[i], target, moment, translate)
    ensures forall i :: 0 <= i < |v.histories| && v.histories[i].comm != source && Direct(v.histories[i], target)
                          && NewerThan(v.histories[i], moment, oldest) ==>
              r.Some? && r.value.when >= PH.Latest(v.histories[i].hist, moment).value.when
  {
    SearchProvenance(v.histories, source, target, moment, oldest, None, translate);
    forall i | 0 <= i < |v.histories| && v.histories[i].comm != source && Direct(v.histories[i], target)
                 && NewerThan(v.histories[i], moment, oldest)
      ensures var r := Search(v.histories, source, target, moment, oldest, None, translate);
              r.Some? && r.value.when >= PH.Latest(v.histories[i].hist, moment).value.when
    {
      SearchMaximal(v.histories, source, target, moment, oldest, None, translate, i);
    }
    Search(v.histories, source, target, moment, oldest, None, translate)
  }

  /** The histories kept for commodities other than `source`, in order. */
  function Others(hs: seq<Keyed>, source: CommodityId): (r: seq<Keyed>)
    ensures forall k :: k in r ==> k in hs && k.comm != source
  {
    if |hs| == 0 then []
    else (if hs[0].comm == source then [] else [hs[0]]) + Others(hs[1..], source)
  }

  lemma OthersWellFormed(hs: seq<Keyed>, source: CommodityId)
    requires forall i :: 0 <= i < |hs| ==> WellFormed(hs[i])
    ensures var os := Others(hs, source); forall i :: 0 <= i < |os| ==> WellFormed(os[i])
  {
    var os := Others(hs, source);
    forall i | 0 <= i < |os| ensures WellFormed(os[i]) {
      assert os[i] in os;
      var j :| 0 <= j < |hs| && hs[j] == os[i];
    }
  }

  /** The loop's outcome depends only on the histories of commodities other than `source`. */
  lemma {:induction false} SearchSkipsSource(hs: seq<Keyed>, source: CommodityId, target: Option<CommodityId>,
                                             moment: Option<Date>, limit: Option<Date>, best: Option<PricePoint>,
                                             translate: Translate)
    requires forall i :: 0 <= i < |hs| ==> WellFormed(hs[i])
    requires best.Some? ==> limit == Some(best.value.when)
    ensures var os := Others(hs, source);
            (forall i :: 0 <= i < |os| ==> WellFormed(os[i])) &&
            Search(hs, source, target, moment, limit, best, translate) ==
            Search(os, source, target, moment, limit, best, translate)
    decreases |hs|
  {
    var os := Others(hs, source);
    OthersWellFormed(hs, source);
    if |hs| > 0 {
      var tail := hs[1..];
      var c := Candidate(hs[0], target, moment, limit, translate);
      var taken := hs[0].comm != source && c.Some? && (limit.None? || c.value.when > limit.value);
      var limit', best' := if taken then Some(c.value.when) else limit, if taken then c else best;
      SearchSkipsSource(tail, source, target, moment, limit', best', translate);
      if hs[0].comm == source {
        assert os == Others(tail, source);
      } else {
        assert os == [hs[0]] + Others(tail, source);
        assert os[1..] == Others(tail, source);
      }
    }
  }

  /**
   * `find_price` never consults the history kept for `source` itself: two
   * varied histories that agree on every other commodity give the same answer.
   */
  lemma FindPriceIgnoresSource(v: Varied, w: Varied, source: CommodityId, target: Option<CommodityId>,
                               moment: Option<Date>, oldest: Option<Date>, translate: Translate)
    requires Valid(v) && Valid(w)
    requires target.None? || target.value != source
    requires Others(v.histories, source) == Others(w.histories, source)
    ensures FindPrice(v, source, target, moment, oldest, translate) == FindPrice(w, source, target, moment, oldest, translate)
  {
    SearchSkipsSource(v.histories, source, target, moment, oldest, None, translate);
    SearchSkipsSource(w.histories, source, target, moment, oldest, None, translate);
  }
}

=== FILE: wrappers.dfy ===
/** Failure-carrying result types shared by the model. */
module Wrappers {

  /** An optional value; stands in for `boost::optional` and for nullable pointers. */
  datatype Option<+T> = None | Some(value: T)

  /** Either a value or the error a C++ `throw_` would raise. */
  datatype Result<+T, +E> = Success(value: T) | Failure(error: E)
}

=== FILE: xdata.dfy ===
/**
 * The report-time side data that ledger attaches to transactions (postings)
 * and accounts while a report runs, with its display-flag bits, and the
 * journal items the handler pipeline walks over.
 */
module Xdata {

  /** `unsigned short dflags`. */
  type Flags = bv16

  const TRANSACTION_RECEIVED: Flags := 0x0001
  const TRANSACTION_HANDLED: Flags := 0x0002
  const TRANSACTION_TO_DISPLAY: Flags := 0x0004
  const TRANSACTION_DISPLAYED: Flags := 0x0008
  const TRANSACTION_NO_TOTAL: Flags := 0x0010
  const TRANSACTION_SORT_CALC: Flags := 0x0020
  const TRANSACTION_COMPOSITE: Flags := 0x0040
  const TRANSACTION_MATCHES: Flags := 0x0080

  const ACCOUNT_TO_DISPLAY: Flags := 0x0001
  const ACCOUNT_DISPLAYED: Flags := 0x0002
  const ACCOUNT_SORT_CALC: Flags := 0x0004
  const ACCOUNT_HAS_NON_VIRTUALS: Flags := 0x0008
  const ACCOUNT_HAS_UNB_VIRTUALS: Flags := 0x0010

  const TRANSACTION_FLAGS: seq<Flags> := [
    TRANSACTION_RECEIVED, TRANSACTION_HANDLED, TRANSACTION_TO_DISPLAY, TRANSACTION_DISPLAYED,
    TRANSACTION_NO_TOTAL, TRANSACTION_SORT_CALC, TRANSACTION_COMPOSITE, TRANSACTION_MATCHES]

  const ACCOUNT_FLAGS: seq<Flags> := [
    ACCOUNT_TO_DISPLAY, ACCOUNT_DISPLAYED, ACCOUNT_SORT_CALC,
    ACCOUNT_HAS_NON_VIRTUALS, ACCOUNT_HAS_UNB_VIRTUALS]

  /** A flag word with exactly one bit set. */
  predicate SingleBit(f: Flags)
  {
    f != 0 && f & (f - 1) == 0
  }

  /** Every flag of a family is one bit, and no two share a bit. */
  predicate DistinctBits(fs: seq<Flags>)
  {
    (forall i :: 0 <= i < |fs| ==> SingleBit(fs[i]))
    && (forall i, j :: 0 <= i < j < |fs| ==> fs[i] & fs[j] == 0)
  }

  lemma FlagFamiliesAreDistinctBits()
    ensures DistinctBits(TRANSACTION_FLAGS)
    ensures DistinctBits(ACCOUNT_FLAGS)
  {
  }

  /** A day of the week as `tm_wday` numbers it, Sunday being 0. */
  type Weekday = w: nat | w < 7

  /**
   * A `transaction_t` (a posting) as the pipeline sees it: its identity, the
   * entry and account it belongs to, the weekday of its entry's date (which
   * the source obtains from `std::localtime`), and its amount.
   */
  datatype Xact = Xact(id: nat, entry: nat, account: nat, weekday: Weekday, amount: int)

  /** An `entry_t`: a dated group of postings. */
  datatype Entry = Entry(id: nat, xacts: seq<Xact>)

  /** `transaction_xdata_t`; values are integers here. */
  datatype XactXdata = XactXdata(
    total: int, sortValue: int, compositeAmount: int, index: nat, dflags: Flags, date: int)

  /** `account_xdata_t`. */
  datatype AccountXdata = AccountXdata(
    value: int, total: int, sortValue: int, count: nat, totalCount: nat, virtuals: nat, dflags: Flags)

  /** A freshly constructed `transaction_xdata_t`. */
  const FRESH_XACT_XDATA: XactXdata := XactXdata(0, 0, 0, 0, 0, 0)

  /** A freshly constructed `account_xdata_t`. */
  const FRESH_ACCOUNT_XDATA: AccountXdata := AccountXdata(0, 0, 0, 0, 0, 0, 0)

  /** The two global pools, keyed by transaction and by account. */
  datatype Store = Store(xacts: map<nat, XactXdata>, accounts: map<nat, AccountXdata>)

  /**
   * `transaction_xdata(xact)`: the record attached to a transaction, a fresh
   * one when none is attached yet.
   */
  function XdataOf(st: Store, id: nat): (r: XactXdata)
    ensures id !in st.xacts ==> r.index == 0 && r.dflags == 0 && r.date == 0
    ensures id in st.xacts ==> r == st.xacts[id]
  {
    if id in st.xacts then st.xacts[id] else FRESH_XACT_XDATA
  }

  /**
   * `account_xdata(account)`: the record attached to an account, a fresh one
   * when none is attached yet.
   */
  function AccountXdataOf(st: Store, id: nat): (r: AccountXdata)
    ensures id !in st.accounts ==> r.count == 0 && r.totalCount == 0 && r.virtuals == 0 && r.dflags == 0
    ensures id in st.accounts ==> r == st.accounts[id]
  {
    if id in st.accounts then st.accounts[id] else FRESH_ACCOUNT_XDATA
  }

  /** `transaction_xdata(xact).dflags |= flag`: only that record changes, and only in its flags. */
  function SetFlag(st: Store, id: nat, flag: Flags): (r: Store)
    ensures r.accounts == st.accounts
    ensures id in r.xacts
    ensures XdataOf(r, id) == XdataOf(st, id).(dflags := XdataOf(st, id).dflags | flag)
    ensures forall other :: other != id ==> XdataOf(r, other) == XdataOf(st, other)
  {
    var x := XdataOf(st, id);
    var x' := x.(dflags := x.dflags | flag);
    st.(xacts := st.xacts[id := x'])
  }

  /** `clear_all_xdata`: both pools are emptied. */
  function ClearAll(st: Store): (r: Store)
    ensures forall id :: XdataOf(r, id) == FRESH_XACT_XDATA
    ensures forall id :: AccountXdataOf(r, id) == FRESH_ACCOUNT_XDATA
  {
    Store(map[], map[])
  }
}
